=== FILE: README.md ===
# Skinventra asset ingestion and portfolio core, in Dafny

This project models the parts of the Skinventra backend that decide behaviour:

- **Steam Community Market provider:**
  - the offset-stepping page loop with its batch buffer;
  - the retry wrapper;
  - category selection and priority order;
  - the full-catalogue and price walks.
- **Request rate limiter:** the one the provider waits on.
- **Item mapper and filter rules:** turn raw market listings into assets.
- **Asset service:** its two write paths into the asset table, plus its database-error labels.
- **Sync scheduler:** a single-flight state machine.
- **Provider strategy:** a registry of providers.
- **Portfolio service:** transaction rules, the average-cost holdings fold and the summary.
- **Per-IP request limit middleware.**
- **`.env` loader:** the loader at the top of the tunnel start script.

Everything is modelled with immutable datatypes and pure functions. The few loops are methods with invariants. Some things the source reads from the outside world; these become parameters:

- the clock;
- `Math.random()`;
- the HTTP responses (a page source, or the outcome of each attempt);
- the exceptions thrown by the database and by batch callbacks (oracles indexed by position or batch number);
- the time of each database write.

Modules, one file each:

| module | file | models |
|---|---|---|
| `Wrappers` | wrappers.dfy | `Option` / `Result` |
| `JsText` | js_text.dfy | JavaScript `trim()` white space, line terminators, ASCII case folding, `startsWith` / `includes` |
| `SteamConfig` | steam_config.dfy | `STEAM_MARKET_CONFIG` and `ASSET_CATEGORIES` |
| `AssetFilters` | asset_filters.dfy | `shouldFilterAsset`, `getFilterStatistics` |
| `AssetMapper` | asset_mapper.dfy | `mapItems`, `parsePrice`, `filterAssets`, `mapAndFilterItems` |
| `RateLimiter` | rate_limiter.dfy | `RateLimiter` |
| `FetchRetry` | fetch_retry.dfy | `fetchWithRetry` |
| `PageTraversal` | page_traversal.dfy | `fetchAssetsBatchInternal` |
| `CategoryTraversal` | category_traversal.dfy | `fetchAssetsByCategory`, `fetchAssetsByPriority`, `getAllAssets`, `getCurrentPrices` |
| `AssetService` | asset_service.dfy | `syncAssets`, `syncAssetsFast`, `categorizeDbError`, `isPrismaError`, the `searchAssets` guard |
| `ProviderRegistry` | provider_registry.dfy | `AssetProviderStrategy` |
| `SyncScheduler` | sync_scheduler.dfy | `AssetSyncScheduler` |
| `Portfolio` | portfolio.dfy | `PortfolioTransactionService` |
| `IpRateLimit` | ip_rate_limit.dfy | `RateLimitMiddleware` |
| `EnvFile` | env_file.dfy | the `.env` loop of `start-tunnel.js` |

A critical HTTP status does not stop a traversal. In the code, `fetchWithRetry` does throw at once without retrying. But the page loop wraps the call in its own `try` and handles that error like any other: it counts one consecutive error and moves on to the next offset. The model follows the code, and `PageTraversal.CriticalStatusIsCaught` states it.

## Model

| member | source | states |
|---|---|---|
| SteamConfig.CategoriesWellFormed | apps/api/src/asset/providers/steam-market.config.ts:57-88 | the five configured categories have distinct ids and are declared in strictly ascending priority |
| JsText.TrimEmptyIffBlank | apps/api/src/asset/asset.service.ts:113 | `trim()` yields the empty string exactly when every character is JavaScript white space |
| JsText.Utf16LengthCounts | apps/api/src/asset/asset.service.ts:19 | a string's JavaScript length is its number of characters plus one for each character above U+FFFF, which takes a surrogate pair |
| JsText.Utf16LengthIsCountIffBmp | apps/api/src/asset/asset.service.ts:19 | the JavaScript length equals the character count exactly when no character lies above U+FFFF |
| AssetFilters.FirstMatch | apps/api/src/asset/asset-filters.config.ts:39-50 | the rule returned is the first in declaration order whose pattern matches; no rule is returned iff no rule matches |
| AssetFilters.ConfiguredRuleExcludesStickerSlabs | apps/api/src/asset/asset-filters.config.ts:13-19 | the configured rule set excludes a name iff it starts with the "Sticker Slab" prefix and its bar, ignoring ASCII case, and then names the sticker-slab rule |
| AssetFilters.StickerSlabExamples | apps/api/src/asset/asset-filters.config.ts:13-19 | "Sticker Slab" names (a Holo one and its lower-case form) are excluded, while a plain sticker name passes |
| AssetFilters.Bump | apps/api/src/asset/asset-filters.config.ts:76-77 | a tally increment adds the key if missing, raises its count by one and leaves every other count alone |
| AssetFilters.FilterStatisticsCounts | apps/api/src/asset/asset-filters.config.ts:64-83 | total is the input length; filtered plus passed is the total; filtered counts the names some rule matches; each breakdown entry counts the names whose first matching rule has that id, and ids absent from the breakdown match no name |
| AssetFilters.ConfiguredBreakdown | apps/api/src/asset/asset-filters.config.ts:71-81 | with the configured rules the breakdown is empty or the single entry "sticker-slab-charms" mapped to filtered |
| AssetFilters.StatisticsExample | apps/api/src/asset/asset-filters.config.ts:64-83 | one Sticker Slab input gives total 1, filtered 1, passed 0 and the breakdown {"sticker-slab-charms": 1} |
| AssetMapper.ChooseName | apps/api/src/asset/helpers/asset-mapper.helper.ts:52-55 | the name is market_hash_name if non-empty, else the description's name if non-empty, else the item's name; empty strings fall through |
| AssetMapper.IconUrl | apps/api/src/asset/helpers/asset-mapper.helper.ts:56-58 | the icon is present iff icon_url is present and non-empty, and is then the base URL followed by icon_url |
| AssetMapper.CleanPrice | apps/api/src/asset/helpers/asset-mapper.helper.ts:99 | the cleaned text is no longer than the input and holds only digits, '.' and ',' |
| AssetMapper.CleanPriceAppend | apps/api/src/asset/helpers/asset-mapper.helper.ts:99 | cleaning works character by character: it distributes over concatenation |
| AssetMapper.CleanPriceKeepsPriceText | apps/api/src/asset/helpers/asset-mapper.helper.ts:99 | text of only digits, '.' and ',' is kept unchanged and in order |
| AssetMapper.CleanPriceDigits | apps/api/src/asset/helpers/asset-mapper.helper.ts:99 | the cleaned text contains a digit iff the original does |
| AssetMapper.ReplaceFirstCommaSpec | apps/api/src/asset/helpers/asset-mapper.helper.ts:100 | only the first ',' becomes '.'; text without a comma is unchanged |
| AssetMapper.ReplaceFirstCommaDigits | apps/api/src/asset/helpers/asset-mapper.helper.ts:100 | replacing the comma changes no digit position |
| AssetMapper.LeadingDigits | apps/api/src/asset/helpers/asset-mapper.helper.ts:100 | the digit run at the front of the text is maximal |
| AssetMapper.ParseDecimalPrefix | apps/api/src/asset/helpers/asset-mapper.helper.ts:100 | the longest decimal prefix gives a non-negative number; text starting with a digit always parses; a parsed text contains a digit |
| AssetMapper.ParsePrice | apps/api/src/asset/helpers/asset-mapper.helper.ts:96-102 | missing or empty price text gives no price (never 0); a price, when given, is non-negative |
| AssetMapper.NoDigitsNoPrice | apps/api/src/asset/helpers/asset-mapper.helper.ts:99-102 | price text without a digit gives no price |
| AssetMapper.DollarPriceCleaning | apps/api/src/asset/helpers/asset-mapper.helper.ts:99-100 | "$1,234.56" cleans to "1,234.56", which becomes "1.234.56" |
| AssetMapper.DollarPriceExample | apps/api/src/asset/helpers/asset-mapper.helper.ts:96-102 | "$1,234.56" is parsed as 1.234 |
| AssetMapper.ZeroPriceExample | apps/api/src/asset/helpers/asset-mapper.helper.ts:96-102 | "0,00" is the defined price 0, while a missing or empty text is no price |
| AssetMapper.MapItems | apps/api/src/asset/helpers/asset-mapper.helper.ts:50-61 | mapping keeps length and order: the i-th asset is the mapping of the i-th item |
| AssetMapper.Passing | apps/api/src/asset/helpers/asset-mapper.helper.ts:70-81 | the reference selection contains exactly the input assets no rule matches, and is no longer than the input |
| AssetMapper.PassingAppend | apps/api/src/asset/helpers/asset-mapper.helper.ts:70-81 | the selection is taken asset by asset: it distributes over concatenation, so order is kept |
| AssetMapper.FilterAssets | apps/api/src/asset/helpers/asset-mapper.helper.ts:66-91 | kept plus excluded is the number of inputs |
| AssetMapper.FilterAssetsIsPassing | apps/api/src/asset/helpers/asset-mapper.helper.ts:66-91 | the kept assets are exactly the order-preserving selection of assets whose name no rule matches |
| AssetMapper.FilterAssetsTallyByReason | apps/api/src/asset/helpers/asset-mapper.helper.ts:71-76 | exclusions are tallied under the rule's reason, not its id |
| AssetMapper.MapAndFilterCharacterised | apps/api/src/asset/helpers/asset-mapper.helper.ts:27-44 | the output is the order-preserving subsequence of mapped items whose name no rule matches |
| AssetMapper.MapAndFilterAppend | apps/api/src/asset/helpers/asset-mapper.helper.ts:27-44 | mapping and filtering two lists of items is mapping and filtering each, concatenated |
| RateLimiter.Prune | apps/api/src/asset/helpers/rate-limiter.helper.ts:75-79 | pruning keeps exactly the occurrences of timestamps strictly after now minus the window, and never grows the list |
| RateLimiter.PruneAppend | apps/api/src/asset/helpers/rate-limiter.helper.ts:75-79 | pruning distributes over concatenation, so it preserves order |
| RateLimiter.PruneKeepsSorted | apps/api/src/asset/helpers/rate-limiter.helper.ts:78 | pruning a sorted list leaves it sorted |
| RateLimiter.PruneDropsExpired | apps/api/src/asset/helpers/rate-limiter.helper.ts:75-79 | a list holding an expired timestamp strictly shrinks |
| RateLimiter.RecordRequest | apps/api/src/asset/helpers/rate-limiter.helper.ts:64-66 | recording grows the list by at most one, and with a positive window the new timestamp is retained as the last |
| RateLimiter.RecordRequestKeepsSorted | apps/api/src/asset/helpers/rate-limiter.helper.ts:64-66 | with a clock that does not go back, the list stays sorted, so index 0 is the oldest request |
| RateLimiter.MinDelayMs | apps/api/src/asset/helpers/rate-limiter.helper.ts:19-21 | the minimum delay is the ceiling of window / max requests |
| RateLimiter.Jitter | apps/api/src/asset/helpers/rate-limiter.helper.ts:52-54 | the jitter lies in [min, max) when min < max, equals min when they coincide, and lies in (max, min] when they are swapped |
| RateLimiter.WaitForRateLimit | apps/api/src/asset/helpers/rate-limiter.helper.ts:23-62 | a cooldown happens iff the pruned list is at capacity and the oldest request is still inside the window; it lasts the time left plus 1000 ms and is followed by a second prune; the delay is the ceiling of window / max requests; the jitter lies in the configured range (default 0) |
| RateLimiter.WaitNeverAdds | apps/api/src/asset/helpers/rate-limiter.helper.ts:23-62 | waiting never adds a timestamp: the list afterwards is a sub-multiset of the one before |
| RateLimiter.WaitThenRecordStaysUnderCap | apps/api/src/asset/helpers/rate-limiter.helper.ts:23-79 | when a request follows a wait whose cooldown, if any, has elapsed, and the window was within the cap on entry, recording the request keeps the window within the cap |
| RateLimiter.CooldownFreesASlot | apps/api/src/asset/helpers/rate-limiter.helper.ts:35-42 | if the clock advanced by at least the cooldown, the second prune removes at least one timestamp |
| RateLimiter.SteamSpacing | apps/api/src/asset/helpers/rate-limiter.helper.ts:47-54 | with the Steam configuration every call waits 500 ms plus a jitter in [0, 500) |
| RateLimiter.GetStats | apps/api/src/asset/helpers/rate-limiter.helper.ts:85-92 | the stats report the post-prune count and the configured maximum and window, and leave the pruned list behind |
| FetchRetry.RetryFrom | apps/api/src/asset/providers/steam-market.provider.ts:569-685 | from attempt i: every attempt but the last was retryable; the sleeps are 2000·(k+1); a request is recorded iff the call succeeds; success returns the delivered body, a critical status fails at once with that status, and exhaustion fails after exactly maxRetries attempts carrying the last error |
| FetchRetry.FetchWithRetry | apps/api/src/asset/providers/steam-market.provider.ts:569-685 | a budget below one makes no attempt and fails; otherwise between 1 and maxRetries attempts are made |
| FetchRetry.FetchWithRetryDecided | apps/api/src/asset/providers/steam-market.provider.ts:569-685 | when the first non-retryable attempt is the k-th, exactly k+1 attempts and k sleeps are made; the result is that attempt's body (recorded) or its critical status (not recorded) |
| FetchRetry.ExhaustsBudget | apps/api/src/asset/providers/steam-market.provider.ts:670-682 | if every attempt fails retryably, all maxRetries attempts are made with linearly growing sleeps and the last error is rethrown, with no request recorded |
| FetchRetry.DefaultBackoff | apps/api/src/asset/providers/steam-market.provider.ts:677-682 | with the default three attempts the backoff sleeps are 2000 and 4000 ms |
| PageTraversal.Init | apps/api/src/asset/providers/steam-market.provider.ts:371-384 | a traversal starts running at the start offset with nothing requested, fetched or emitted |
| PageTraversal.CountError | apps/api/src/asset/providers/steam-market.provider.ts:497-524 | a caught error raises the consecutive-error count by one, stops the loop iff the count reaches 3, and otherwise advances the offset by PAGE_SIZE |
| PageTraversal.PageDone | apps/api/src/asset/providers/steam-market.provider.ts:489-496 | a completed page resets the error count to 0 and stops iff the processed count reached the total, else advances by PAGE_SIZE |
| PageTraversal.Absorb | apps/api/src/asset/providers/steam-market.provider.ts:454-496 | a buffer holding at least batchSize assets is emitted with the next batch number and cleared only if the callback returns; a throwing callback counts as a consecutive error |
| PageTraversal.Step | apps/api/src/asset/providers/steam-market.provider.ts:397-525 | one iteration requests the current offset, appends the page's mapped and filtered assets, fixes totalCount at the first accepted page, and advances the offset by PAGE_SIZE when it continues |
| PageTraversal.StepOnError | apps/api/src/asset/providers/steam-market.provider.ts:412-418 | a failed or success=false page counts one consecutive error and emits nothing |
| PageTraversal.StepOnEmptyPage | apps/api/src/asset/providers/steam-market.provider.ts:431-437 | an accepted page with no items stops the loop |
| PageTraversal.StepOnPage | apps/api/src/asset/providers/steam-market.provider.ts:443-496 | a non-empty page resets the error count and stops iff the processed count reached totalCount, unless the batch callback threw, which counts as an error |
| PageTraversal.StepPreservesWf | apps/api/src/asset/providers/steam-market.provider.ts:397-525 | each iteration keeps the loop invariant: the k-th request is at start + k·PAGE_SIZE; the fetched assets and totalCount match the page source; batches are numbered, sized and re-sent after a throw |
| PageTraversal.Finish | apps/api/src/asset/providers/steam-market.provider.ts:527-536 | a non-empty remainder is emitted once as the final batch; an empty one emits nothing |
| PageTraversal.FinishFlushes | apps/api/src/asset/providers/steam-market.provider.ts:527-536 | flushing a non-empty remainder completes a traversal with all its guarantees |
| PageTraversal.FinishCompleted | apps/api/src/asset/providers/steam-market.provider.ts:527-536 | whatever is left in the buffer, the final flush of a stopped loop completes the traversal |
| PageTraversal.StepStopsIff | apps/api/src/asset/providers/steam-market.provider.ts:412-518 | an iteration ends the loop iff its page failed or was refused for the third time in a row, was accepted with no items, made the batch callback throw for the third error in a row, or brought the processed count up to totalCount |
| PageTraversal.RunUnfold | apps/api/src/asset/providers/steam-market.provider.ts:397-525 | the loop stops right after the first iteration that meets a stop rule; any other iteration is followed by the rest of the loop |
| PageTraversal.RunPreservesWf | apps/api/src/asset/providers/steam-market.provider.ts:397-525 | the loop invariant holds after any number of iterations |
| PageTraversal.RunRequests | apps/api/src/asset/providers/steam-market.provider.ts:397-410 | every iteration requests one page: a loop still running after n iterations made n requests, and a stopped one made at least one |
| PageTraversal.RunFuelMonotone | apps/api/src/asset/providers/steam-market.provider.ts:397-525 | once the loop has stopped, further iterations change nothing |
| PageTraversal.TraverseCompleted | apps/api/src/asset/providers/steam-market.provider.ts:360-543 | with no budget there is no result; a result made between 1 and the budget's page requests and is a completed traversal |
| PageTraversal.TraverseFuelMonotone | apps/api/src/asset/providers/steam-market.provider.ts:360-543 | a traversal that finishes within some budget gives the same result under any larger budget |
| PageTraversal.FetchAssetsBatch | apps/api/src/asset/providers/steam-market.provider.ts:360-543 | the result is the loop run until a stop rule holds, then flushed, with between 1 and fuel page requests (none with fuel 0); it is a completed traversal: requests at start + k·PAGE_SIZE; batches numbered 1, 2, 3, …; every batch but the last at least batchSize; none empty for a positive batch size; totalCount from the first accepted page; the delivered batches, plus the final one if it threw, are exactly the mapped and filtered assets of every accepted page in page order; a batch whose callback threw is re-sent at the front of the next |
| PageTraversal.NoThrowDeliversAll | apps/api/src/asset/providers/steam-market.provider.ts:444-474 | if no callback throws, the emitted batches concatenate to every accepted page's assets in page order |
| PageTraversal.CriticalStatusIsCaught | apps/api/src/asset/providers/steam-market.provider.ts:497-524 | a critical HTTP status on a page's first attempt is caught by the page loop and counted as one consecutive error; the loop moves on unless that was the third in a row |
| CategoryTraversal.FindIn | apps/api/src/asset/providers/steam-market.provider.ts:189 | lookup by id returns the first category with that id, and nothing iff no category has it |
| CategoryTraversal.FetchByCategory | apps/api/src/asset/providers/steam-market.provider.ts:189-214 | an unknown id, and only an unknown id, throws 'Category not found' naming it, before any request; a known id gives exactly the traversal of that category's search query from the start offset, completed and with between 1 and fuel requests |
| CategoryTraversal.Requested | apps/api/src/asset/providers/steam-market.provider.ts:231-232 | the selection holds exactly the configured categories whose id is requested (all of them without a list); unknown requested ids are ignored |
| CategoryTraversal.SortByPriority | apps/api/src/asset/providers/steam-market.provider.ts:233 | the sort yields a priority-ordered permutation of its input |
| CategoryTraversal.SelectCategoriesCharacterised | apps/api/src/asset/providers/steam-market.provider.ts:231-233 | the visited categories are the requested configured ones in declaration order, which is ascending priority |
| CategoryTraversal.SelectSomeExample | apps/api/src/asset/providers/steam-market.provider.ts:231-233 | requesting patches, an unknown id and stickers visits stickers then patches |
| CategoryTraversal.FetchByPriority | apps/api/src/asset/providers/steam-market.provider.ts:220-283 | the i-th visited run is exactly the traversal of the i-th selected category, and only the first receives the start offset; a throwing final batch ends the walk; a finished walk visits every selected category and none threw; a walk cut short stops at the first category whose traversal did not finish |
| CategoryTraversal.VisitCategory | apps/api/src/asset/providers/steam-market.provider.ts:248-274 | one iteration runs the i-th selected category's traversal, from the start offset only when i is 0 |
| CategoryTraversal.EachDoneMeans | apps/api/src/asset/providers/steam-market.provider.ts:248-275 | each visited run sits at its own category's position |
| CategoryTraversal.CategoryRunCompleted | apps/api/src/asset/providers/steam-market.provider.ts:256-263 | each category's run is a completed traversal of its query from its own start offset, with between 1 and fuel requests |
| CategoryTraversal.ScanSimulatesBatchLoop | apps/api/src/asset/providers/steam-market.provider.ts:43-152 | the full-catalogue loop is the batch loop's iteration with the batch bookkeeping projected away |
| CategoryTraversal.RunScanSimulatesBatchRun | apps/api/src/asset/providers/steam-market.provider.ts:43-152 | any number of batch-loop iterations, with the batch bookkeeping projected away, is that many full-catalogue iterations |
| CategoryTraversal.FullScanHarvests | apps/api/src/asset/providers/steam-market.provider.ts:34-159 | a finished full walk made between 1 and fuel requests at offsets 0, 10, 20, … and gathered the mapped and filtered assets of every accepted page, with totalCount from the first |
| CategoryTraversal.FullScanIsUnbatchedTraversal | apps/api/src/asset/providers/steam-market.provider.ts:34-159 | the full walk finishes iff the batch traversal of the empty query from offset 0 with a callback that never throws finishes, and then both request the same pages and gather the same assets and total |
| CategoryTraversal.GetAllAssets | apps/api/src/asset/providers/steam-market.provider.ts:34-159 | the result is the full walk; when it finishes it requested offsets 0, 10, 20, …, between 1 and fuel of them, and returns the mapped and filtered assets of every accepted page, with totalCount from the first |
| CategoryTraversal.PricesOfMembership | apps/api/src/asset/providers/steam-market.provider.ts:288-290 | a (name, price) pair is listed iff some asset has that name and that defined price |
| CategoryTraversal.GetCurrentPrices | apps/api/src/asset/providers/steam-market.provider.ts:285-291 | prices are returned iff the full walk finishes, and are then the (name, price) pairs of the priced assets of the pages it requested, in page order |
| AssetService.UnnamedIffTrimEmpty | apps/api/src/asset/asset.service.ts:113 | an asset is rejected for its name iff the trimmed name is empty |
| AssetService.Write | apps/api/src/asset/asset.service.ts:156-222 | a create stores icon and price as given; an update keeps createdAt, overwrites the supplied fields and leaves omitted ones unchanged |
| AssetService.KnownPrismaLabel | apps/api/src/asset/asset.service.ts:345-359 | a listed Prisma code maps to one of the seven fixed labels |
| AssetService.CategorizeDbError | apps/api/src/asset/asset.service.ts:338-373 | listed Prisma codes get their labels, other P-codes 'prisma_error_<code>', anything neither a Prisma error nor an Error 'unknown'; an Error's message is tested for 'timeout', then 'connect', then 'ECONNREFUSED', giving the first match's label, else 'generic_error' |
| AssetService.LabelFamiliesAreDisjoint | apps/api/src/asset/asset.service.ts:338-383 | a label is a Prisma label iff the value is a Prisma error (an object whose string code starts with 'P'), is a message label iff it is a non-Prisma Error, and is 'unknown' otherwise; 'empty_name' never arises |
| AssetService.UnlistedCodesKeepTheirCode | apps/api/src/asset/asset.service.ts:360-361 | two unlisted Prisma codes get the same label iff the codes are equal |
| AssetService.MessageOrderExample | apps/api/src/asset/asset.service.ts:365-369 | 'timeout' is tested before 'connect' |
| AssetService.RefusedConnectionExample | apps/api/src/asset/asset.service.ts:365-369 | "ECONNREFUSED" alone is labelled connection_refused, since its 'connect' is upper case |
| AssetService.NonErrorObjectExample | apps/api/src/asset/asset.service.ts:338-373 | a non-Error object without a code is 'unknown', whatever its message |
| AssetService.SlowStep | apps/api/src/asset/asset.service.ts:107-261 | each asset adds exactly one to created, updated or errors, and touches no row but its own name's |
| AssetService.SlowFold | apps/api/src/asset/asset.service.ts:97-288 | created + updated + errors grows by the number of assets; one detail per asset; rows of names not in the input are unchanged |
| AssetService.SyncAssets | apps/api/src/asset/asset.service.ts:80-336 | created + updated + errors is the number of assets; details are returned iff requested, one per asset; rows of names not in the input are unchanged |
| AssetService.UnnamedIsRejected | apps/api/src/asset/asset.service.ts:113-128 | an empty or blank name counts one error, changes no row and is detailed as 'unnamed', skipped |
| AssetService.SlowDetailsDescribeInputs | apps/api/src/asset/asset.service.ts:119-236 | the k-th detail describes the k-th asset, and is 'skipped' iff the name is blank or its write failed |
| AssetService.SlowLastOccurrenceWins | apps/api/src/asset/asset.service.ts:134-222 | a repeated name is written every time, so its last successful occurrence's icon and price win |
| AssetService.DuplicatesAreWrittenTwice | apps/api/src/asset/asset.service.ts:134-188 | a new name given twice is created, then updated, and counted once as a duplicate |
| AssetService.FastStep | apps/api/src/asset/asset.service.ts:419-466 | each asset adds exactly one to created, updated, errors or silently skipped, and touches no row but its own name's |
| AssetService.FastFold | apps/api/src/asset/asset.service.ts:411-479 | the counts and skips add up to the number of assets; the names seen are the non-blank names of the input; other rows are unchanged |
| AssetService.FastSync | apps/api/src/asset/asset.service.ts:400-491 | the fast path returns no details, counts at most one outcome per asset and changes only the rows of input names |
| AssetService.SyncAssetsFast | apps/api/src/asset/asset.service.ts:400-491 | created + updated + errors + silently skipped is the number of assets, across every chunk of 500 |
| AssetService.FastFirstOccurrenceWins | apps/api/src/asset/asset.service.ts:426-447 | only a name's first occurrence is written, so its values win; a failed write leaves the row unchanged |
| AssetService.FastCountsExistingRow | apps/api/src/asset/asset.service.ts:450-460 | an upsert counts as created iff the row's updatedAt and createdAt differ by less than 100 ms |
| AssetService.FastCountsNewNameAsCreated | apps/api/src/asset/asset.service.ts:442-457 | an upsert of a new name is counted as created |
| AssetService.FastFailureStillMarksSeen | apps/api/src/asset/asset.service.ts:430-466 | a failed upsert counts one error, changes nothing, and still marks the name as seen |
| AssetService.FastRepeatIsSilent | apps/api/src/asset/asset.service.ts:426-429 | a repeated name is skipped without any count and the first values stay |
| AssetService.SearchAssets | apps/api/src/asset/asset.service.ts:18-21 | a missing query, or one whose JavaScript length is below 2 UTF-16 code units, returns [] without querying; otherwise the query's result is returned, so a single emoji is searched |
| ProviderRegistry.Get | apps/api/src/asset/asset-provider.strategy.ts:25 | a map lookup finds the entry for the type, and nothing iff the type is not registered |
| ProviderRegistry.Put | apps/api/src/asset/asset-provider.strategy.ts:15 | setting an existing type replaces its provider in place; a new type is appended; keys stay unique |
| ProviderRegistry.Register | apps/api/src/asset/asset-provider.strategy.ts:14-22 | registration maps the type to the provider, keeps every other type, keeps insertion order, and makes the provider current only if none was |
| ProviderRegistry.RegistrationKeepsCurrent | apps/api/src/asset/asset-provider.strategy.ts:18-21 | once a provider is current, later registrations never change it |
| ProviderRegistry.FirstRegisteredIsCurrent | apps/api/src/asset/asset-provider.strategy.ts:14-22 | starting empty, the first registered provider becomes and stays current |
| ProviderRegistry.SetProvider | apps/api/src/asset/asset-provider.strategy.ts:24-35 | an unregistered type fails naming the available types and changes nothing; a registered one becomes current |
| ProviderRegistry.GetProvider | apps/api/src/asset/asset-provider.strategy.ts:37-42 | getProvider fails iff no provider is current, and otherwise returns it |
| ProviderRegistry.CurrentType | apps/api/src/asset/asset-provider.strategy.ts:44-51 | the current type is the first type in map order whose provider is the current one, else undefined |
| ProviderRegistry.SetThenCurrentType | apps/api/src/asset/asset-provider.strategy.ts:24-51 | after a successful setProvider(t), with each provider registered once, the current type is t |
| ProviderRegistry.ReplacingCurrentOrphansIt | apps/api/src/asset/asset-provider.strategy.ts:14-51 | re-registering the current type with a new object replaces the map entry but not the current provider, which is then under no type |
| ProviderRegistry.Available | apps/api/src/asset/asset-provider.strategy.ts:53-58 | every registered (type, name) pair is listed, in map order |
| SyncScheduler.ChooseMode | apps/api/src/asset/asset-sync.scheduler.ts:64-68 | priority mode iff the category list is non-empty and the provider can walk categories; the start offset is passed on either way |
| SyncScheduler.Absorb | apps/api/src/asset/asset-sync.scheduler.ts:77-111 | an empty batch is ignored; otherwise lastProcessedOffset becomes batchNumber·500, the totals grow by the fast sync's counts and lastSyncCount becomes created + updated |
| SyncScheduler.AbsorbAll | apps/api/src/asset/asset-sync.scheduler.ts:69-161 | one progress entry per non-empty batch; the totals never decrease; the offset is that of the last non-empty batch |
| SyncScheduler.EmptyBatchesIgnored | apps/api/src/asset/asset-sync.scheduler.ts:77-80 | dropping the empty batches changes nothing |
| SyncScheduler.ProgressNeverDecreases | apps/api/src/asset/asset-sync.scheduler.ts:98-100 | the lastSyncCount values seen during a run never decrease and never exceed the totals |
| SyncScheduler.SyncAssets | apps/api/src/asset/asset-sync.scheduler.ts:25-234 | a running scheduler answers 'already running' and changes nothing; otherwise the run ends not running; success sets lastSyncAt; failure leaves it; lastSyncCount tracks the last saved batch; without a provider the run fails |
| SyncScheduler.SuccessfulRun | apps/api/src/asset/asset-sync.scheduler.ts:164-194 | a completed traversal succeeds, and the status then reports the time and created + updated |
| SyncScheduler.FailedRunKeepsSavedBatches | apps/api/src/asset/asset-sync.scheduler.ts:195-228 | a failing traversal rethrows its message, keeps the batches already saved and lastSyncCount, and leaves lastSyncAt unchanged |
| SyncScheduler.OffsetCanDecrease | apps/api/src/asset/asset-sync.scheduler.ts:84 | lastProcessedOffset drops when batch numbers restart (1500 after batch 3, then 500 after batch 1) |
| SyncScheduler.GetSyncStatus | apps/api/src/asset/asset-sync.scheduler.ts:236-242 | the status reports the three fields unchanged |
| Portfolio.VerifyAccess | apps/api/src/portfolio/portfolio-transaction.service.ts:246-260 | a missing portfolio is NotFound before ownership is checked; another user's portfolio is Forbidden; otherwise access passes |
| Portfolio.FindOwned | apps/api/src/portfolio/portfolio-transaction.service.ts:104-112 | after the access check, a missing transaction or one of another portfolio is NotFound |
| Portfolio.GetTransaction | apps/api/src/portfolio/portfolio-transaction.service.ts:77-96 | a transaction is returned iff access passes and it belongs to the portfolio |
| Portfolio.PortfolioTransactions | apps/api/src/portfolio/portfolio-transaction.service.ts:63-75 | the listing holds exactly the portfolio's transactions, after the access check |
| Portfolio.CreateTransaction | apps/api/src/portfolio/portfolio-transaction.service.ts:35-61 | after the access check, the new transaction has totalPrice = price × quantity and the given date or now, and is added under its id |
| Portfolio.Patch | apps/api/src/portfolio/portfolio-transaction.service.ts:114-127 | only supplied fields change; totalPrice is recomputed from the new or old quantity and price iff either was supplied |
| Portfolio.UpdateTransaction | apps/api/src/portfolio/portfolio-transaction.service.ts:98-138 | an update succeeds iff the transaction is found in an accessible portfolio, and changes only that transaction |
| Portfolio.DeleteTransaction | apps/api/src/portfolio/portfolio-transaction.service.ts:140-158 | a delete succeeds iff the transaction is found in an accessible portfolio, and removes only it |
| Portfolio.ForeignPortfolioRefused | apps/api/src/portfolio/portfolio-transaction.service.ts:255-257 | reading, updating or deleting in another user's portfolio is Forbidden |
| Portfolio.NotesOnlyUpdateKeepsTotal | apps/api/src/portfolio/portfolio-transaction.service.ts:123-127 | an update of only the notes keeps totalPrice |
| Portfolio.Apply | apps/api/src/portfolio/portfolio-transaction.service.ts:191-212 | BUY and TRANSFER_IN add quantity and totalPrice; SELL and TRANSFER_OUT subtract quantity and reset the investment when nothing remains; averagePrice is invested / quantity when positive, else 0 |
| Portfolio.PartialSellScalesInvestment | apps/api/src/portfolio/portfolio-transaction.service.ts:199-202 | a sell leaving a positive quantity scales totalInvested by remaining / previous quantity |
| Portfolio.PartialSellKeepsAverage | apps/api/src/portfolio/portfolio-transaction.service.ts:200-210 | a sell leaving a positive quantity keeps the average price |
| Portfolio.FullSellResets | apps/api/src/portfolio/portfolio-transaction.service.ts:203-205 | a sell leaving no positive quantity resets invested and average to 0 |
| Portfolio.FirstAppearance | apps/api/src/portfolio/portfolio-transaction.service.ts:169-214 | the asset ids in order of first transaction are distinct and are exactly the ids transacted |
| Portfolio.FoldIds | apps/api/src/portfolio/portfolio-transaction.service.ts:169-214 | the holdings map has one entry per transacted asset, in order of the asset's first transaction |
| Portfolio.FoldTracks | apps/api/src/portfolio/portfolio-transaction.service.ts:180-214 | every holding's quantity is the net of its asset's inflows and outflows, its transactions are its asset's transactions in order, and its average follows the rule |
| Portfolio.InvestedNonNegative | apps/api/src/portfolio/portfolio-transaction.service.ts:191-206 | with non-negative transaction totals, no holding's investment goes negative |
| Portfolio.Positive | apps/api/src/portfolio/portfolio-transaction.service.ts:216 | the result holds exactly the holdings with a positive quantity |
| Portfolio.PositiveAppend | apps/api/src/portfolio/portfolio-transaction.service.ts:216 | the filter works holding by holding: it distributes over concatenation, so the kept holdings keep their order |
| Portfolio.PositiveIds | apps/api/src/portfolio/portfolio-transaction.service.ts:216 | filtering holdings that carry their net quantities keeps, in order, exactly the ids with a positive net quantity |
| Portfolio.HoldingsInFirstTransactionOrder | apps/api/src/portfolio/portfolio-transaction.service.ts:169-216 | the reported holdings are one per asset, distinct, in order of the asset's first transaction, and are exactly the assets with a positive net quantity |
| Portfolio.GetHoldings | apps/api/src/portfolio/portfolio-transaction.service.ts:160-217 | holdings fail iff access fails, with the access error; on success they are the positive entries of the average-cost fold of the portfolio's transactions, taken in date order, so every quantity is positive |
| Portfolio.GetHoldingsCharacterised | apps/api/src/portfolio/portfolio-transaction.service.ts:160-217 | with access, every returned holding has a positive quantity, tracks its asset's transactions and names an asset the portfolio transacted; every asset of the portfolio with a positive net quantity is returned; the holdings are one per asset, in order of the asset's first transaction by date |
| Portfolio.HoldingsCharacterised | apps/api/src/portfolio/portfolio-transaction.service.ts:169-216 | a returned holding tracks its asset's transactions; every transacted asset with a positive net quantity is returned |
| Portfolio.FoldOneAsset | apps/api/src/portfolio/portfolio-transaction.service.ts:180-214 | two transactions of one asset fold into one holding, the two applied in order |
| Portfolio.HoldingsExample | apps/api/src/portfolio/portfolio-transaction.service.ts:191-210 | buying 10 for 20 then selling 4 leaves 6 held, 12 invested, average 2 |
| Portfolio.Summarize | apps/api/src/portfolio/portfolio-transaction.service.ts:224-243 | profitLoss is value − invested; the percentage is 0 when invested ≤ 0 and profitLoss / invested · 100 otherwise; holdingsCount is the number of holdings |
| Portfolio.GetSummary | apps/api/src/portfolio/portfolio-transaction.service.ts:219-244 | the summary fails iff access fails, and otherwise summarises the holdings of the portfolio's own transactions |
| Portfolio.SummaryNonNegative | apps/api/src/portfolio/portfolio-transaction.service.ts:227-231 | with non-negative prices and investments, the totals are non-negative |
| Portfolio.EmptyPortfolioSummary | apps/api/src/portfolio/portfolio-transaction.service.ts:224-243 | a portfolio without transactions has an all-zero summary |
| IpRateLimit.ClientKey | apps/api/src/auth/middleware/rate-limit.middleware.ts:18 | the key is the ip, else the socket address, else 'unknown'; empty strings fall through |
| IpRateLimit.NewRecord | apps/api/src/auth/middleware/rate-limit.middleware.ts:46-52 | a new record has count 1 and a window of 60000 ms starting now |
| IpRateLimit.Use | apps/api/src/auth/middleware/rate-limit.middleware.ts:17-44 | only the request's key changes; a missing or expired record is replaced by a fresh one and passes; a 429 is given iff the unexpired record has count ≥ 100, with retryAfter the time left rounded up to seconds and nothing changed; otherwise the count goes up by one |
| IpRateLimit.ClearOldRecords | apps/api/src/auth/middleware/rate-limit.middleware.ts:54-61 | exactly the expired records are deleted; the others are untouched |
| IpRateLimit.UseKeepsInvariant | apps/api/src/auth/middleware/rate-limit.middleware.ts:17-52 | every stored count stays in 1..100 with a one-minute window |
| IpRateLimit.ClearKeepsInvariant | apps/api/src/auth/middleware/rate-limit.middleware.ts:54-61 | clearing keeps the invariant |
| IpRateLimit.RetryAfterBounded | apps/api/src/auth/middleware/rate-limit.middleware.ts:27-35 | the advertised wait is between 0 and 60 seconds |
| IpRateLimit.ClearingIsInvisible | apps/api/src/auth/middleware/rate-limit.middleware.ts:54-61 | clearing old records never changes the answer to a later request |
| IpRateLimit.WindowCapsPasses | apps/api/src/auth/middleware/rate-limit.middleware.ts:27-38 | inside one window a key passes at most the attempts it has left, and its count grows by the passes |
| IpRateLimit.AtMostMaxPerWindow | apps/api/src/auth/middleware/rate-limit.middleware.ts:13-52 | at most 100 requests per key pass in the minute starting at its first request |
| IpRateLimit.HundredAndFirstRefused | apps/api/src/auth/middleware/rate-limit.middleware.ts:27-35 | the 101st request 1.5 s into a window is refused with retryAfter 59 |
| EnvFile.Find | packages/backend/scripts/start-tunnel.js:17 | the first position of the character, or none iff it is absent |
| EnvFile.Split | packages/backend/scripts/start-tunnel.js:16 | splitting on '\n' gives at least one part and no part holds '\n' |
| EnvFile.JoinSplit | packages/backend/scripts/start-tunnel.js:16 | joining the split lines with '\n' restores the file text |
| EnvFile.SplitJoin | packages/backend/scripts/start-tunnel.js:16 | splitting joined newline-free lines gives those lines back |
| EnvFile.MatchesOnlyAtFirst | packages/backend/scripts/start-tunnel.js:17 | the expression can only match at the first '=' |
| EnvFile.ParseLineCharacterised | packages/backend/scripts/start-tunnel.js:17-20 | a line is used iff `^([^=:#]+)=(.*)$` matches it, and it then yields the trimmed text before the first '=' and the trimmed rest |
| EnvFile.ParseComposed | packages/backend/scripts/start-tunnel.js:17-20 | a well-formed KEY=VALUE line yields the trimmed key and value, even when the value holds '=' |
| EnvFile.CommentIgnored | packages/backend/scripts/start-tunnel.js:17 | a line starting with '#' is ignored |
| EnvFile.CarriageReturnIgnored | packages/backend/scripts/start-tunnel.js:16-17 | a line ending in '\r' is ignored, since '.' does not match it |
| EnvFile.ColonOrHashBeforeEqualsIgnored | packages/backend/scripts/start-tunnel.js:17 | a ':' or '#' before the first '=' rejects the line |
| EnvFile.Assign | packages/backend/scripts/start-tunnel.js:21-23 | a variable is set only when it is undefined or empty |
| EnvFile.LoadEnvFile | packages/backend/scripts/start-tunnel.js:14 | a missing file leaves the environment unchanged |
| EnvFile.AssignAllValue | packages/backend/scripts/start-tunnel.js:16-23 | a non-empty existing value is kept; otherwise the first non-empty value in the file wins, a key with only empty values ends up "", and an unmentioned key is untouched |
| EnvFile.AssignAllKeys | packages/backend/scripts/start-tunnel.js:16-23 | after loading, the variables are the existing ones plus every key a matching line names |
| EnvFile.ExistingValueWins | packages/backend/scripts/start-tunnel.js:21-23 | a non-empty variable in the environment is never overwritten |
| EnvFile.RepeatedKeyExample | packages/backend/scripts/start-tunnel.js:16-23 | "PORT=", "PORT=3000", "PORT=4000" leaves PORT=3000 |

## Left out

- HTTP and axios are abstract. The requests, headers, cookies, timeouts and URL building are not modelled. A page is an abstract result: failed, success=false, or accepted with a total and items. One HTTP attempt is an abstract outcome: delivered with or without data, an HTTP status, or no response.
- RateLimiter.WaitForRateLimit: one clock reading `now` serves both the prune on entry and the capacity check, where the source calls `Date.now()` twice (once inside `cleanOldTimestamps`). RateLimiter.RecordRequest likewise uses one reading for the pushed timestamp and its prune. The readings can differ by the milliseconds between the calls, which can change which timestamps are pruned.
- Sleeps, `Date.now()` and `Math.random()` are parameters. The sleeps of RateLimiter.WaitForRateLimit (cooldown, delay, jitter) and of FetchRetry (backoff) appear as durations in their results. The clock reading after a sleep is an input.
- PageTraversal.Step, CategoryTraversal.GetAllAssets: the limiter wait after each page and after each caught error (apps/api/src/asset/providers/steam-market.provider.ts:123, 150, 496, 523) is not modelled. It only delays the loop. The limiter's timestamp list, which `recordRequest` also updates, is not carried through the traversals; FetchRetry reports only whether a request was recorded.
- `parseFloat` and IEEE doubles are not modelled. Prices are exact decimal `real`s of the longest decimal prefix, without rounding. Holdings and summary arithmetic is over `real`.
- The asset table is a map from name to row. Creation and update times are the write's clock input. Prisma's "an undefined field is left alone" on update is modelled as a column left unchanged.
- Logging has no effect on state and is left out: all Logger output, the progress and ETA percentages, and the `errorsByType` and `duplicateCount` tallies are reported only in logs. The duplicate count is modelled but not returned.
- AssetService.SyncAssets: the 50-item chunking only groups log lines, so the chunk loop is a single pass. The chunk-level `catch` is not modelled: an exception from inside a per-item `catch` handler (its logging, say) would reach it.
- AssetService.SyncAssetsFast: the chunk-level `catch` that adds one error is not modelled. Every item's database call has its own `try`, so nothing is left for it to catch.
- The sync log files (`SyncLogService`, `SyncDataLoggerService`) are I/O observers and are not part of this model. So are the NestJS controllers and module wiring.
- The process-spawning part of `start-tunnel.js` is not modelled: everything after the `.env` loop.
- Concurrency is not modelled. A scheduler run is one atomic transition, as JavaScript's single thread makes the check and set of `isRunning` atomic. A status query during a run is represented by the `lastSyncCount` sequence the run produces.
- SyncScheduler.SyncAssets: the provider traversal is given as its batches and its final outcome, not re-derived from the provider model. The value returned on failure carries the message only. The resume offset is printed, not returned.
- Portfolio.PortfolioTransactions: the result is the set of the portfolio's transactions. The database's descending date order is not modelled.
- Portfolio.GetHoldings: the query's result is a parameter, required to be exactly the portfolio's rows of the transaction table, each once, in ascending date order (Portfolio.RowsOf). The order among rows of equal date is not fixed. Each transaction's quantity is at least 1, as the transaction DTO requires. `convertTransaction` only changes number representations and is the identity here.
- PageTraversal.FetchAssetsBatch: the source loop has no bound of its own, because a page whose items are all filtered out adds nothing to the processed count. The fuel is such a bound: the result is `None` exactly when the loop is still running after fuel page requests. A finished result never depends on the fuel (PageTraversal.TraverseFuelMonotone).
- CategoryTraversal.FetchByCategory, CategoryTraversal.FetchByPriority, CategoryTraversal.GetAllAssets and CategoryTraversal.GetCurrentPrices also take fuel, for the same reason.
- PageTraversal.Absorb: each batch call records the buffer's contents as a value. In the source `onBatch` receives the `currentBatch` array itself, and after a throwing call the loop keeps pushing into that same array (apps/api/src/asset/providers/steam-market.provider.ts:454-474). A callback that kept the reference would see it grow. Object identity is not modelled.
- The per-page `totalBatches` estimate passed to `onBatch` is only logged by its callers and is not modelled.
- The remote `searchAssets` of the provider (a single request with two attempts) is not modelled. Only the service's length guard is.
- EnvFile: `process.env` is a map from string to string. Non-string assignment and the operating system's handling of unusual keys are not modelled.

=== FILE: asset_filters.dfy ===
/**
 * Exclusion rules applied to mapped asset names, and the statistics helper
 * that tallies which rule excluded how many names.
 */
module AssetFilters {
  import opened Wrappers
  import opened JsText

  /**
   * A rule pattern. `AnchoredPrefix(p)` is a case-insensitive regular expression
   * `^p` whose body is the literal text `p`; `Literal(p)` is a string pattern
   * (free of regular-expression metacharacters) that the source compiles with
   * the `i` flag, so it matches `p` anywhere, ignoring case.
   */
  datatype Pattern = AnchoredPrefix(text: string) | Literal(text: string)

  datatype FilterRule = FilterRule(id: string, description: string, pattern: Pattern, reason: string)

  /** `pattern.test(name)` for the patterns above (ASCII case folding). */
  predicate Matches(pattern: Pattern, name: string) {
    match pattern
    case AnchoredPrefix(p) => StartsWithFold(name, p)
    case Literal(p) => ContainsFold(name, p)
  }

  const STICKER_SLAB_RULE: FilterRule := FilterRule(
    "sticker-slab-charms",
    "Exclude Sticker Slab items (they are charms, not stickers)",
    AnchoredPrefix("Sticker Slab |"),
    "Sticker Slab items are charms that duplicate sticker names")

  const ASSET_FILTER_RULES: seq<FilterRule> := [STICKER_SLAB_RULE]

  /** The first rule, in declaration order, whose pattern matches `name`; `None` when none does. */
  function FirstMatch(rules: seq<FilterRule>, name: string): (r: Option<FilterRule>)
    ensures r.Some? ==> r.value in rules && Matches(r.value.pattern, name)
    ensures r.Some? ==> exists k :: 0 <= k < |rules| && rules[k] == r.value &&
                                   (forall j :: 0 <= j < k ==> !Matches(rules[j].pattern, name))
    ensures r.None? <==> forall j :: 0 <= j < |rules| ==> !Matches(rules[j].pattern, name)
  {
    if |rules| == 0 then None
    else if Matches(rules[0].pattern, name) then Some(rules[0])
    else
      var rest := FirstMatch(rules[1..], name);
      assert forall j :: 1 <= j < |rules| ==> rules[j] == rules[1..][j - 1];
      rest
  }

  /** `shouldFilterAsset`: the configured rules applied to one name. */
  function ShouldFilterAsset(name: string): Option<FilterRule> {
    FirstMatch(ASSET_FILTER_RULES, name)
  }

  /** The single configured rule excludes exactly the names beginning with "Sticker Slab |", in any ASCII case. */
  lemma ConfiguredRuleExcludesStickerSlabs(name: string)
    ensures ShouldFilterAsset(name) == Some(STICKER_SLAB_RULE) <==> StartsWithFold(name, "Sticker Slab |")
    ensures ShouldFilterAsset(name).None? <==> !StartsWithFold(name, "Sticker Slab |")
  {
  }

  lemma StickerSlabExamples()
    ensures ShouldFilterAsset("Sticker Slab | Foo (Holo)") == Some(STICKER_SLAB_RULE)
    ensures ShouldFilterAsset("sticker slab | foo") == Some(STICKER_SLAB_RULE)
    ensures ShouldFilterAsset("Sticker | Foo").None?
  {
    assert !FoldEq("Sticker | Foo"[8], "Sticker Slab |"[8]);
  }

  datatype FilterStatistics = FilterStatistics(total: nat, filtered: nat, passed: nat, filterBreakdown: map<string, nat>)

  /** Adds one to the tally of `key`, starting from zero. */
  function Bump(m: map<string, nat>, key: string): (r: map<string, nat>)
    ensures r.Keys == m.Keys + {key}
    ensures r[key] == (if key in m then m[key] else 0) + 1
    ensures forall k :: k in m && k != key ==> r[k] == m[k]
  {
    m[key := (if key in m then m[key] else 0) + 1]
  }

  /** Number of names whose first matching rule has id `id`. */
  function CountById(rules: seq<FilterRule>, names: seq<string>, id: string): nat {
    if |names| == 0 then 0
    else
      var m := FirstMatch(rules, names[|names| - 1]);
      CountById(rules, names[..|names| - 1], id) + (if m.Some? && m.value.id == id then 1 else 0)
  }

  /** Number of names some rule matches. */
  function CountMatched(rules: seq<FilterRule>, names: seq<string>): nat {
    if |names| == 0 then 0
    else CountMatched(rules, names[..|names| - 1]) + (if FirstMatch(rules, names[|names| - 1]).Some? then 1 else 0)
  }

  /** `getFilterStatistics`, over an explicit rule list. */
  function FilterStatisticsOf(rules: seq<FilterRule>, names: seq<string>): (r: FilterStatistics)
    ensures r.total == |names|
  {
    if |names| == 0 then FilterStatistics(0, 0, 0, map[])
    else
      var prev := FilterStatisticsOf(rules, names[..|names| - 1]);
      match FirstMatch(rules, names[|names| - 1])
      case Some(rule) =>
        FilterStatistics(prev.total + 1, prev.filtered + 1, prev.passed, Bump(prev.filterBreakdown, rule.id))
      case None =>
        FilterStatistics(prev.total + 1, prev.filtered, prev.passed + 1, prev.filterBreakdown)
  }

  /** `getFilterStatistics` with the configured rules. */
  function GetFilterStatistics(names: seq<string>): FilterStatistics {
    FilterStatisticsOf(ASSET_FILTER_RULES, names)
  }

  /**
   * The statistics partition the input: filtered plus passed is the total,
   * filtered counts the matched names, and each breakdown entry is the number
   * of names whose first matching rule carries that id.
   */
  lemma {:induction false} FilterStatisticsCounts(rules: seq<FilterRule>, names: seq<string>)
    ensures var st := FilterStatisticsOf(rules, names);
      && st.filtered + st.passed == st.total == |names|
      && st.filtered == CountMatched(rules, names)
      && (forall id :: id in st.filterBreakdown ==> st.filterBreakdown[id] == CountById(rules, names, id))
      && (forall id :: id !in st.filterBreakdown ==> CountById(rules, names, id) == 0)
  {
    if |names| > 0 {
      FilterStatisticsCounts(rules, names[..|names| - 1]);
    }
  }

  /** With the configured single rule, the breakdown holds one entry whose count is the filtered total. */
  lemma {:induction false} ConfiguredBreakdown(names: seq<string>)
    ensures var st := GetFilterStatistics(names);
      st.filterBreakdown == (if st.filtered == 0 then map[] else map["sticker-slab-charms" := st.filtered])
  {
    if |names| > 0 {
      ConfiguredBreakdown(names[..|names| - 1]);
    }
  }

  lemma StatisticsExample()
    ensures GetFilterStatistics(["Sticker Slab | Foo (Holo)"]) ==
      FilterStatistics(1, 1, 0, map["sticker-slab-charms" := 1])
  {
    var names := ["Sticker Slab | Foo (Holo)"];
    StickerSlabExamples();
    assert names[..0] == [];
    assert FilterStatisticsOf(ASSET_FILTER_RULES, names[..0]) == FilterStatistics(0, 0, 0, map[]);
    assert FirstMatch(ASSET_FILTER_RULES, names[0]) == Some(STICKER_SLAB_RULE);
    assert Bump(map[], "sticker-slab-charms") == map["sticker-slab-charms" := 1];
  }
}

=== FILE: asset_mapper.dfy ===
/**
 * Mapping raw Steam Community Market search results to asset records, price
 * text parsing, and the name filter applied to every fetched page.
 */
module AssetMapper {
  import opened Wrappers
  import opened JsText
  import AssetFilters

  datatype Description = Description(marketHashName: string, iconUrl: Option<string>, name: Option<string>)

  /** One entry of the market search `results` array. */
  datatype RawItem = RawItem(name: string, description: Option<Description>, sellPriceText: Option<string>)

  /** The canonical asset record handed to persistence (`AssetData`). */
  datatype Asset = Asset(name: string, iconUrl: Option<string>, currentPrice: Option<real>)

  // ---------------------------------------------------------------- names and icons

  /** `market_hash_name || asset_description.name || item.name`: empty strings fall through. */
  function ChooseName(item: RawItem): (r: string)
    ensures item.description.Some? && item.description.value.marketHashName != "" ==>
      r == item.description.value.marketHashName
    ensures (&& item.description.Some? && item.description.value.marketHashName == ""
             && item.description.value.name.Some? && item.description.value.name.value != "") ==>
      r == item.description.value.name.value
    ensures (item.description.None? ||
      (item.description.value.marketHashName == "" &&
       (item.description.value.name.None? || item.description.value.name.value == ""))) ==>
      r == item.name
  {
    match item.description
    case Some(d) =>
      if d.marketHashName != "" then d.marketHashName
      else if d.name.Some? && d.name.value != "" then d.name.value
      else item.name
    case None => item.name
  }

  /** The icon URL: base URL followed by the relative path when that path is non-empty. */
  function IconUrl(base: string, item: RawItem): (r: Option<string>)
    ensures r.Some? <==> (&& item.description.Some? && item.description.value.iconUrl.Some?
                          && item.description.value.iconUrl.value != "")
    ensures r.Some? ==> (&& r.value == base + item.description.value.iconUrl.value
                         && r.value[..|base|] == base
                         && r.value[|base|..] == item.description.value.iconUrl.value)
  {
    match item.description
    case Some(d) =>
      if d.iconUrl.Some? && d.iconUrl.value != "" then Some(base + d.iconUrl.value) else None
    case None => None
  }

  // ---------------------------------------------------------------- prices

  predicate IsPriceChar(c: char) {
    IsDigit(c) || c == '.' || c == ','
  }

  /** `text.replace(/[^0-9.,]/g, '')`. */
  function CleanPrice(text: string): (r: string)
    ensures |r| <= |text|
    ensures forall i :: 0 <= i < |r| ==> IsPriceChar(r[i])
  {
    if |text| == 0 then ""
    else (if IsPriceChar(text[0]) then [text[0]] else "") + CleanPrice(text[1..])
  }

  /** Cleaning distributes over concatenation, so it keeps the price characters in their original order. */
  lemma {:induction false} CleanPriceAppend(a: string, b: string)
    ensures CleanPrice(a + b) == CleanPrice(a) + CleanPrice(b)
  {
    if |a| > 0 {
      assert (a + b)[1..] == a[1..] + b;
      CleanPriceAppend(a[1..], b);
    } else {
      assert a + b == b;
    }
  }

  /** Text made only of digits, '.' and ',' is left as it is. */
  lemma {:induction false} CleanPriceKeepsPriceText(text: string)
    requires forall i :: 0 <= i < |text| ==> IsPriceChar(text[i])
    ensures CleanPrice(text) == text
  {
    if |text| > 0 {
      CleanPriceKeepsPriceText(text[1..]);
    }
  }

  /** `s.replace(',', '.')`: only the first comma becomes a dot. */
  function ReplaceFirstComma(s: string): (r: string)
    ensures |r| == |s|
  {
    if |s| == 0 then ""
    else if s[0] == ',' then "." + s[1..]
    else [s[0]] + ReplaceFirstComma(s[1..])
  }

  /** Only the first comma changes: text without one is untouched, otherwise that one comma becomes '.'. */
  lemma {:induction false} ReplaceFirstCommaSpec(s: string, k: nat)
    requires k <= |s|
    requires forall i :: 0 <= i < k ==> s[i] != ','
    requires k == |s| || s[k] == ','
    ensures k == |s| ==> ReplaceFirstComma(s) == s
    ensures k < |s| ==> ReplaceFirstComma(s) == s[..k] + "." + s[k + 1..]
  {
    if k > 0 {
      ReplaceFirstCommaSpec(s[1..], k - 1);
      assert s == [s[0]] + s[1..];
      if k < |s| {
        assert s[1..][..k - 1] == s[1..k];
        assert s[1..][k..] == s[k + 1..];
        assert s[..k] == [s[0]] + s[1..k];
      }
    } else if k < |s| {
      assert s[..0] == "";
    }
  }

  /** Number of leading decimal digits. */
  function LeadingDigits(s: string): (n: nat)
    ensures n <= |s|
    ensures forall i :: 0 <= i < n ==> IsDigit(s[i])
    ensures n < |s| ==> !IsDigit(s[n])
  {
    if |s| > 0 && IsDigit(s[0]) then 1 + LeadingDigits(s[1..]) else 0
  }

  /** The value of a string of decimal digits. */
  function DigitsValue(s: string): nat
    requires forall i :: 0 <= i < |s| ==> IsDigit(s[i])
  {
    if |s| == 0 then 0 else DigitsValue(s[..|s| - 1]) * 10 + DigitValue(s[|s| - 1])
  }

  function Pow10(n: nat): (r: nat)
    ensures r >= 1
  {
    if n == 0 then 1 else 10 * Pow10(n - 1)
  }

  /**
   * `parseFloat` on text made of digits, '.' and ',': the longest prefix of the
   * form digits [ '.' digits ] with at least one digit, as an exact decimal.
   * Anything else is NaN, which the caller turns into "no price".
   */
  function ParseDecimalPrefix(s: string): (r: Option<real>)
    ensures r.Some? ==> r.value >= 0.0
    ensures |s| > 0 && IsDigit(s[0]) ==> r.Some?
    ensures r.Some? ==> exists i :: 0 <= i < |s| && IsDigit(s[i])
  {
    var n := LeadingDigits(s);
    var whole := DigitsValue(s[..n]);
    if n < |s| && s[n] == '.' then
      var frac := s[n + 1..];
      var m := LeadingDigits(frac);
      if n + m == 0 then None
      else
        assert m > 0 ==> IsDigit(s[n + 1]);
        Some(whole as real + DigitsValue(frac[..m]) as real / Pow10(m) as real)
    else if n == 0 then None
    else Some(whole as real)
  }

  /** `parsePrice`: missing or empty text is no price; otherwise clean, swap the first comma, parse. */
  function ParsePrice(text: Option<string>): (r: Option<real>)
    ensures text.None? || text.value == "" ==> r.None?
    ensures r.Some? ==> r.value >= 0.0
  {
    if text.None? || text.value == "" then None
    else ParseDecimalPrefix(ReplaceFirstComma(CleanPrice(text.value)))
  }

  /** Cleaning keeps exactly the digits: some digit survives iff the text held one. */
  lemma {:induction false} CleanPriceDigits(text: string)
    ensures (exists i :: 0 <= i < |CleanPrice(text)| && IsDigit(CleanPrice(text)[i])) <==>
            (exists i :: 0 <= i < |text| && IsDigit(text[i]))
  {
    if |text| > 0 {
      CleanPriceDigits(text[1..]);
      var head := if IsPriceChar(text[0]) then [text[0]] else "";
      assert CleanPrice(text) == head + CleanPrice(text[1..]);
      if exists i :: 0 <= i < |text| && IsDigit(text[i]) {
        var i :| 0 <= i < |text| && IsDigit(text[i]);
        if i > 0 {
          assert IsDigit(text[1..][i - 1]);
          var j :| 0 <= j < |CleanPrice(text[1..])| && IsDigit(CleanPrice(text[1..])[j]);
          assert CleanPrice(text)[|head| + j] == CleanPrice(text[1..])[j];
        } else {
          assert CleanPrice(text)[0] == text[0];
        }
      }
      if exists i :: 0 <= i < |CleanPrice(text)| && IsDigit(CleanPrice(text)[i]) {
        var i :| 0 <= i < |CleanPrice(text)| && IsDigit(CleanPrice(text)[i]);
        if i < |head| {
          assert IsDigit(text[0]);
        } else {
          assert IsDigit(CleanPrice(text[1..])[i - |head|]);
          var j :| 0 <= j < |text[1..]| && IsDigit(text[1..][j]);
          assert IsDigit(text[j + 1]);
        }
      }
    }
  }

  /** Text without any digit never yields a price. */
  lemma NoDigitsNoPrice(text: string)
    requires forall i :: 0 <= i < |text| ==> !IsDigit(text[i])
    ensures ParsePrice(Some(text)).None?
  {
    if text != "" {
      var c := CleanPrice(text);
      var r := ReplaceFirstComma(c);
      CleanPriceDigits(text);
      ReplaceFirstCommaDigits(c);
      forall i | 0 <= i < |r| ensures !IsDigit(r[i]) {
        assert IsDigit(r[i]) <==> IsDigit(c[i]);
        assert !IsDigit(c[i]);
      }
    }
  }

  /** Replacing the first comma neither creates nor removes digits. */
  lemma {:induction false} ReplaceFirstCommaDigits(s: string)
    ensures forall i :: 0 <= i < |s| ==> (IsDigit(ReplaceFirstComma(s)[i]) <==> IsDigit(s[i]))
  {
    if |s| > 0 && s[0] != ',' {
      ReplaceFirstCommaDigits(s[1..]);
      var r := ReplaceFirstComma(s);
      var t := ReplaceFirstComma(s[1..]);
      assert r == [s[0]] + t;
      forall i | 1 <= i < |s| ensures IsDigit(r[i]) <==> IsDigit(s[i]) {
        assert r[i] == t[i - 1];
        assert s[i] == s[1..][i - 1];
      }
    } else if |s| > 0 {
      var r := ReplaceFirstComma(s);
      assert r == "." + s[1..];
      forall i | 1 <= i < |s| ensures IsDigit(r[i]) <==> IsDigit(s[i]) {
        assert r[i] == s[1..][i - 1];
      }
    }
  }

  lemma DigitsExamples()
    ensures DigitsValue("1") == 1 && DigitsValue("0") == 0
    ensures DigitsValue("00") == 0 && DigitsValue("234") == 234
  {
    assert "1"[..0] == "" && "0"[..0] == "";
    assert "00"[..1] == "0";
    assert "234"[..2] == "23" && "23"[..1] == "2" && "2"[..0] == "";
  }

  /** "$1,234.56" cleans to "1,234.56" and becomes "1.234.56" once its first comma is replaced. */
  lemma DollarPriceCleaning()
    ensures CleanPrice("$1,234.56") == "1,234.56"
    ensures ReplaceFirstComma("1,234.56") == "1.234.56"
  {
    DollarCleaning();
    var c := "1,234.56";
    ReplaceFirstCommaSpec(c, 1);
    assert c[..1] == "1" && c[2..] == "234.56";
  }

  lemma DollarCleaning()
    ensures CleanPrice("$1,234.56") == "1,234.56"
  {
    var t := "$1,234.56";
    assert t[1..] == "1,234.56";
    assert !IsPriceChar(t[0]);
    assert CleanPrice(t) == CleanPrice(t[1..]);
    CleanPriceKeepsPriceText("1,234.56");
  }

  lemma DollarPriceParsing()
    ensures ParseDecimalPrefix("1.234.56") == Some(1.234)
  {
    var r := "1.234.56";
    assert LeadingDigits(r) == 1 by {
      assert r[1..] == ".234.56";
    }
    assert r[..1] == "1";
    var frac := r[2..];
    assert frac == "234.56";
    assert LeadingDigits(frac) == 3 by {
      assert ".56"[0] == '.';
      assert LeadingDigits(".56") == 0;
      assert "4.56"[1..] == ".56";
      assert LeadingDigits("4.56") == 1;
      assert "34.56"[1..] == "4.56";
      assert LeadingDigits("34.56") == 2;
      assert frac[1..] == "34.56";
    }
    assert frac[..3] == "234";
    DigitsExamples();
  }

  /** "$1,234.56" is read as 1.234: the thousands separator becomes the decimal point. */
  lemma DollarPriceExample()
    ensures ParsePrice(Some("$1,234.56")) == Some(1.234)
  {
    DollarPriceCleaning();
    DollarPriceParsing();
  }

  /** "0,00" parses as the defined price zero, distinct from "no price". */
  lemma ZeroPriceExample()
    ensures ParsePrice(Some("0,00")) == Some(0.0)
    ensures ParsePrice(None).None? && ParsePrice(Some("")).None?
  {
    ZeroPriceCleaning();
    ZeroPriceParsing();
  }

  lemma ZeroPriceCleaning()
    ensures CleanPrice("0,00") == "0,00"
    ensures ReplaceFirstComma("0,00") == "0.00"
  {
    var c := "0,00";
    CleanPriceKeepsPriceText(c);
    ReplaceFirstCommaSpec(c, 1);
    assert c[..1] == "0" && c[2..] == "00";
  }

  lemma ZeroPriceParsing()
    ensures ParseDecimalPrefix("0.00") == Some(0.0)
  {
    var z := "0.00";
    assert LeadingDigits(z) == 1 by {
      assert z[1..] == ".00";
    }
    assert z[..1] == "0";
    assert z[2..] == "00";
    assert LeadingDigits("00") == 2 by {
      assert "00"[1..] == "0";
      assert "0"[1..] == "";
    }
    assert "00"[..2] == "00";
    DigitsExamples();
  }


  // ---------------------------------------------------------------- mapping and filtering

  function MapItem(base: string, item: RawItem): Asset {
    Asset(ChooseName(item), IconUrl(base, item), ParsePrice(item.sellPriceText))
  }

  /** `mapItems`: one asset per item, in order. */
  function MapItems(base: string, items: seq<RawItem>): (r: seq<Asset>)
    ensures |r| == |items|
    ensures forall i :: 0 <= i < |items| ==> r[i] == MapItem(base, items[i])
  {
    if |items| == 0 then []
    else MapItems(base, items[..|items| - 1]) + [MapItem(base, items[|items| - 1])]
  }

  /** An asset survives filtering iff no configured rule matches its name. */
  predicate Passes(a: Asset) {
    AssetFilters.ShouldFilterAsset(a.name).None?
  }

  /** Reference definition: the assets that pass, in their original order. */
  function Passing(assets: seq<Asset>): (r: seq<Asset>)
    ensures |r| <= |assets|
    ensures forall a :: a in r <==> a in assets && Passes(a)
  {
    if |assets| == 0 then []
    else (if Passes(assets[0]) then [assets[0]] else []) + Passing(assets[1..])
  }

  lemma {:induction false} PassingAppend(a: seq<Asset>, b: seq<Asset>)
    ensures Passing(a + b) == Passing(a) + Passing(b)
  {
    if |a| == 0 {
      assert a + b == b;
    } else {
      assert (a + b)[1..] == a[1..] + b;
      PassingAppend(a[1..], b);
    }
  }

  /** Result of `filterAssets`: the surviving assets and the per-reason exclusion tally it logs. */
  datatype FilterOutcome = FilterOutcome(kept: seq<Asset>, totalFiltered: nat, byReason: map<string, nat>)

  /** `filterAssets`: one pass in order, tallying exclusions by rule reason. */
  function FilterAssets(assets: seq<Asset>): (r: FilterOutcome)
    ensures |r.kept| + r.totalFiltered == |assets|
  {
    if |assets| == 0 then FilterOutcome([], 0, map[])
    else
      var prev := FilterAssets(assets[..|assets| - 1]);
      var a := assets[|assets| - 1];
      match AssetFilters.ShouldFilterAsset(a.name)
      case Some(rule) =>
        FilterOutcome(prev.kept, prev.totalFiltered + 1, AssetFilters.Bump(prev.byReason, rule.reason))
      case None => FilterOutcome(prev.kept + [a], prev.totalFiltered, prev.byReason)
  }

  /** The filter keeps exactly the passing assets, in their order. */
  lemma {:induction false} FilterAssetsIsPassing(assets: seq<Asset>)
    ensures FilterAssets(assets).kept == Passing(assets)
  {
    if |assets| > 0 {
      var init := assets[..|assets| - 1];
      var a := assets[|assets| - 1];
      FilterAssetsIsPassing(init);
      assert assets == init + [a];
      PassingAppend(init, [a]);
      assert Passing([a]) == (if Passes(a) then [a] else []) by {
        assert [a][1..] == [];
      }
    }
  }

  /** With the configured single rule, every exclusion is tallied under that rule's reason (not its id). */
  lemma {:induction false} FilterAssetsTallyByReason(assets: seq<Asset>)
    ensures var o := FilterAssets(assets);
      o.byReason == (if o.totalFiltered == 0 then map[]
                     else map[AssetFilters.STICKER_SLAB_RULE.reason := o.totalFiltered])
  {
    if |assets| > 0 {
      FilterAssetsTallyByReason(assets[..|assets| - 1]);
    }
  }

  /** `mapAndFilterItems`. */
  function MapAndFilterItems(base: string, items: seq<RawItem>): seq<Asset> {
    FilterAssets(MapItems(base, items)).kept
  }

  /** The output is the order-preserving selection of mapped items whose name no rule matches. */
  lemma MapAndFilterCharacterised(base: string, items: seq<RawItem>)
    ensures MapAndFilterItems(base, items) == Passing(MapItems(base, items))
    ensures |MapAndFilterItems(base, items)| <= |items|
    ensures forall a :: a in MapAndFilterItems(base, items) <==>
      (exists i :: 0 <= i < |items| && a == MapItem(base, items[i])) && Passes(a)
  {
    FilterAssetsIsPassing(MapItems(base, items));
  }

  /** Mapping and filtering distribute over concatenated pages. */
  lemma MapAndFilterAppend(base: string, xs: seq<RawItem>, ys: seq<RawItem>)
    ensures MapAndFilterItems(base, xs + ys) == MapAndFilterItems(base, xs) + MapAndFilterItems(base, ys)
  {
    FilterAssetsIsPassing(MapItems(base, xs + ys));
    FilterAssetsIsPassing(MapItems(base, xs));
    FilterAssetsIsPassing(MapItems(base, ys));
    MapItemsAppend(base, xs, ys);
    PassingAppend(MapItems(base, xs), MapItems(base, ys));
  }

  lemma MapItemsAppend(base: string, xs: seq<RawItem>, ys: seq<RawItem>)
    ensures MapItems(base, xs + ys) == MapItems(base, xs) + MapItems(base, ys)
  {
    var l := MapItems(base, xs + ys);
    var r := MapItems(base, xs) + MapItems(base, ys);
    assert |l| == |r|;
    forall i | 0 <= i < |l| ensures l[i] == r[i] {
      if i < |xs| {
        assert (xs + ys)[i] == xs[i];
      } else {
        assert (xs + ys)[i] == ys[i - |xs|];
      }
    }
  }
}

=== FILE: asset_service.dfy ===
/**
 * `AssetService`: the two ways a list of assets is written into the asset
 * table, the classification of database errors, and the search guard.
 *
 * The table is a map from the (untrimmed) asset name to its row, so no name
 * can ever have two rows. The database is the `Db` oracle: `fault(i)` is the
 * value thrown while writing the i-th input asset (if any) and `clock(i)` is
 * the time of that write.
 */
module AssetService {
  import opened Wrappers
  import opened JsText
  import opened AssetMapper

  const SYNC_BATCH_SIZE: nat := 50
  const FAST_SYNC_BATCH_SIZE: nat := 500
  const SEARCH_MIN_LENGTH: nat := 2

  /** One row of the asset table (its key is the name). */
  datatype Row = Row(iconUrl: Option<string>, price: Option<real>, createdAt: int, updatedAt: int)

  type Store = map<string, Row>

  /** What a JavaScript `throw` can hand to a `catch` block. */
  datatype CodeProp = NoCode | StringCode(text: string) | OtherCode
  datatype Thrown =
    | Falsy                                                   // null, undefined, 0, '' ...
    | Primitive                                               // a truthy non-object
    | Object(isError: bool, code: CodeProp, message: string)  // isError: `instanceof Error`

  datatype Db = Db(fault: nat -> Option<Thrown>, clock: nat -> int)

  function Lookup(store: Store, name: string): Option<Row> {
    if name in store then Some(store[name]) else None
  }

  /** `!asset.name || asset.name.trim() === ''`: the name is empty or only white space. */
  predicate Unnamed(a: Asset) {
    IsBlank(a.name)
  }

  lemma UnnamedIffTrimEmpty(a: Asset)
    ensures Unnamed(a) <==> Trim(a.name) == ""
  {
    TrimEmptyIffBlank(a.name);
  }

  /**
   * The row after writing `a` at time `now`: a create stores both fields as
   * given; an update leaves a column unchanged when the asset omits it.
   */
  function Write(prev: Option<Row>, a: Asset, now: int): (r: Row)
    ensures r.updatedAt == now
    ensures a.iconUrl.Some? ==> r.iconUrl == a.iconUrl
    ensures a.currentPrice.Some? ==> r.price == a.currentPrice
    ensures prev.None? ==> r == Row(a.iconUrl, a.currentPrice, now, now)
    ensures prev.Some? ==> r.createdAt == prev.value.createdAt
    ensures prev.Some? && a.iconUrl.None? ==> r.iconUrl == prev.value.iconUrl
    ensures prev.Some? && a.currentPrice.None? ==> r.price == prev.value.price
  {
    match prev
    case None => Row(a.iconUrl, a.currentPrice, now, now)
    case Some(prior) =>
      Row(if a.iconUrl.Some? then a.iconUrl else prior.iconUrl,
          if a.currentPrice.Some? then a.currentPrice else prior.price,
          prior.createdAt, now)
  }

  /** The input asset list mentions `name` somewhere. */
  predicate Mentions(assets: seq<Asset>, name: string) {
    exists j :: 0 <= j < |assets| && assets[j].name == name
  }

  /** The names of the assets that are not skipped for being unnamed. */
  function NamedSet(assets: seq<Asset>): (r: set<string>)
    ensures forall n :: n in r <==> exists j :: 0 <= j < |assets| && assets[j].name == n && !Unnamed(assets[j])
  {
    if |assets| == 0 then {}
    else
      var front := NamedSet(assets[..|assets| - 1]);
      var a := assets[|assets| - 1];
      assert forall j :: 0 <= j < |assets| - 1 ==> assets[..|assets| - 1][j] == assets[j];
      if Unnamed(a) then front else front + {a.name}
  }

  /** How many assets are not skipped for being unnamed. */
  function NamedCount(assets: seq<Asset>): (r: nat)
    ensures r <= |assets|
  {
    if |assets| == 0 then 0
    else NamedCount(assets[..|assets| - 1]) + if Unnamed(assets[|assets| - 1]) then 0 else 1
  }

  // ---------------------------------------------------------------------------
  // Error classification (`isPrismaError`, `categorizeDbError`)
  // ---------------------------------------------------------------------------

  /** A non-null object whose `code` property is a string starting with 'P'. */
  predicate IsPrismaError(e: Thrown) {
    e.Object? && e.code.StringCode? && StartsWith(e.code.text, "P")
  }

  /** The Prisma codes with a fixed label (the `switch` in `categorizeDbError`). */
  function KnownPrismaLabel(code: string): (r: Option<string>)
    ensures r.Some? ==> r.value in KNOWN_LABELS
  {
    if code == "P2002" then Some("unique_constraint_violation")
    else if code == "P2003" then Some("foreign_key_constraint_violation")
    else if code == "P2025" then Some("record_not_found")
    else if code == "P1001" then Some("database_connection_error")
    else if code == "P1002" then Some("database_timeout")
    else if code == "P1008" then Some("operation_timeout")
    else if code == "P2024" then Some("connection_pool_timeout")
    else None
  }

  const KNOWN_LABELS: set<string> := {
    "unique_constraint_violation", "foreign_key_constraint_violation", "record_not_found",
    "database_connection_error", "database_timeout", "operation_timeout", "connection_pool_timeout"}

  const PRISMA_PREFIX: string := "prisma_error_"

  /** The labels that a plain `Error` can receive. */
  const ERROR_LABELS: set<string> := {"timeout", "connection_error", "connection_refused", "generic_error"}

  function CategorizeDbError(e: Thrown): (r: string)
    ensures IsPrismaError(e) && KnownPrismaLabel(e.code.text).Some? ==> r == KnownPrismaLabel(e.code.text).value
    ensures IsPrismaError(e) && KnownPrismaLabel(e.code.text).None? ==> r == PRISMA_PREFIX + e.code.text
    ensures !IsPrismaError(e) && e.Object? && e.isError ==> r in ERROR_LABELS
    ensures !IsPrismaError(e) && e.Object? && e.isError ==>
      && (Contains(e.message, "timeout") ==> r == "timeout")
      && (!Contains(e.message, "timeout") && Contains(e.message, "connect") ==> r == "connection_error")
      && (!Contains(e.message, "timeout") && !Contains(e.message, "connect") && Contains(e.message, "ECONNREFUSED") ==> r == "connection_refused")
      && (!Contains(e.message, "timeout") && !Contains(e.message, "connect") && !Contains(e.message, "ECONNREFUSED") ==> r == "generic_error")
    ensures !IsPrismaError(e) && !(e.Object? && e.isError) ==> r == "unknown"
  {
    if e.Falsy? then "unknown"
    else if IsPrismaError(e) then
      var code := e.code.text;
      match KnownPrismaLabel(code)
      case Some(fixed) => fixed
      case None => PRISMA_PREFIX + code
    else if e.Object? && e.isError then
      if Contains(e.message, "timeout") then "timeout"
      else if Contains(e.message, "connect") then "connection_error"
      else if Contains(e.message, "ECONNREFUSED") then "connection_refused"
      else "generic_error"
    else "unknown"
  }

  /** The labels given to Prisma errors: a fixed label, or the prefix followed by the code. */
  predicate PrismaLabel(r: string) {
    r in KNOWN_LABELS || StartsWith(r, PRISMA_PREFIX)
  }

  /**
   * The three label families never overlap, so the label alone tells which
   * kind of value was thrown; in particular no thrown value is ever tallied
   * under 'empty_name'.
   */
  lemma LabelFamiliesAreDisjoint(e: Thrown)
    ensures var r := CategorizeDbError(e);
      && (IsPrismaError(e) <==> PrismaLabel(r))
      && (!IsPrismaError(e) && e.Object? && e.isError <==> r in ERROR_LABELS)
      && (r == "unknown" <==> !IsPrismaError(e) && !(e.Object? && e.isError))
      && r != "empty_name"
  {
    var r := CategorizeDbError(e);
    if IsPrismaError(e) && KnownPrismaLabel(e.code.text).None? {
      assert r[..|PRISMA_PREFIX|] == PRISMA_PREFIX;
      assert r[0] == 'p';
    } else if IsPrismaError(e) {
      assert r in KNOWN_LABELS;
    } else {
      assert r in ERROR_LABELS || r == "unknown";
      assert r[0] != 'p';
    }
  }

  /** Every `P` code outside the table gets its own label, so distinct codes stay distinct. */
  lemma UnlistedCodesKeepTheirCode(e1: Thrown, e2: Thrown)
    requires IsPrismaError(e1) && IsPrismaError(e2)
    requires KnownPrismaLabel(e1.code.text).None? && KnownPrismaLabel(e2.code.text).None?
    ensures CategorizeDbError(e1) == CategorizeDbError(e2) <==> e1.code == e2.code
  {
    var r1, r2 := CategorizeDbError(e1), CategorizeDbError(e2);
    if r1 == r2 {
      assert e1.code.text == r1[|PRISMA_PREFIX|..] == r2[|PRISMA_PREFIX|..] == e2.code.text;
    }
  }

  lemma PrismaCodeExamples()
    ensures CategorizeDbError(Object(true, StringCode("P2002"), "")) == "unique_constraint_violation"
    ensures CategorizeDbError(Object(false, StringCode("P3000"), "")) == "prisma_error_P3000"
  {
  }

  /** The message tests are applied in order: a message naming both a timeout and a refused connection is a timeout. */
  lemma MessageOrderExample()
    ensures CategorizeDbError(Object(true, StringCode("E1"), "connect ECONNREFUSED timeout")) == "timeout"
  {
    assert "E1"[..1] != "P" by { assert "E1"[..1][0] == 'E'; }
    var m := "connect ECONNREFUSED timeout";
    assert StartsWith(m[21..], "timeout");
  }

  lemma RefusedConnectionExample()
    ensures CategorizeDbError(Object(true, OtherCode, "ECONNREFUSED")) == "connection_refused"
  {
    var n := "ECONNREFUSED";
    assert n[..] == ['E', 'C', 'O', 'N', 'N', 'R', 'E', 'F', 'U', 'S', 'E', 'D'];
    MissingFirstLetter(n, "timeout");
    MissingFirstLetter(n, "connect");
    assert StartsWith(n[0..], n);
  }

  /** Text that lacks the first letter of `p` does not contain `p`. */
  lemma MissingFirstLetter(s: string, p: string)
    requires |p| > 0 && forall i :: 0 <= i < |s| ==> s[i] != p[0]
    ensures !Contains(s, p)
  {
    forall k | 0 <= k <= |s| - |p| ensures !StartsWith(s[k..], p) {
      assert s[k..][0] == s[k];
    }
  }

  /** A thrown object that is not an `Error` and has no Prisma code is 'unknown', whatever its message says. */
  lemma NonErrorObjectExample()
    ensures CategorizeDbError(Object(false, NoCode, "timeout")) == "unknown"
  {
  }

  // ---------------------------------------------------------------------------
  // syncAssets: find, then update or create, every asset in turn
  // ---------------------------------------------------------------------------

  datatype Action = Created | Updated | Skipped

  /** One entry of the optional detail list. */
  datatype Detail = Detail(name: string, iconUrl: Option<string>, currentPrice: Option<real>, action: Action)

  /** What both sync operations return; `details` is present only on request. */
  datatype SyncResult = SyncResult(createdCount: nat, updatedCount: nat, errorCount: nat, details: Option<seq<Detail>>)

  /** The loop variables of `syncAssets`. `seen` and `duplicates` feed the log only. */
  datatype SlowState = SlowState(
    store: Store, created: nat, updated: nat, errors: nat,
    seen: set<string>, duplicates: nat, details: seq<Detail>)

  /** What `syncAssets` does with the i-th asset: skip it, or update or create its row. */
  function SlowAction(store: Store, a: Asset, i: nat, db: Db): Action {
    if Unnamed(a) || db.fault(i).Some? then Skipped
    else if a.name in store then Updated
    else Created
  }

  /** Processing of the i-th asset by `syncAssets`. */
  function SlowStep(st: SlowState, a: Asset, i: nat, db: Db): (r: SlowState)
    ensures r.created + r.updated + r.errors == st.created + st.updated + st.errors + 1
    ensures r.duplicates + |r.seen| == st.duplicates + |st.seen| + if Unnamed(a) then 0 else 1
    ensures forall n :: n != a.name ==> Lookup(r.store, n) == Lookup(st.store, n)
  {
    var act := SlowAction(st.store, a, i, db);
    var repeat := !Unnamed(a) && a.name in st.seen;
    assert repeat ==> st.seen + {a.name} == st.seen;
    SlowState(
      store := if act == Skipped then st.store else st.store[a.name := Write(Lookup(st.store, a.name), a, db.clock(i))],
      created := if act == Created then st.created + 1 else st.created,
      updated := if act == Updated then st.updated + 1 else st.updated,
      errors := if act == Skipped then st.errors + 1 else st.errors,
      seen := if Unnamed(a) then st.seen else st.seen + {a.name},
      duplicates := if repeat then st.duplicates + 1 else st.duplicates,
      details := st.details + [Detail(if Unnamed(a) then "unnamed" else a.name, a.iconUrl, a.currentPrice, act)])
  }

  /** A name absent from `assets` is absent from every prefix of it. */
  lemma UnmentionedInPrefix(assets: seq<Asset>, m: nat, n: string)
    requires m <= |assets| && !Mentions(assets, n)
    ensures !Mentions(assets[..m], n)
  {
    forall j | 0 <= j < m ensures assets[..m][j].name != n {
      assert assets[..m][j] == assets[j];
    }
  }

  /** Reference: `syncAssets` over the whole list as one sequential fold. */
  function SlowFold(st: SlowState, assets: seq<Asset>, db: Db): (r: SlowState)
    ensures r.created + r.updated + r.errors == st.created + st.updated + st.errors + |assets|
    ensures r.duplicates + |r.seen| == st.duplicates + |st.seen| + NamedCount(assets)
    ensures |r.details| == |st.details| + |assets|
    ensures forall n :: !Mentions(assets, n) ==> Lookup(r.store, n) == Lookup(st.store, n)
  {
    if |assets| == 0 then st
    else
      var mid := SlowFold(st, assets[..|assets| - 1], db);
      assert forall n :: !Mentions(assets, n) ==> !Mentions(assets[..|assets| - 1], n) by {
        forall n | !Mentions(assets, n) ensures !Mentions(assets[..|assets| - 1], n) {
          UnmentionedInPrefix(assets, |assets| - 1, n);
        }
      }
      SlowStep(mid, assets[|assets| - 1], |assets| - 1, db)
  }

  lemma SlowFoldSnoc(st: SlowState, assets: seq<Asset>, j: nat, db: Db)
    requires j < |assets|
    ensures SlowFold(st, assets[..j + 1], db) == SlowStep(SlowFold(st, assets[..j], db), assets[j], j, db)
  {
    assert assets[..j + 1][..j] == assets[..j];
  }

  function SlowInit(store: Store): SlowState {
    SlowState(store, 0, 0, 0, {}, 0, [])
  }

  /**
   * `syncAssets(assets, withDetails)`: chunks of SYNC_BATCH_SIZE are walked in
   * order; the chunk-level `catch` has nothing left to catch once every item is
   * wrapped in its own `try`.
   */
  method SyncAssets(store: Store, assets: seq<Asset>, withDetails: bool, db: Db) returns (r: SyncResult, out: Store)
    ensures r.createdCount + r.updatedCount + r.errorCount == |assets|
    ensures r.details.Some? <==> withDetails
    ensures r.details.Some? ==> |r.details.value| == |assets|
    ensures forall n :: !Mentions(assets, n) ==> Lookup(out, n) == Lookup(store, n)
    ensures var f := SlowFold(SlowInit(store), assets, db);
      out == f.store && r.createdCount == f.created && r.updatedCount == f.updated && r.errorCount == f.errors
      && (withDetails ==> r.details == Some(f.details))
  {
    var st := SlowInit(store);
    var i := 0;
    while i < |assets|
      invariant 0 <= i <= |assets|
      invariant st == SlowFold(SlowInit(store), assets[..i], db)
    {
      var end := if i + SYNC_BATCH_SIZE < |assets| then i + SYNC_BATCH_SIZE else |assets|;
      var j := i;
      while j < end
        invariant i <= j <= end
        invariant st == SlowFold(SlowInit(store), assets[..j], db)
      {
        SlowFoldSnoc(SlowInit(store), assets, j, db);
        st := SlowStep(st, assets[j], j, db);
        j := j + 1;
      }
      i := end;
    }
    assert assets[..|assets|] == assets;
    out := st.store;
    r := SyncResult(st.created, st.updated, st.errors, if withDetails then Some(st.details) else None);
  }

  /** A blank name is skipped: nothing is written and one error is counted. */
  lemma UnnamedIsRejected(st: SlowState, a: Asset, i: nat, db: Db)
    requires Unnamed(a)
    ensures var r := SlowStep(st, a, i, db);
      r.store == st.store && r.errors == st.errors + 1 && r.created == st.created && r.updated == st.updated
      && r.details == st.details + [Detail("unnamed", a.iconUrl, a.currentPrice, Skipped)]
  {
  }

  /** Each detail entry describes its input asset, and says `skipped` exactly for unnamed or failed ones. */
  predicate Describes(d: Detail, a: Asset, failed: bool) {
    && d.name == (if Unnamed(a) then "unnamed" else a.name)
    && d.iconUrl == a.iconUrl && d.currentPrice == a.currentPrice
    && (d.action == Skipped <==> Unnamed(a) || failed)
  }

  lemma {:induction false} SlowDetailsDescribeInputs(st: SlowState, assets: seq<Asset>, db: Db, k: nat)
    requires k < |assets|
    ensures Describes(SlowFold(st, assets, db).details[|st.details| + k], assets[k], db.fault(k).Some?)
    decreases |assets|
  {
    var front := assets[..|assets| - 1];
    var mid := SlowFold(st, front, db);
    assert SlowFold(st, assets, db).details == mid.details + [SlowFold(st, assets, db).details[|mid.details|]];
    if k < |assets| - 1 {
      SlowDetailsDescribeInputs(st, front, db, k);
    }
  }

  /**
   * Repeated names are written again: the last occurrence of a name, when its
   * write succeeds, is applied over whatever the earlier ones left, so every
   * field it supplies is the field the table ends with.
   */
  lemma {:induction false} SlowLastOccurrenceWins(st: SlowState, assets: seq<Asset>, db: Db, k: nat)
    requires k < |assets| && !Unnamed(assets[k]) && db.fault(k).None?
    requires forall j :: k < j < |assets| ==> assets[j].name != assets[k].name
    ensures var n := assets[k].name;
      var before := SlowFold(st, assets[..k], db).store;
      var after := SlowFold(st, assets, db).store;
      && Lookup(after, n) == Some(Write(Lookup(before, n), assets[k], db.clock(k)))
      && n in after
      && (assets[k].iconUrl.Some? ==> after[n].iconUrl == assets[k].iconUrl)
      && (assets[k].currentPrice.Some? ==> after[n].price == assets[k].currentPrice)
    decreases |assets|
  {
    var front := assets[..|assets| - 1];
    if k < |assets| - 1 {
      assert front[..k] == assets[..k];
      SlowLastOccurrenceWins(st, front, db, k);
    }
  }

  /** A name that occurs twice is written twice: both writes succeed and both are counted. */
  lemma DuplicatesAreWrittenTwice(store: Store, a: Asset, b: Asset, db: Db)
    requires !Unnamed(a) && b.name == a.name && db.fault(0).None? && db.fault(1).None?
    requires a.name !in store
    ensures var r := SlowFold(SlowInit(store), [a, b], db);
      r.created == 1 && r.updated == 1 && r.errors == 0 && r.duplicates == 1
      && Lookup(r.store, a.name) == Some(Write(Some(Write(None, a, db.clock(0))), b, db.clock(1)))
  {
    assert [a, b][..1] == [a];
    assert [a][..0] == [];
  }

  // ---------------------------------------------------------------------------
  // syncAssetsFast: one upsert per first occurrence of a name
  // ---------------------------------------------------------------------------

  /** The loop variables of `syncAssetsFast`; `skipped` counts the silently ignored repeats. */
  datatype FastState = FastState(store: Store, created: nat, updated: nat, errors: nat, skipped: nat, seen: set<string>)

  /** The creation test on the row an upsert returns. */
  predicate LooksCreated(row: Row) {
    -100 < row.updatedAt - row.createdAt < 100
  }

  /** What `syncAssetsFast` does with the i-th asset. */
  datatype FastOutcome = Rejected | Repeat | Failed | Upserted(row: Row)

  function FastOutcomeOf(st: FastState, a: Asset, i: nat, db: Db): FastOutcome {
    if Unnamed(a) then Rejected
    else if a.name in st.seen then Repeat
    else if db.fault(i).Some? then Failed
    else Upserted(Write(Lookup(st.store, a.name), a, db.clock(i)))
  }

  function FastStep(st: FastState, a: Asset, i: nat, db: Db): (r: FastState)
    ensures r.created + r.updated + r.errors + r.skipped == st.created + st.updated + st.errors + st.skipped + 1
    ensures forall n :: n != a.name ==> Lookup(r.store, n) == Lookup(st.store, n)
  {
    var act := FastOutcomeOf(st, a, i, db);
    FastState(
      store := if act.Upserted? then st.store[a.name := act.row] else st.store,
      created := if act.Upserted? && LooksCreated(act.row) then st.created + 1 else st.created,
      updated := if act.Upserted? && !LooksCreated(act.row) then st.updated + 1 else st.updated,
      errors := if act == Rejected || act == Failed then st.errors + 1 else st.errors,
      skipped := if act == Repeat then st.skipped + 1 else st.skipped,
      seen := if Unnamed(a) then st.seen else st.seen + {a.name})
  }

  /** Reference: `syncAssetsFast` over the whole list as one sequential fold. */
  function FastFold(st: FastState, assets: seq<Asset>, db: Db): (r: FastState)
    ensures r.created + r.updated + r.errors + r.skipped == st.created + st.updated + st.errors + st.skipped + |assets|
    ensures r.seen == st.seen + NamedSet(assets)
    ensures forall n :: !Mentions(assets, n) ==> Lookup(r.store, n) == Lookup(st.store, n)
  {
    if |assets| == 0 then st
    else
      var mid := FastFold(st, assets[..|assets| - 1], db);
      assert forall n :: !Mentions(assets, n) ==> !Mentions(assets[..|assets| - 1], n) by {
        forall n | !Mentions(assets, n) ensures !Mentions(assets[..|assets| - 1], n) {
          UnmentionedInPrefix(assets, |assets| - 1, n);
        }
      }
      FastStep(mid, assets[|assets| - 1], |assets| - 1, db)
  }

  lemma FastFoldSnoc(st: FastState, assets: seq<Asset>, j: nat, db: Db)
    requires j < |assets|
    ensures FastFold(st, assets[..j + 1], db) == FastStep(FastFold(st, assets[..j], db), assets[j], j, db)
  {
    assert assets[..j + 1][..j] == assets[..j];
  }

  function FastInit(store: Store): FastState {
    FastState(store, 0, 0, 0, 0, {})
  }

  /** The counts and table `syncAssetsFast` leaves behind. */
  function FastSync(store: Store, assets: seq<Asset>, db: Db): (r: (SyncResult, Store))
    ensures r.0.details.None?
    ensures r.0.createdCount + r.0.updatedCount + r.0.errorCount <= |assets|
    ensures forall n :: !Mentions(assets, n) ==> Lookup(r.1, n) == Lookup(store, n)
  {
    var f := FastFold(FastInit(store), assets, db);
    (SyncResult(f.created, f.updated, f.errors, None), f.store)
  }

  /**
   * `syncAssetsFast(assets)`: chunks of FAST_SYNC_BATCH_SIZE share one set of
   * seen names, so a repeat is skipped wherever it falls.
   */
  method SyncAssetsFast(store: Store, assets: seq<Asset>, db: Db) returns (r: SyncResult, out: Store)
    ensures r.details.None?
    ensures r.createdCount + r.updatedCount + r.errorCount + FastFold(FastInit(store), assets, db).skipped == |assets|
    ensures forall n :: !Mentions(assets, n) ==> Lookup(out, n) == Lookup(store, n)
    ensures (r, out) == FastSync(store, assets, db)
  {
    var st := FastInit(store);
    var i := 0;
    while i < |assets|
      invariant 0 <= i <= |assets|
      invariant st == FastFold(FastInit(store), assets[..i], db)
    {
      var end := if i + FAST_SYNC_BATCH_SIZE < |assets| then i + FAST_SYNC_BATCH_SIZE else |assets|;
      var j := i;
      while j < end
        invariant i <= j <= end
        invariant st == FastFold(FastInit(store), assets[..j], db)
      {
        FastFoldSnoc(FastInit(store), assets, j, db);
        st := FastStep(st, assets[j], j, db);
        j := j + 1;
      }
      i := end;
    }
    assert assets[..|assets|] == assets;
    out := st.store;
    r := SyncResult(st.created, st.updated, st.errors, None);
  }

  /**
   * Only the first occurrence of a name is written; later ones are skipped
   * even when the first write failed (the name is marked seen before the
   * upsert).
   */
  lemma {:induction false} FastFirstOccurrenceWins(st: FastState, assets: seq<Asset>, db: Db, k: nat)
    requires k < |assets| && !Unnamed(assets[k]) && assets[k].name !in st.seen
    requires forall j :: 0 <= j < k ==> assets[j].name != assets[k].name
    ensures var n := assets[k].name;
      Lookup(FastFold(st, assets, db).store, n)
        == if db.fault(k).Some? then Lookup(st.store, n) else Some(Write(Lookup(st.store, n), assets[k], db.clock(k)))
    decreases |assets|
  {
    var n := assets[k].name;
    var front := assets[..|assets| - 1];
    var mid := FastFold(st, front, db);
    if k == |assets| - 1 {
      assert !Mentions(front, n);
      assert n !in mid.seen;
    } else {
      FastFirstOccurrenceWins(st, front, db, k);
      assert front[k].name == n;
      assert n in mid.seen;
    }
  }

  /** An upsert of a name that had no row counts as created. */
  lemma FastCountsNewNameAsCreated(st: FastState, a: Asset, i: nat, db: Db)
    requires !Unnamed(a) && a.name !in st.seen && a.name !in st.store && db.fault(i).None?
    ensures var r := FastStep(st, a, i, db);
      r.created == st.created + 1 && r.updated == st.updated && r.errors == st.errors
  {
  }

  /**
   * An upsert of an existing row counts as created iff the row was created
   * less than 100 ms before this write, so a row touched again within 100 ms
   * is reported as created.
   */
  lemma FastCountsExistingRow(st: FastState, a: Asset, i: nat, db: Db)
    requires !Unnamed(a) && a.name !in st.seen && a.name in st.store && db.fault(i).None?
    ensures var r := FastStep(st, a, i, db);
      var age := db.clock(i) - st.store[a.name].createdAt;
      && r.created + r.updated == st.created + st.updated + 1
      && (r.created == st.created + 1 <==> -100 < age < 100)
  {
  }

  /** A failed upsert is one error; the name still counts as seen. */
  lemma FastFailureStillMarksSeen(st: FastState, a: Asset, i: nat, db: Db)
    requires !Unnamed(a) && a.name !in st.seen && db.fault(i).Some?
    ensures var r := FastStep(st, a, i, db);
      r.errors == st.errors + 1 && r.store == st.store && a.name in r.seen
  {
  }

  /** Two occurrences of one name: only the first is upserted, the second is neither counted nor written. */
  lemma FastRepeatIsSilent(store: Store, a: Asset, b: Asset, db: Db)
    requires !Unnamed(a) && b.name == a.name && a.name !in store && db.fault(0).None?
    ensures var r := FastFold(FastInit(store), [a, b], db);
      r.created == 1 && r.updated == 0 && r.errors == 0 && r.skipped == 1
      && Lookup(r.store, a.name) == Some(Write(None, a, db.clock(0)))
  {
    assert [a, b][..1] == [a];
    assert [a][..0] == [];
  }

  // ---------------------------------------------------------------------------
  // searchAssets: the length guard in front of the query
  // ---------------------------------------------------------------------------

  /**
   * A missing query, or one whose JavaScript `length` (UTF-16 code units) is
   * below two, returns [] without consulting the table.
   */
  function SearchAssets<T>(query: Option<string>, search: string -> seq<T>): (r: seq<T>)
    ensures query.None? || Utf16Length(query.value) < SEARCH_MIN_LENGTH ==> r == []
    ensures query.Some? && Utf16Length(query.value) >= SEARCH_MIN_LENGTH ==> r == search(query.value)
  {
    if query.None? || Utf16Length(query.value) < SEARCH_MIN_LENGTH then [] else search(query.value)
  }

  lemma SearchGuardExamples(search: string -> seq<int>)
    requires search("ab") == [1] && search("\U{1F600}") == [2]
    ensures SearchAssets(None, search) == []
    ensures SearchAssets(Some(""), search) == []
    ensures SearchAssets(Some("a"), search) == []
    ensures SearchAssets(Some("ab"), search) == [1]
    ensures SearchAssets(Some("\U{1F600}"), search) == [2]
  {
    AstralLengthExamples();
  }
}

=== FILE: category_traversal.dfy ===
/**
 * The category-level entry points of the Steam Market provider:
 * `fetchAssetsByCategory`, `fetchAssetsByPriority`, `getAllAssets` and
 * `getCurrentPrices`. A catalog maps a search query to its page source.
 */
module CategoryTraversal {
  import opened Wrappers
  import opened SteamConfig
  import opened AssetMapper
  import opened PageTraversal

  type Catalog = string -> PageSource

  // ---------------------------------------------------------------- lookup

  /** `ASSET_CATEGORIES.find(cat => cat.id === categoryId)`. */
  function FindIn(cats: seq<Category>, id: string): (r: Option<Category>)
    ensures r.None? <==> forall i :: 0 <= i < |cats| ==> cats[i].id != id
    ensures r.Some? ==> exists i :: (&& 0 <= i < |cats| && cats[i] == r.value && r.value.id == id
                                     && forall j :: 0 <= j < i ==> cats[j].id != id)
  {
    if |cats| == 0 then None
    else if cats[0].id == id then Some(cats[0])
    else
      var r := FindIn(cats[1..], id);
      assert forall j :: 0 < j < |cats| ==> cats[j] == cats[1..][j - 1];
      r
  }

  function FindCategory(id: string): Option<Category> {
    FindIn(ASSET_CATEGORIES, id)
  }

  datatype CategoryError = UnknownCategory(id: string)

  /**
   * `fetchAssetsByCategory`: an unknown id throws before any request; a known
   * one runs the page loop on that category's search query from `startOffset`.
   */
  method FetchByCategory(categoryId: string, batchSize: int, catalog: Catalog, cbThrows: nat -> bool, startOffset: Option<int>, fuel: nat)
    returns (r: Result<Option<BatchRun>, CategoryError>)
    ensures r.Failure? <==> FindCategory(categoryId).None?
    ensures r.Failure? ==> r.error == UnknownCategory(categoryId)
    ensures r.Success? ==> r.value == Traverse(batchSize, startOffset, catalog(FindCategory(categoryId).value.searchQuery), cbThrows, fuel)
    ensures r.Success? && r.value.Some? ==>
      1 <= |r.value.value.requested| <= fuel &&
      Completed(r.value.value, StartOf(startOffset), batchSize, catalog(FindCategory(categoryId).value.searchQuery), cbThrows)
  {
    var category := FindCategory(categoryId);
    if category.None? {
      return Failure(UnknownCategory(categoryId));
    }
    var run := FetchAssetsBatch(batchSize, startOffset, catalog(category.value.searchQuery), cbThrows, fuel);
    r := Success(run);
  }

  // ------------------------------------------------------------- selection

  /** `categories ? categories.includes(cat.id) : true`. */
  predicate IsRequested(categories: Option<seq<string>>, c: Category) {
    categories.None? || c.id in categories.value
  }

  function Requested(cats: seq<Category>, categories: Option<seq<string>>): (r: seq<Category>)
    ensures forall c :: c in r <==> c in cats && IsRequested(categories, c)
    ensures |r| <= |cats|
  {
    if |cats| == 0 then []
    else (if IsRequested(categories, cats[0]) then [cats[0]] else []) + Requested(cats[1..], categories)
  }

  predicate SortedByPriority(s: seq<Category>) {
    forall i, j :: 0 <= i < j < |s| ==> s[i].priority <= s[j].priority
  }

  lemma ConsSorted(h: Category, rest: seq<Category>)
    requires SortedByPriority(rest)
    requires forall x :: x in rest ==> h.priority <= x.priority
    ensures SortedByPriority([h] + rest)
  {
    forall i, j | 0 <= i < j < |[h] + rest|
      ensures ([h] + rest)[i].priority <= ([h] + rest)[j].priority
    {
      assert ([h] + rest)[j] == rest[j - 1];
      if i > 0 {
        assert ([h] + rest)[i] == rest[i - 1];
      }
    }
  }

  /** Insert `c` before the first element of higher priority. */
  function Insert(c: Category, s: seq<Category>): (r: seq<Category>)
    requires SortedByPriority(s)
    ensures SortedByPriority(r)
    ensures multiset(r) == multiset(s) + multiset{c}
  {
    if |s| == 0 || c.priority <= s[0].priority then [c] + s
    else
      var rest := Insert(c, s[1..]);
      assert s == [s[0]] + s[1..];
      forall x | x in rest
        ensures s[0].priority <= x.priority
      {
        assert x in multiset(rest);
        if x != c {
          assert x in multiset(s[1..]);
          var j :| 0 <= j < |s[1..]| && s[1..][j] == x;
          assert s[1 + j] == x;
        }
      }
      ConsSorted(s[0], rest);
      [s[0]] + rest
  }

  /** `.sort((a, b) => a.priority - b.priority)`. */
  function SortByPriority(s: seq<Category>): (r: seq<Category>)
    ensures SortedByPriority(r)
    ensures multiset(r) == multiset(s)
  {
    if |s| == 0 then []
    else
      assert s == [s[0]] + s[1..];
      Insert(s[0], SortByPriority(s[1..]))
  }

  /** The categories `fetchAssetsByPriority` visits, in order. */
  function SelectCategories(categories: Option<seq<string>>): seq<Category> {
    SortByPriority(Requested(ASSET_CATEGORIES, categories))
  }

  lemma {:induction false} SortIdentityOnSorted(s: seq<Category>)
    requires SortedByPriority(s)
    ensures SortByPriority(s) == s
  {
    if |s| > 0 {
      SortIdentityOnSorted(s[1..]);
    }
  }

  lemma {:induction false} RequestedKeepsOrder(cats: seq<Category>, categories: Option<seq<string>>)
    requires SortedByPriority(cats)
    ensures SortedByPriority(Requested(cats, categories))
  {
    if |cats| > 0 {
      RequestedKeepsOrder(cats[1..], categories);
      var rest := Requested(cats[1..], categories);
      forall x | x in rest ensures cats[0].priority <= x.priority {
        var j :| 0 <= j < |cats[1..]| && cats[1..][j] == x;
        assert cats[1 + j] == x;
      }
    }
  }

  /**
   * Because the configuration is declared in ascending priority, the visit
   * order is the configuration order restricted to requested ids: exactly the
   * configured categories whose id is requested, and nothing for an unknown id.
   */
  lemma SelectCategoriesCharacterised(categories: Option<seq<string>>)
    ensures SelectCategories(categories) == Requested(ASSET_CATEGORIES, categories)
    ensures forall c :: c in SelectCategories(categories) <==> c in ASSET_CATEGORIES && IsRequested(categories, c)
    ensures SortedByPriority(SelectCategories(categories))
  {
    CategoriesWellFormed();
    RequestedKeepsOrder(ASSET_CATEGORIES, categories);
    SortIdentityOnSorted(Requested(ASSET_CATEGORIES, categories));
  }

  /** With no `categories` argument every configured category is visited, in configuration order. */
  lemma SelectAllExample()
    ensures SelectCategories(None) == ASSET_CATEGORIES
  {
    SelectCategoriesCharacterised(None);
    RequestedAll(ASSET_CATEGORIES);
  }

  lemma {:induction false} RequestedAll(cats: seq<Category>)
    ensures Requested(cats, None) == cats
  {
    if |cats| > 0 {
      RequestedAll(cats[1..]);
    }
  }

  /** Requested ids are visited in priority order, not in the order given; an unknown id is ignored. */
  lemma SelectSomeExample()
    ensures SelectCategories(Some(["patches", "no-such-id", "stickers"])) == [ASSET_CATEGORIES[0], ASSET_CATEGORIES[4]]
  {
    SelectCategoriesCharacterised(Some(["patches", "no-such-id", "stickers"]));
    RequestedExample();
  }

  lemma RequestedExample()
    ensures Requested(ASSET_CATEGORIES, Some(["patches", "no-such-id", "stickers"])) == [ASSET_CATEGORIES[0], ASSET_CATEGORIES[4]]
  {
    var q := Some(["patches", "no-such-id", "stickers"]);
    var cats := ASSET_CATEGORIES;
    assert IsRequested(q, cats[0]) && IsRequested(q, cats[4]);
    assert !IsRequested(q, cats[1]) && !IsRequested(q, cats[2]) && !IsRequested(q, cats[3]);
    assert Requested(cats[5..], q) == [];
    assert Requested(cats[4..], q) == [cats[4]] + Requested(cats[4..][1..], q);
    assert cats[4..][1..] == cats[5..];
    assert cats[3..][1..] == cats[4..];
    assert cats[2..][1..] == cats[3..];
    assert cats[1..][1..] == cats[2..];
    assert Requested(cats[3..], q) == [cats[4]];
    assert Requested(cats[2..], q) == [cats[4]];
    assert Requested(cats[1..], q) == [cats[4]];
  }

  // -------------------------------------------------------------- priority

  datatype PriorityOutcome = AllDone | Threw | OutOfFuel

  /** The per-category traversals that ran, in order, and how the whole call ended. */
  datatype PriorityRun = PriorityRun(visited: seq<BatchRun>, outcome: PriorityOutcome)

  /** The offset category number `i` (from 0) starts at: only the first one resumes. */
  function CategoryStart(i: nat, startOffset: Option<int>): Option<int> {
    if i == 0 then startOffset else None
  }

  /** The traversal of each category of the selection by position, from its own start offset; nothing past the end. */
  function CategoryRuns(sel: seq<Category>, batchSize: int, catalog: Catalog, cbThrows: string -> nat -> bool, startOffset: Option<int>, fuel: nat)
    : nat -> Option<BatchRun>
  {
    (i: nat) =>
      if i < |sel| then Traverse(batchSize, CategoryStart(i, startOffset), catalog(sel[i].searchQuery), cbThrows(sel[i].name), fuel)
      else None
  }

  /**
   * `fetchAssetsByPriority`. The callback oracle is indexed by category name
   * (the value `onBatch` receives) and batch number. The selected categories
   * are visited in order, each by its own traversal and only the first from
   * `startOffset`; a traversal that throws ends the whole call; `OutOfFuel`
   * marks the category whose traversal the model stopped.
   */
  method FetchByPriority(batchSize: int, catalog: Catalog, cbThrows: string -> nat -> bool, categories: Option<seq<string>>, startOffset: Option<int>, fuel: nat)
    returns (r: PriorityRun)
    ensures |r.visited| <= |SelectCategories(categories)|
    ensures EachDone(r.visited, CategoryRuns(SelectCategories(categories), batchSize, catalog, cbThrows, startOffset, fuel))
    ensures forall i :: 0 <= i < |r.visited| - 1 ==> !r.visited[i].threw
    ensures r.outcome == AllDone ==> |r.visited| == |SelectCategories(categories)|
    ensures r.outcome == AllDone ==> forall i :: 0 <= i < |r.visited| ==> !r.visited[i].threw
    ensures r.outcome == Threw ==> |r.visited| > 0 && r.visited[|r.visited| - 1].threw
    ensures r.outcome == OutOfFuel ==>
      && |r.visited| < |SelectCategories(categories)|
      && (forall i :: 0 <= i < |r.visited| ==> !r.visited[i].threw)
      && CategoryRuns(SelectCategories(categories), batchSize, catalog, cbThrows, startOffset, fuel)(|r.visited|).None?
  {
    SelectedAreFindable(categories);
    r := VisitInOrder(SelectCategories(categories), batchSize, catalog, cbThrows, startOffset, fuel);
  }

  /** Every category of a selection can be looked up again by its id. */
  predicate Findable(sel: seq<Category>) {
    forall i :: 0 <= i < |sel| ==> FindCategory(sel[i].id) == Some(sel[i])
  }

  /** The loop of `fetchAssetsByPriority` over an already chosen selection. */
  method VisitInOrder(sel: seq<Category>, batchSize: int, catalog: Catalog, cbThrows: string -> nat -> bool, startOffset: Option<int>, fuel: nat)
    returns (r: PriorityRun)
    requires Findable(sel)
    ensures |r.visited| <= |sel|
    ensures EachDone(r.visited, CategoryRuns(sel, batchSize, catalog, cbThrows, startOffset, fuel))
    ensures forall i :: 0 <= i < |r.visited| - 1 ==> !r.visited[i].threw
    ensures r.outcome == AllDone ==> |r.visited| == |sel|
    ensures r.outcome == AllDone ==> forall i :: 0 <= i < |r.visited| ==> !r.visited[i].threw
    ensures r.outcome == Threw ==> |r.visited| > 0 && r.visited[|r.visited| - 1].threw
    ensures r.outcome == OutOfFuel ==>
      && |r.visited| < |sel|
      && (forall i :: 0 <= i < |r.visited| ==> !r.visited[i].threw)
      && CategoryRuns(sel, batchSize, catalog, cbThrows, startOffset, fuel)(|r.visited|).None?
  {
    ghost var runs := CategoryRuns(sel, batchSize, catalog, cbThrows, startOffset, fuel);
    var visited: seq<BatchRun> := [];
    var i := 0;
    while i < |sel|
      invariant i == |visited| <= |sel|
      invariant EachDone(visited, runs)
      invariant forall j :: 0 <= j < i ==> !visited[j].threw
    {
      var res := VisitCategory(sel, batchSize, catalog, cbThrows, startOffset, fuel, i);
      if res.None? {
        return PriorityRun(visited, OutOfFuel);
      }
      var run := res.value;
      EachDoneSnoc(visited, run, runs);
      visited := visited + [run];
      if run.threw {
        return PriorityRun(visited, Threw);
      }
      i := i + 1;
    }
    r := PriorityRun(visited, AllDone);
  }

  /** One iteration of the category loop: the `i`-th selected category, from `startOffset` only when it is the first. */
  method VisitCategory(sel: seq<Category>, batchSize: int, catalog: Catalog, cbThrows: string -> nat -> bool,
                       startOffset: Option<int>, fuel: nat, i: nat)
    returns (r: Option<BatchRun>)
    requires i < |sel| && Findable(sel)
    ensures r == CategoryRuns(sel, batchSize, catalog, cbThrows, startOffset, fuel)(i)
  {
    var category := sel[i];
    var res := FetchByCategory(category.id, batchSize, catalog, cbThrows(category.name), CategoryStart(i, startOffset), fuel);
    assert FindCategory(category.id) == Some(category);
    r := res.value;
  }

  /** The visited runs are, position by position, what `runs` gives. */
  predicate EachDone(visited: seq<BatchRun>, runs: nat -> Option<BatchRun>)
    decreases |visited|
  {
    |visited| > 0 ==> EachDone(visited[..|visited| - 1], runs) && runs(|visited| - 1) == Some(visited[|visited| - 1])
  }

  lemma EachDoneSnoc(visited: seq<BatchRun>, run: BatchRun, runs: nat -> Option<BatchRun>)
    requires EachDone(visited, runs) && runs(|visited|) == Some(run)
    ensures EachDone(visited + [run], runs)
  {
    assert (visited + [run])[..|visited|] == visited;
  }

  /** Spelled out: the `i`-th visited run is the `i`-th category's traversal. */
  lemma {:induction false} EachDoneMeans(visited: seq<BatchRun>, runs: nat -> Option<BatchRun>)
    requires EachDone(visited, runs)
    ensures forall i :: 0 <= i < |visited| ==> runs(i) == Some(visited[i])
    decreases |visited|
  {
    if |visited| > 0 {
      var front := visited[..|visited| - 1];
      EachDoneMeans(front, runs);
      forall i | 0 <= i < |visited| ensures runs(i) == Some(visited[i]) {
        if i < |front| {
          assert visited[i] == front[i];
        }
      }
    }
  }

  /** A visited category's run is a completed traversal of its query, from its own start offset. */
  lemma CategoryRunCompleted(run: BatchRun, i: nat, sel: seq<Category>, batchSize: int, catalog: Catalog,
                             cbThrows: string -> nat -> bool, startOffset: Option<int>, fuel: nat)
    requires CategoryRuns(sel, batchSize, catalog, cbThrows, startOffset, fuel)(i) == Some(run)
    ensures i < |sel| && 1 <= |run.requested| <= fuel
    ensures Completed(run, StartOf(CategoryStart(i, startOffset)), batchSize, catalog(sel[i].searchQuery), cbThrows(sel[i].name))
  {
    var runs := CategoryRuns(sel, batchSize, catalog, cbThrows, startOffset, fuel);
    assert i < |sel| by {
      assert i >= |sel| ==> runs(i).None?;
    }
    TraverseCompleted(batchSize, CategoryStart(i, startOffset), catalog(sel[i].searchQuery), cbThrows(sel[i].name), fuel);
  }

  lemma SelectedAreFindable(categories: Option<seq<string>>)
    ensures Findable(SelectCategories(categories))
  {
    SelectCategoriesCharacterised(categories);
    var sel := SelectCategories(categories);
    forall i | 0 <= i < |sel| ensures FindCategory(sel[i].id) == Some(sel[i]) {
      assert sel[i] in sel;
      FindConfigured(sel[i]);
    }
  }

  /** Looking up a configured category's id finds that category (ids are distinct). */
  lemma FindConfigured(c: Category)
    requires c in ASSET_CATEGORIES
    ensures FindCategory(c.id) == Some(c)
  {
    CategoriesWellFormed();
  }

  // ------------------------------------------------------------ full scan

  /** The local variables of `getAllAssets`: the same loop as the batch traversal, without a buffer. */
  datatype Scan = Scan(offset: int, totalCount: Option<int>, consecutiveErrors: nat, fetched: seq<Asset>, requested: seq<int>, running: bool)

  /** The part of a batch traversal's state that `getAllAssets` also keeps. */
  function Project(t: Traversal): (r: Scan)
    ensures r.fetched == t.fetched && r.requested == t.requested && r.running == t.running
  {
    Scan(t.offset, t.totalCount, t.consecutiveErrors, t.fetched, t.requested, t.running)
  }

  /** One iteration of `getAllAssets`'s loop. */
  function ScanStep(s: Scan, source: PageSource): (r: Scan)
    requires s.running
    ensures r.requested == s.requested + [s.offset]
    ensures r.fetched == s.fetched + PageAssets(source(s.offset))
    ensures r.totalCount == if s.totalCount.Some? || !Accepted(source(s.offset)) then s.totalCount else Some(source(s.offset).value.totalCount)
    ensures r.running ==> r.offset == s.offset + PAGE_SIZE && r.consecutiveErrors < MAX_CONSECUTIVE_ERRORS
  {
    var t := s.(requested := s.requested + [s.offset]);
    var p := source(s.offset);
    if !Accepted(p) then
      var e := s.consecutiveErrors + 1;
      if e >= MAX_CONSECUTIVE_ERRORS then t.(consecutiveErrors := e, running := false)
      else t.(consecutiveErrors := e, offset := s.offset + PAGE_SIZE)
    else
      var total := if s.totalCount.Some? then s.totalCount.value else p.value.totalCount;
      var t := t.(totalCount := Some(total));
      if |Items(p)| == 0 then t.(running := false)
      else
        var fetched := s.fetched + MapAndFilterItems(ICON_BASE_URL, Items(p));
        if |fetched| >= total then t.(fetched := fetched, consecutiveErrors := 0, running := false)
        else t.(fetched := fetched, consecutiveErrors := 0, offset := s.offset + PAGE_SIZE)
  }

  /** A batch callback that always returns normally. */
  function NeverThrows(n: nat): bool {
    false
  }

  /**
   * `getAllAssets` is the batch traversal without batching: when no callback
   * throws, one iteration of the batch loop, seen through `Project`, is one
   * iteration of the full scan, whatever the batch size.
   */
  lemma ScanSimulatesBatchLoop(t: Traversal, batchSize: int, source: PageSource)
    requires t.running
    ensures Project(Step(t, batchSize, source, NeverThrows)) == ScanStep(Project(t), source)
  {
    var p := source(t.offset);
    if Accepted(p) && |Items(p)| > 0 {
      assert PageAssets(p) == MapAndFilterItems(ICON_BASE_URL, Items(p));
    }
  }

  predicate ScanWf(s: Scan, source: PageSource) {
    && (forall k :: 0 <= k < |s.requested| ==> s.requested[k] == PAGE_SIZE * k)
    && (s.running ==> s.offset == PAGE_SIZE * |s.requested|)
    && s.fetched == Harvest(source, s.requested)
    && s.totalCount == FirstTotal(source, s.requested)
  }

  lemma ScanStepWf(s: Scan, source: PageSource)
    requires ScanWf(s, source) && s.running
    ensures ScanWf(ScanStep(s, source), source)
  {
    var r := ScanStep(s, source);
    assert r.requested[..|r.requested| - 1] == s.requested;
  }

  /** One iteration of the full scan as a total function: a stopped scan stays as it is. */
  function ScanNext(source: PageSource): Scan -> Scan {
    (s: Scan) => if s.running then ScanStep(s, source) else s
  }

  /** The full scan's `while (true)` loop run from `s` for at most `fuel` iterations. */
  function RunScan(s: Scan, next: Scan -> Scan, fuel: nat): Scan
    decreases fuel
  {
    if !s.running || fuel == 0 then s else RunScan(next(s), next, fuel - 1)
  }

  /** One scan iteration keeps the scan invariant. */
  ghost predicate KeepsScanWf(next: Scan -> Scan, source: PageSource) {
    forall x: Scan :: ScanWf(x, source) && x.running ==> ScanWf(next(x), source)
  }

  lemma ScanNextKeepsWf(source: PageSource)
    ensures KeepsScanWf(ScanNext(source), source)
  {
    forall x: Scan | ScanWf(x, source) && x.running ensures ScanWf(ScanNext(source)(x), source) {
      ScanStepWf(x, source);
    }
  }

  lemma {:induction false} RunScanWf(s: Scan, next: Scan -> Scan, source: PageSource, fuel: nat)
    requires ScanWf(s, source) && KeepsScanWf(next, source)
    ensures ScanWf(RunScan(s, next, fuel), source)
    decreases fuel
  {
    if s.running && fuel > 0 {
      RunScanWf(next(s), next, source, fuel - 1);
    }
  }

  /** Every iteration of a running scan requests exactly one page. */
  ghost predicate ScanRequestsOnePage(next: Scan -> Scan) {
    forall x: Scan :: x.running ==> |next(x).requested| == |x.requested| + 1
  }

  lemma ScanNextRequestsOnePage(source: PageSource)
    ensures ScanRequestsOnePage(ScanNext(source))
  {
  }

  lemma {:induction false} RunScanRequests(s: Scan, next: Scan -> Scan, fuel: nat)
    requires ScanRequestsOnePage(next)
    ensures var r := RunScan(s, next, fuel);
      && |s.requested| <= |r.requested| <= |s.requested| + fuel
      && (s.running && fuel > 0 ==> |r.requested| > |s.requested|)
    decreases fuel
  {
    if s.running && fuel > 0 {
      RunScanRequests(next(s), next, fuel - 1);
    }
  }

  /** Seen through `Project`, one iteration of `next` is one iteration of `scanNext`. */
  ghost predicate Simulates(next: Traversal -> Traversal, scanNext: Scan -> Scan) {
    forall x: Traversal :: x.running ==> Project(next(x)) == scanNext(Project(x))
  }

  lemma NextSimulatesScanNext(batchSize: int, source: PageSource)
    ensures Simulates(Next(batchSize, source, NeverThrows), ScanNext(source))
  {
    forall x: Traversal | x.running
      ensures Project(Next(batchSize, source, NeverThrows)(x)) == ScanNext(source)(Project(x))
    {
      ScanSimulatesBatchLoop(x, batchSize, source);
    }
  }

  /** Run for run, a simulated loop is the simulating loop seen through `Project`. */
  lemma {:induction false} RunScanSimulatesBatchRun(t: Traversal, next: Traversal -> Traversal, scanNext: Scan -> Scan, fuel: nat)
    requires Simulates(next, scanNext)
    ensures Project(Run(t, next, fuel)) == RunScan(Project(t), scanNext, fuel)
    decreases fuel
  {
    if t.running && fuel > 0 {
      RunScanSimulatesBatchRun(next(t), next, scanNext, fuel - 1);
    }
  }

  /** The state `getAllAssets` starts from. */
  function ScanStart(): Scan {
    Scan(0, None, 0, [], [], true)
  }

  /**
   * The full scan of the unfiltered query from offset 0. `None` if still
   * running after `fuel` pages. When it finishes, the k-th request is at
   * k·PAGE_SIZE and the result is the mapped and filtered assets of every
   * accepted page, in page order.
   */
  function FullScan(catalog: Catalog, fuel: nat): Option<Scan> {
    var s := RunScan(ScanStart(), ScanNext(catalog("")), fuel);
    if s.running then None else Some(s)
  }

  lemma FullScanHarvests(catalog: Catalog, fuel: nat)
    ensures fuel == 0 ==> FullScan(catalog, fuel).None?
    ensures var r := FullScan(catalog, fuel);
      r.Some? ==> var s := r.value;
      && !s.running && 1 <= |s.requested| <= fuel
      && (forall k :: 0 <= k < |s.requested| ==> s.requested[k] == PAGE_SIZE * k)
      && s.fetched == Harvest(catalog(""), s.requested)
      && s.totalCount == FirstTotal(catalog(""), s.requested)
  {
    var source := catalog("");
    ScanNextKeepsWf(source);
    RunScanWf(ScanStart(), ScanNext(source), source, fuel);
    ScanNextRequestsOnePage(source);
    RunScanRequests(ScanStart(), ScanNext(source), fuel);
  }

  /**
   * `getAllAssets` finishes exactly when the batch traversal of the same query
   * from offset 0 with a never-throwing callback does, whatever its batch size,
   * and then requests the same pages and gathers the same assets and total.
   */
  lemma FullScanIsUnbatchedTraversal(catalog: Catalog, batchSize: int, fuel: nat)
    ensures var scan := FullScan(catalog, fuel);
      var run := Traverse(batchSize, None, catalog(""), NeverThrows, fuel);
      && (scan.Some? <==> run.Some?)
      && (scan.Some? ==>
            scan.value.requested == run.value.requested && scan.value.fetched == run.value.fetched
            && scan.value.totalCount == run.value.totalCount)
  {
    NextSimulatesScanNext(batchSize, catalog(""));
    RunScanSimulatesBatchRun(Init(0), Next(batchSize, catalog(""), NeverThrows), ScanNext(catalog("")), fuel);
    assert Project(Init(0)) == ScanStart();
  }

  /** `getAllAssets`. */
  method GetAllAssets(catalog: Catalog, fuel: nat) returns (r: Option<Scan>)
    ensures r == FullScan(catalog, fuel)
    ensures r.Some? ==> var s := r.value;
      && !s.running && 1 <= |s.requested| <= fuel
      && (forall k :: 0 <= k < |s.requested| ==> s.requested[k] == PAGE_SIZE * k)
      && s.fetched == Harvest(catalog(""), s.requested)
      && s.totalCount == FirstTotal(catalog(""), s.requested)
  {
    var s := ScanLoop(ScanStart(), ScanNext(catalog("")), fuel);
    FullScanHarvests(catalog, fuel);
    r := if s.running then None else Some(s);
  }

  /** A `while (running)` loop over scan states, cut off after `fuel` iterations. */
  method ScanLoop(s0: Scan, next: Scan -> Scan, fuel: nat) returns (s: Scan)
    ensures s == RunScan(s0, next, fuel)
  {
    s := s0;
    var i := 0;
    while s.running && i < fuel
      invariant i <= fuel
      invariant RunScan(s, next, fuel - i) == RunScan(s0, next, fuel)
    {
      s := next(s);
      i := i + 1;
    }
  }

  // ---------------------------------------------------------------- prices

  /** The assets that have a price, as (name, price) pairs, in order. */
  function PricesOf(assets: seq<Asset>): (r: seq<(string, real)>)
    ensures |r| <= |assets|
  {
    if |assets| == 0 then []
    else
      var last := assets[|assets| - 1];
      PricesOf(assets[..|assets| - 1]) + (if last.currentPrice.Some? then [(last.name, last.currentPrice.value)] else [])
  }

  /** A pair is listed exactly when some asset with that name carries that price. */
  lemma {:induction false} PricesOfMembership(assets: seq<Asset>, name: string, price: real)
    ensures (name, price) in PricesOf(assets) <==>
      exists i :: 0 <= i < |assets| && assets[i].name == name && assets[i].currentPrice == Some(price)
  {
    if |assets| > 0 {
      var init := assets[..|assets| - 1];
      PricesOfMembership(init, name, price);
      if (name, price) in PricesOf(init) {
        var i :| 0 <= i < |init| && init[i].name == name && init[i].currentPrice == Some(price);
        assert assets[i] == init[i];
      }
      if exists i :: 0 <= i < |assets| && assets[i].name == name && assets[i].currentPrice == Some(price) {
        var i :| 0 <= i < |assets| && assets[i].name == name && assets[i].currentPrice == Some(price);
        if i < |init| {
          assert init[i] == assets[i];
        }
      }
    }
  }

  /** Every priced asset contributes one pair, so the count is the number of priced assets. */
  lemma {:induction false} PricesOfCount(assets: seq<Asset>)
    ensures |PricesOf(assets)| == |set i | 0 <= i < |assets| && assets[i].currentPrice.Some?|
  {
    if |assets| > 0 {
      var n := |assets| - 1;
      PricesOfCount(assets[..n]);
      var before := set i | 0 <= i < n && assets[..n][i].currentPrice.Some?;
      var now := set i | 0 <= i < |assets| && assets[i].currentPrice.Some?;
      if assets[n].currentPrice.Some? {
        assert now == before + {n};
      } else {
        assert now == before;
      }
    }
  }

  /** `getCurrentPrices`: the priced assets of a full scan. */
  method GetCurrentPrices(catalog: Catalog, fuel: nat) returns (r: Option<seq<(string, real)>>)
    ensures r.None? <==> FullScan(catalog, fuel).None?
    ensures r.Some? ==> r.value == PricesOf(FullScan(catalog, fuel).value.fetched)
    ensures r.Some? ==> r.value == PricesOf(Harvest(catalog(""), FullScan(catalog, fuel).value.requested))
  {
    var scan := GetAllAssets(catalog, fuel);
    if scan.None? {
      return None;
    }
    r := Some(PricesOf(scan.value.fetched));
  }
}

=== FILE: env_file.dfy ===
/**
 * The `.env` loader at the top of the tunnel start script: the file is split
 * on `'\n'`, each line is matched against `^([^=:#]+)=(.*)$`, and a matched
 * key is assigned its trimmed value unless the environment already holds a
 * non-empty value for it.
 */
module EnvFile {
  import opened Wrappers
  import opened JsText

  type Env = map<string, string>

  const NEWLINE: char := '\n'

  /** The first position of `c` in `s`. */
  function Find(s: string, c: char): (r: Option<nat>)
    ensures r.None? <==> forall j :: 0 <= j < |s| ==> s[j] != c
    ensures r.Some? ==> r.value < |s| && s[r.value] == c && forall j :: 0 <= j < r.value ==> s[j] != c
  {
    if |s| == 0 then None
    else if s[0] == c then Some(0)
    else
      match Find(s[1..], c)
      case None => None
      case Some(i) => Some(i + 1)
  }

  // ---------------------------------------------------------------------------
  // `content.split('\n')` and its inverse
  // ---------------------------------------------------------------------------

  /** `s.split('\n')`: the text between separators, so never an empty list. */
  function Split(s: string): (r: seq<string>)
    ensures |r| >= 1
    ensures forall i :: 0 <= i < |r| ==> NEWLINE !in r[i]
    decreases |s|
  {
    match Find(s, NEWLINE)
    case None => [s]
    case Some(i) => [s[..i]] + Split(s[i + 1..])
  }

  /** `parts.join('\n')`. */
  function Join(parts: seq<string>): string
    requires |parts| >= 1
  {
    if |parts| == 1 then parts[0] else parts[0] + [NEWLINE] + Join(parts[1..])
  }

  lemma JoinCons(first: string, rest: seq<string>)
    requires |rest| >= 1
    ensures Join([first] + rest) == first + [NEWLINE] + Join(rest)
  {
    assert ([first] + rest)[1..] == rest;
  }

  lemma SplitAt(s: string, i: nat)
    requires Find(s, NEWLINE) == Some(i)
    ensures Split(s) == [s[..i]] + Split(s[i + 1..])
  {
  }

  lemma {:induction false} JoinSplit(s: string)
    ensures Join(Split(s)) == s
    decreases |s|
  {
    match Find(s, NEWLINE)
    case None =>
    case Some(i) =>
      var rest := s[i + 1..];
      JoinSplit(rest);
      SplitAt(s, i);
      JoinCons(s[..i], Split(rest));
      assert s == s[..i] + [NEWLINE] + rest;
  }

  lemma {:induction false} SplitJoin(parts: seq<string>)
    requires |parts| >= 1 && forall i :: 0 <= i < |parts| ==> NEWLINE !in parts[i]
    ensures Split(Join(parts)) == parts
    decreases |parts|
  {
    if |parts| > 1 {
      var s := Join(parts);
      SplitJoin(parts[1..]);
      assert s[..|parts[0]|] == parts[0];
      assert s[|parts[0]|] == NEWLINE;
      assert Find(s, NEWLINE) == Some(|parts[0]|);
      assert s[|parts[0]| + 1..] == Join(parts[1..]);
    } else {
      assert Find(parts[0], NEWLINE).None?;
    }
  }

  // ---------------------------------------------------------------------------
  // One line against `^([^=:#]+)=(.*)$`
  // ---------------------------------------------------------------------------

  /**
   * The regular expression matches with the first `=` at position `i`: the
   * group before it is non-empty and holds none of `=`, `:`, `#`; the group
   * after it holds no line terminator (`.` does not match one).
   */
  predicate MatchesAt(line: string, i: int) {
    && 0 < i < |line| && line[i] == '='
    && (forall j :: 0 <= j < i ==> line[j] != '=' && line[j] != ':' && line[j] != '#')
    && (forall j :: i < j < |line| ==> !IsLineTerminator(line[j]))
  }

  /** Only the first `=` can be the one the expression matches at. */
  lemma MatchesOnlyAtFirst(line: string, i: int)
    requires MatchesAt(line, i)
    ensures Find(line, '=') == Some(i)
  {
  }

  /** The key and value a line assigns, if it matches. */
  function ParseLine(line: string): (r: Option<(string, string)>)
    ensures r.Some? ==> Find(line, '=').Some? && MatchesAt(line, Find(line, '=').value)
  {
    match Find(line, '=')
    case None => None
    case Some(i) => if MatchesAt(line, i) then Some((Trim(line[..i]), Trim(line[i + 1..]))) else None
  }

  /** A line is used exactly when the expression matches it, and then it yields the trimmed groups. */
  lemma ParseLineCharacterised(line: string)
    ensures ParseLine(line).None? <==> forall i :: !MatchesAt(line, i)
    ensures forall i :: MatchesAt(line, i) ==> ParseLine(line) == Some((Trim(line[..i]), Trim(line[i + 1..])))
  {
    forall i | MatchesAt(line, i) ensures ParseLine(line) == Some((Trim(line[..i]), Trim(line[i + 1..]))) {
      MatchesOnlyAtFirst(line, i);
    }
  }

  /** A well-formed `KEY=VALUE` line gives the trimmed key and value; the value may itself contain `=`. */
  lemma ParseComposed(k: string, v: string)
    requires |k| > 0 && forall j :: 0 <= j < |k| ==> k[j] != '=' && k[j] != ':' && k[j] != '#'
    requires forall j :: 0 <= j < |v| ==> !IsLineTerminator(v[j])
    ensures ParseLine(k + "=" + v) == Some((Trim(k), Trim(v)))
  {
    var line := k + "=" + v;
    assert line[..|k|] == k && line[|k| + 1..] == v;
    assert MatchesAt(line, |k|);
    MatchesOnlyAtFirst(line, |k|);
  }

  /** A line starting with `#` is a comment. */
  lemma CommentIgnored(line: string)
    requires |line| > 0 && line[0] == '#'
    ensures ParseLine(line) == None
  {
  }

  /** A line ending in `'\r'` (a CRLF file) never matches, since `.` stops before it. */
  lemma CarriageReturnIgnored(line: string)
    requires |line| > 0 && line[|line| - 1] == '\r'
    ensures ParseLine(line) == None
  {
    assert IsLineTerminator(line[|line| - 1]);
  }

  /** A `:` or `#` before the first `=` (a URL as the key, say) rejects the line. */
  lemma ColonOrHashBeforeEqualsIgnored(line: string, j: nat)
    requires j < |line| && (line[j] == ':' || line[j] == '#')
    requires forall k :: 0 <= k < j ==> line[k] != '='
    ensures ParseLine(line) == None
  {
  }

  // ---------------------------------------------------------------------------
  // Loading into the environment
  // ---------------------------------------------------------------------------

  /** The assignments of the matching lines, in file order. */
  function Entries(lines: seq<string>): (r: seq<(string, string)>)
    ensures |r| <= |lines|
  {
    if |lines| == 0 then []
    else
      var line := lines[|lines| - 1];
      Entries(lines[..|lines| - 1]) + (match ParseLine(line) case Some(kv) => [kv] case None => [])
  }

  /** `if (!process.env[key]) process.env[key] = value`: undefined and "" are both falsy. */
  function Assign(env: Env, key: string, value: string): (r: Env)
    ensures r.Keys == env.Keys + {key}
    ensures key in env && env[key] != "" ==> r == env
    ensures (key !in env || env[key] == "") ==> r == env[key := value]
  {
    if key !in env || env[key] == "" then env[key := value] else env
  }

  function AssignAll(env: Env, entries: seq<(string, string)>): (r: Env)
    ensures forall k :: k in env ==> k in r
  {
    if |entries| == 0 then env
    else
      var (key, value) := entries[|entries| - 1];
      Assign(AssignAll(env, entries[..|entries| - 1]), key, value)
  }

  /** The whole loader; `content` is `None` when the file does not exist. */
  function LoadEnvFile(env: Env, content: Option<string>): (r: Env)
    ensures content.None? ==> r == env
  {
    match content
    case None => env
    case Some(text) => AssignAll(env, Entries(Split(text)))
  }

  /** Reference: the first non-empty value given for `key`. */
  function FirstNonEmpty(entries: seq<(string, string)>, key: string): (r: Option<string>)
    ensures r.Some? ==> r.value != ""
  {
    if |entries| == 0 then None
    else
      var prior := FirstNonEmpty(entries[..|entries| - 1], key);
      var (k, v) := entries[|entries| - 1];
      if prior.Some? then prior else if k == key && v != "" then Some(v) else None
  }

  predicate Mentions(entries: seq<(string, string)>, key: string) {
    exists i :: 0 <= i < |entries| && entries[i].0 == key
  }

  /**
   * What the loop leaves under `key`: a non-empty existing value is kept;
   * otherwise the first non-empty value in the file wins, an entry with only
   * empty values leaves "", and an unmentioned key is untouched.
   */
  lemma {:induction false} AssignAllValue(env: Env, entries: seq<(string, string)>, key: string)
    ensures key in env && env[key] != "" ==> AssignAll(env, entries)[key] == env[key]
    ensures (key !in env || env[key] == "") && FirstNonEmpty(entries, key).Some? ==>
      key in AssignAll(env, entries) && AssignAll(env, entries)[key] == FirstNonEmpty(entries, key).value
    ensures (key !in env || env[key] == "") && FirstNonEmpty(entries, key).None? && Mentions(entries, key) ==>
      key in AssignAll(env, entries) && AssignAll(env, entries)[key] == ""
    ensures !Mentions(entries, key) ==>
      (key in AssignAll(env, entries) <==> key in env) && (key in env ==> AssignAll(env, entries)[key] == env[key])
    decreases |entries|
  {
    if |entries| > 0 {
      var front := entries[..|entries| - 1];
      AssignAllValue(env, front, key);
      assert forall i :: 0 <= i < |front| ==> front[i] == entries[i];
      if !Mentions(entries, key) {
        assert !Mentions(front, key);
      }
      if FirstNonEmpty(entries, key).None? && Mentions(entries, key) && !Mentions(front, key) {
        assert entries[|entries| - 1].0 == key;
      }
    }
  }

  /** The keys after loading: the existing ones plus every key a matching line names. */
  lemma {:induction false} AssignAllKeys(env: Env, entries: seq<(string, string)>)
    ensures AssignAll(env, entries).Keys == env.Keys + set i | 0 <= i < |entries| :: entries[i].0
    decreases |entries|
  {
    if |entries| > 0 {
      var front := entries[..|entries| - 1];
      AssignAllKeys(env, front);
      assert (set i | 0 <= i < |entries| :: entries[i].0)
        == (set i | 0 <= i < |front| :: front[i].0) + {entries[|entries| - 1].0};
    }
  }

  /** A non-empty variable already in the environment is never overwritten by the file. */
  lemma ExistingValueWins(env: Env, content: Option<string>, key: string)
    requires key in env && env[key] != ""
    ensures LoadEnvFile(env, content)[key] == env[key]
  {
    if content.Some? {
      AssignAllValue(env, Entries(Split(content.value)), key);
    }
  }

  /** A repeated key: an empty first value is overridden by a later non-empty one, which then sticks. */
  lemma RepeatedKeyExample()
    ensures AssignAll(map[], [("PORT", ""), ("PORT", "3000"), ("PORT", "4000")]) == map["PORT" := "3000"]
  {
    var e := [("PORT", ""), ("PORT", "3000"), ("PORT", "4000")];
    assert e[..2] == [("PORT", ""), ("PORT", "3000")];
    assert e[..2][..1] == [("PORT", "")];
    assert e[..2][..1][..0] == [];
    var m0: Env := map[];
    assert AssignAll(m0, e[..2][..1]) == map["PORT" := ""];
    assert AssignAll(m0, e[..2]) == map["PORT" := "3000"];
  }
}

=== FILE: fetch_retry.dfy ===
/**
 * `fetchWithRetry`: up to `maxRetries` HTTP attempts for one URL, with a
 * linear backoff between attempts and an immediate abort on a critical status.
 * The network is a function from attempt index to what that attempt observed.
 */
module FetchRetry {
  import opened Wrappers
  import opened SteamConfig
  import AssetMapper

  /** The body of a market search response. */
  datatype SearchResponse = SearchResponse(success: bool, totalCount: int, results: Option<seq<AssetMapper.RawItem>>)

  /**
   * What one HTTP attempt observed: a delivered response (whose body may be
   * empty), an error status, no response at all (timeout, network failure), or
   * a failure while setting up the request.
   */
  datatype Attempt = Delivered(body: Option<SearchResponse>) | HttpStatus(status: int) | NoResponse | SetupFailure

  /** Why `fetchWithRetry` threw. */
  datatype FetchError =
    | Critical(status: int)        // critical status: thrown at once, no further attempts
    | Exhausted(last: Attempt)     // the final attempt's error, rethrown
    | NoAttempts                   // maxRetries < 1: the loop never ran

  /** The attempt succeeded: a response with a body arrived. */
  predicate Succeeds(a: Attempt) {
    a.Delivered? && a.body.Some?
  }

  predicate IsCritical(a: Attempt) {
    a.HttpStatus? && IsCriticalStatus(a.status)
  }

  /** The attempt failed in a way the loop retries. */
  predicate Retryable(a: Attempt) {
    !Succeeds(a) && !IsCritical(a)
  }

  /** One call: its outcome, how many attempts it made, the backoff sleeps, and whether it recorded a request. */
  datatype RetryRun = RetryRun(outcome: Result<SearchResponse, FetchError>, attemptsMade: nat, sleeps: seq<nat>, recorded: bool)

  /** The loop from attempt `i` on; `sleeps` so far are the waits already taken. */
  function RetryFrom(network: nat -> Attempt, maxRetries: int, i: nat, sleeps: seq<nat>): (r: RetryRun)
    requires i < maxRetries
    requires |sleeps| == i && forall k :: 0 <= k < i ==> sleeps[k] == RETRY_BASE_DELAY_MS * (k + 1)
    requires forall k :: 0 <= k < i ==> Retryable(network(k))
    ensures i < r.attemptsMade <= maxRetries
    ensures forall k :: 0 <= k < r.attemptsMade - 1 ==> Retryable(network(k))
    ensures |r.sleeps| == r.attemptsMade - 1
    ensures forall k :: 0 <= k < |r.sleeps| ==> r.sleeps[k] == RETRY_BASE_DELAY_MS * (k + 1)
    ensures r.recorded <==> r.outcome.Success?
    ensures r.outcome.Success? ==> network(r.attemptsMade - 1) == Delivered(Some(r.outcome.value))
    ensures r.outcome.Failure? && r.outcome.error.Critical? ==>
      IsCritical(network(r.attemptsMade - 1)) && network(r.attemptsMade - 1).status == r.outcome.error.status
    ensures r.outcome.Failure? && r.outcome.error.Exhausted? ==>
      r.attemptsMade == maxRetries && Retryable(network(maxRetries - 1)) &&
      r.outcome.error.last == network(maxRetries - 1)
    ensures r.outcome.Failure? ==> !r.outcome.error.NoAttempts?
    decreases maxRetries - i
  {
    var a := network(i);
    if Succeeds(a) then RetryRun(Success(a.body.value), i + 1, sleeps, true)
    else if IsCritical(a) then RetryRun(Failure(Critical(a.status)), i + 1, sleeps, false)
    else if i == maxRetries - 1 then RetryRun(Failure(Exhausted(a)), i + 1, sleeps, false)
    else RetryFrom(network, maxRetries, i + 1, sleeps + [RETRY_BASE_DELAY_MS * (i + 1)])
  }

  /** `fetchWithRetry(url, maxRetries)`. */
  function FetchWithRetry(network: nat -> Attempt, maxRetries: int): (r: RetryRun)
    ensures maxRetries < 1 ==> r == RetryRun(Failure(NoAttempts), 0, [], false)
    ensures maxRetries >= 1 ==> 1 <= r.attemptsMade <= maxRetries
  {
    if maxRetries < 1 then RetryRun(Failure(NoAttempts), 0, [], false)
    else RetryFrom(network, maxRetries, 0, [])
  }

  /**
   * The outcome is decided by the first attempt that either succeeds or hits a
   * critical status; only if no such attempt occurs within `maxRetries` is the
   * last error rethrown. Every earlier attempt was a retryable failure, each
   * followed by a sleep of RETRY_BASE_DELAY_MS times its one-based index, and a
   * request is recorded with the limiter exactly when the call succeeds.
   */
  lemma {:induction false} FetchWithRetryDecided(network: nat -> Attempt, maxRetries: int, k: nat)
    requires k < maxRetries && !Retryable(network(k))
    requires forall j :: 0 <= j < k ==> Retryable(network(j))
    ensures var r := FetchWithRetry(network, maxRetries);
      && r.attemptsMade == k + 1
      && |r.sleeps| == k
      && (Succeeds(network(k)) ==> r.outcome == Success(network(k).body.value) && r.recorded)
      && (IsCritical(network(k)) ==> r.outcome == Failure(Critical(network(k).status)) && !r.recorded)
  {
    RetryFromDecided(network, maxRetries, 0, [], k);
  }

  lemma {:induction false} RetryFromDecided(network: nat -> Attempt, maxRetries: int, i: nat, sleeps: seq<nat>, k: nat)
    requires i <= k < maxRetries && !Retryable(network(k))
    requires |sleeps| == i && forall j :: 0 <= j < i ==> sleeps[j] == RETRY_BASE_DELAY_MS * (j + 1)
    requires forall j :: 0 <= j < k ==> Retryable(network(j))
    ensures var r := RetryFrom(network, maxRetries, i, sleeps);
      && r.attemptsMade == k + 1
      && |r.sleeps| == k
      && (Succeeds(network(k)) ==> r.outcome == Success(network(k).body.value) && r.recorded)
      && (IsCritical(network(k)) ==> r.outcome == Failure(Critical(network(k).status)) && !r.recorded)
    decreases k - i
  {
    if i < k {
      RetryFromDecided(network, maxRetries, i + 1, sleeps + [RETRY_BASE_DELAY_MS * (i + 1)], k);
    }
  }

  /** When every attempt within the budget fails retryably, exactly `maxRetries` attempts are made and the last error is rethrown. */
  lemma ExhaustsBudget(network: nat -> Attempt, maxRetries: int)
    requires maxRetries >= 1
    requires forall j :: 0 <= j < maxRetries ==> Retryable(network(j))
    ensures var r := FetchWithRetry(network, maxRetries);
      r.attemptsMade == maxRetries && r.outcome == Failure(Exhausted(network(maxRetries - 1))) &&
      r.sleeps == seq(maxRetries - 1, k => RETRY_BASE_DELAY_MS * (k + 1)) && !r.recorded
  {
    var r := FetchWithRetry(network, maxRetries);
    assert !Succeeds(network(r.attemptsMade - 1)) && !IsCritical(network(r.attemptsMade - 1));
  }

  /** With the default budget of three attempts the backoff sleeps are 2000 ms then 4000 ms. */
  lemma DefaultBackoff(network: nat -> Attempt)
    requires forall j :: 0 <= j < MAX_RETRIES ==> Retryable(network(j))
    ensures FetchWithRetry(network, MAX_RETRIES).sleeps == [2000, 4000]
  {
    ExhaustsBudget(network, MAX_RETRIES);
  }
}

=== FILE: ip_rate_limit.dfy ===
/**
 * `RateLimitMiddleware`: a fixed one-minute window per client key, at most
 * 100 requests per window. `now` is the request's `Date.now()` in ms.
 */
module IpRateLimit {
  import opened Wrappers

  const MAX_ATTEMPTS: int := 100
  const WINDOW_MS: int := 60000
  const UNKNOWN_CLIENT: string := "unknown"

  datatype Record = Record(count: int, resetAt: int, firstAttempt: int)

  type Records = map<string, Record>

  /** Whether the request reaches `next()` or is answered with status 429. */
  datatype Verdict = Pass | TooMany(retryAfter: int)

  /** `req.ip || req.socket.remoteAddress || 'unknown'`: an empty string is falsy and falls through. */
  function ClientKey(ip: Option<string>, remoteAddress: Option<string>): (r: string)
    ensures ip.Some? && ip.value != "" ==> r == ip.value
    ensures (ip.None? || ip.value == "") && remoteAddress.Some? && remoteAddress.value != "" ==> r == remoteAddress.value
    ensures (ip.None? || ip.value == "") && (remoteAddress.None? || remoteAddress.value == "") ==> r == UNKNOWN_CLIENT
    ensures r != ""
  {
    if ip.Some? && ip.value != "" then ip.value
    else if remoteAddress.Some? && remoteAddress.value != "" then remoteAddress.value
    else UNKNOWN_CLIENT
  }

  /** `Math.ceil(n / d)` for a positive divisor; Dafny's `/` floors. */
  function CeilDiv(n: int, d: int): (r: int)
    requires d > 0
    ensures (r - 1) * d < n <= r * d
  {
    -((-n) / d)
  }

  /** `createNewRecord`. */
  function NewRecord(now: int): (r: Record)
    ensures r.count == 1 && r.resetAt - r.firstAttempt == WINDOW_MS && r.firstAttempt == now
  {
    Record(1, now + WINDOW_MS, now)
  }

  predicate Expired(rec: Record, now: int) {
    now > rec.resetAt
  }

  /** `use(req, res, next)` for the request's key. */
  function Use(records: Records, key: string, now: int): (r: (Verdict, Records))
    ensures key in r.1
    ensures forall k :: k != key ==> (k in r.1 <==> k in records) && (k in records ==> r.1[k] == records[k])
    ensures key !in records || Expired(records[key], now) ==> r == (Pass, records[key := NewRecord(now)])
    ensures r.0.TooMany? <==> key in records && !Expired(records[key], now) && records[key].count >= MAX_ATTEMPTS
    ensures r.0.TooMany? ==> r.1 == records
    ensures r.0.TooMany? ==> (r.0.retryAfter - 1) * 1000 < records[key].resetAt - now <= r.0.retryAfter * 1000
    ensures r.0.Pass? && key in records && !Expired(records[key], now) ==>
      r.1[key] == records[key].(count := records[key].count + 1)
  {
    if key in records then
      var rec := records[key];
      if Expired(rec, now) then (Pass, records[key := NewRecord(now)])
      else if rec.count >= MAX_ATTEMPTS then (TooMany(CeilDiv(rec.resetAt - now, 1000)), records)
      else (Pass, records[key := rec.(count := rec.count + 1)])
    else (Pass, records[key := NewRecord(now)])
  }

  /** `clearOldRecords`. */
  function ClearOldRecords(records: Records, now: int): (r: Records)
    ensures forall k :: k in r <==> k in records && !Expired(records[k], now)
    ensures forall k :: k in r ==> r[k] == records[k]
  {
    map k | k in records && !Expired(records[k], now) :: records[k]
  }

  /** Every stored record: a count in 1..100 and a window of exactly one minute. */
  predicate Invariant(records: Records) {
    forall k :: k in records ==>
      1 <= records[k].count <= MAX_ATTEMPTS && records[k].resetAt == records[k].firstAttempt + WINDOW_MS
  }

  lemma UseKeepsInvariant(records: Records, key: string, now: int)
    requires Invariant(records)
    ensures Invariant(Use(records, key, now).1)
  {
  }

  lemma ClearKeepsInvariant(records: Records, now: int)
    requires Invariant(records)
    ensures Invariant(ClearOldRecords(records, now))
  {
  }

  /** With a clock that has not gone back past the window's start, the advertised wait is between 0 and 60 seconds. */
  lemma RetryAfterBounded(records: Records, key: string, now: int)
    requires Invariant(records) && key in records && now >= records[key].firstAttempt
    requires Use(records, key, now).0.TooMany?
    ensures 0 <= Use(records, key, now).0.retryAfter <= WINDOW_MS / 1000
  {
  }

  /** Dropping expired records is invisible to any later request. */
  lemma ClearingIsInvisible(records: Records, cleared: int, key: string, now: int)
    requires now >= cleared
    ensures Use(ClearOldRecords(records, cleared), key, now).0 == Use(records, key, now).0
    ensures Use(ClearOldRecords(records, cleared), key, now).1[key] == Use(records, key, now).1[key]
  {
  }

  /** A run of requests from one key: how many pass, and the records afterwards. */
  function Replay(records: Records, key: string, times: seq<int>): (r: (nat, Records))
    ensures r.0 <= |times|
    ensures forall k :: k != key ==> (k in r.1 <==> k in records) && (k in records ==> r.1[k] == records[k])
    decreases |times|
  {
    if |times| == 0 then (0, records)
    else
      var prior := Replay(records, key, times[..|times| - 1]);
      var (verdict, next) := Use(prior.1, key, times[|times| - 1]);
      (prior.0 + if verdict.Pass? then 1 else 0, next)
  }

  /** Within one unexpired window a key passes at most the attempts it has left. */
  lemma {:induction false} WindowCapsPasses(records: Records, key: string, times: seq<int>)
    requires Invariant(records) && key in records
    requires forall i :: 0 <= i < |times| ==> times[i] <= records[key].resetAt
    ensures key in Replay(records, key, times).1
    ensures Replay(records, key, times).1[key].resetAt == records[key].resetAt
    ensures Replay(records, key, times).1[key].count == records[key].count + Replay(records, key, times).0
    ensures Replay(records, key, times).0 <= MAX_ATTEMPTS - records[key].count
    decreases |times|
  {
    if |times| > 0 {
      WindowCapsPasses(records, key, times[..|times| - 1]);
    }
  }

  /** Hence a key without a record passes at most 100 requests in the minute starting at its first one. */
  lemma AtMostMaxPerWindow(records: Records, key: string, first: int, later: seq<int>)
    requires Invariant(records) && key !in records
    requires forall i :: 0 <= i < |later| ==> later[i] <= first + WINDOW_MS
    ensures Replay(records, key, [first] + later).0 <= MAX_ATTEMPTS
  {
    var start := records[key := NewRecord(first)];
    WindowCapsPasses(start, key, later);
    ReplayCons(records, key, first, later);
  }

  /** Replaying after a first request equals replaying the rest from its outcome. */
  lemma {:induction false} ReplayCons(records: Records, key: string, first: int, later: seq<int>)
    ensures Replay(records, key, [first] + later).0
      == (if Use(records, key, first).0.Pass? then 1 else 0) + Replay(Use(records, key, first).1, key, later).0
    ensures Replay(records, key, [first] + later).1 == Replay(Use(records, key, first).1, key, later).1
    decreases |later|
  {
    if |later| > 0 {
      assert ([first] + later)[..|later|] == [first] + later[..|later| - 1];
      ReplayCons(records, key, first, later[..|later| - 1]);
    } else {
      assert ([first] + later)[..0] == [];
    }
  }

  /** The 101st request in a window is refused with the time left, rounded up to whole seconds. */
  lemma HundredAndFirstRefused()
    ensures var rec := Record(100, 60000, 0);
      Use(map["10.0.0.1" := rec], "10.0.0.1", 1500) == (TooMany(59), map["10.0.0.1" := rec])
  {
  }
}

=== FILE: js_text.dfy ===
/**
 * The few JavaScript string primitives the modelled code relies on:
 * `String.prototype.trim`, line terminators as seen by the regular-expression
 * `.`, ASCII case folding and prefix/substring tests.
 */
module JsText {

  /** WhiteSpace and LineTerminator code points removed by `String.prototype.trim`. */
  predicate IsJsSpace(c: char) {
    var n := c as int;
    || n == 0x09 || n == 0x0B || n == 0x0C || n == 0x20 || n == 0xA0 || n == 0xFEFF
    || n == 0x1680 || (0x2000 <= n <= 0x200A) || n == 0x202F || n == 0x205F || n == 0x3000
    || IsLineTerminator(c)
  }

  /** The characters a regular-expression `.` does not match. */
  predicate IsLineTerminator(c: char) {
    var n := c as int;
    n == 0x0A || n == 0x0D || n == 0x2028 || n == 0x2029
  }

  /** True when `trim()` would leave nothing: every character is white space. */
  predicate IsBlank(s: string) {
    forall i :: 0 <= i < |s| ==> IsJsSpace(s[i])
  }

  function TrimStart(s: string): (r: string)
    ensures |r| <= |s| && r == s[|s| - |r|..]
    ensures |r| > 0 ==> !IsJsSpace(r[0])
    ensures forall i :: 0 <= i < |s| - |r| ==> IsJsSpace(s[i])
  {
    if |s| > 0 && IsJsSpace(s[0]) then TrimStart(s[1..]) else s
  }

  function TrimEnd(s: string): (r: string)
    ensures |r| <= |s| && r == s[..|r|]
    ensures |r| > 0 ==> !IsJsSpace(r[|r| - 1])
    ensures forall i :: |r| <= i < |s| ==> IsJsSpace(s[i])
  {
    if |s| > 0 && IsJsSpace(s[|s| - 1]) then TrimEnd(s[..|s| - 1]) else s
  }

  /** `s.trim()`: the longest infix of `s` that neither starts nor ends with white space. */
  function Trim(s: string): (r: string)
    ensures |r| == 0 || (!IsJsSpace(r[0]) && !IsJsSpace(r[|r| - 1]))
  {
    TrimEnd(TrimStart(s))
  }

  /** `trim()` yields the empty string exactly when the text is blank. */
  lemma TrimEmptyIffBlank(s: string)
    ensures Trim(s) == "" <==> IsBlank(s)
  {
    var t := TrimStart(s);
    if Trim(s) == "" {
      assert t == "";
    } else {
      var k :| 0 <= k < |Trim(s)|;
      assert Trim(s)[0] == t[0] == s[|s| - |t|];
    }
  }

  /** The ASCII upper-case form of `c`; every other character is its own form. */
  function AsciiUpper(c: char): (r: char)
    ensures ('a' <= c <= 'z') ==> r as int == c as int - 32
    ensures !('a' <= c <= 'z') ==> r == c
  {
    if 'a' <= c <= 'z' then (c as int - 32) as char else c
  }

  /** Characters equal after ASCII case folding. */
  predicate FoldEq(a: char, b: char) {
    AsciiUpper(a) == AsciiUpper(b)
  }

  /** `s` starts with `p`, ignoring ASCII case. */
  predicate StartsWithFold(s: string, p: string) {
    |p| <= |s| && forall i :: 0 <= i < |p| ==> FoldEq(s[i], p[i])
  }

  /** `p` occurs in `s` at some position, ignoring ASCII case. */
  predicate ContainsFold(s: string, p: string) {
    exists k :: 0 <= k <= |s| - |p| && StartsWithFold(s[k..], p)
  }

  /** `p` is a prefix of `s` (case sensitive, as `String.prototype.startsWith`). */
  predicate StartsWith(s: string, p: string) {
    |p| <= |s| && s[..|p|] == p
  }

  /** `s.includes(p)` (case sensitive). */
  predicate Contains(s: string, p: string) {
    exists k :: 0 <= k <= |s| - |p| && StartsWith(s[k..], p)
  }

  /** A code point outside the Basic Multilingual Plane takes a surrogate pair in UTF-16. */
  predicate IsAstral(c: char) {
    c as int > 0xFFFF
  }

  /** `String.prototype.length`: the number of UTF-16 code units, two for an astral code point. */
  function Utf16Length(s: string): (n: nat)
    ensures |s| <= n <= 2 * |s|
    decreases |s|
  {
    if |s| == 0 then 0 else Utf16Length(s[..|s| - 1]) + (if IsAstral(s[|s| - 1]) then 2 else 1)
  }

  /** The UTF-16 length adds one unit per character and one more per astral character. */
  lemma {:induction false} Utf16LengthCounts(s: string)
    ensures Utf16Length(s) == |s| + |set i | 0 <= i < |s| && IsAstral(s[i])|
    decreases |s|
  {
    if |s| > 0 {
      var n := |s| - 1;
      Utf16LengthCounts(s[..n]);
      var before := set i | 0 <= i < n && IsAstral(s[..n][i]);
      var now := set i | 0 <= i < |s| && IsAstral(s[i]);
      if IsAstral(s[n]) {
        assert now == before + {n};
      } else {
        assert now == before;
      }
    }
  }

  /** The UTF-16 length is the character count exactly when no character is astral. */
  lemma {:induction false} Utf16LengthIsCountIffBmp(s: string)
    ensures Utf16Length(s) == |s| <==> forall i :: 0 <= i < |s| ==> !IsAstral(s[i])
    decreases |s|
  {
    if |s| > 0 {
      var n := |s| - 1;
      Utf16LengthIsCountIffBmp(s[..n]);
      assert forall i :: 0 <= i < n ==> s[..n][i] == s[i];
    }
  }

  lemma AstralLengthExamples()
    ensures Utf16Length("\U{1F600}") == 2 && |"\U{1F600}"| == 1
    ensures Utf16Length("ab") == 2
  {
    assert "\U{1F600}"[..0] == [];
  }

  predicate IsDigit(c: char) {
    '0' <= c <= '9'
  }

  function DigitValue(c: char): (d: nat)
    requires IsDigit(c)
    ensures d < 10
  {
    c as int - '0' as int
  }
}

=== FILE: page_traversal.dfy ===
/**
 * `fetchAssetsBatchInternal`: the offset-stepping page loop with its
 * consecutive-error counter, batch buffer, batch numbering and final flush.
 *
 * The page source maps an offset to what `fetchWithRetry` produced for that
 * offset; `cbThrows(n)` says whether the `onBatch` callback throws when handed
 * batch number `n` (batch numbers are never reused within one traversal).
 */
module PageTraversal {
  import opened Wrappers
  import opened SteamConfig
  import opened AssetMapper
  import FetchRetry

  type PageResult = Result<FetchRetry.SearchResponse, FetchRetry.FetchError>
  type PageSource = int -> PageResult

  /** One invocation of `onBatch`: the assets handed over, the batch number, and whether it threw. */
  datatype BatchCall = BatchCall(assets: seq<Asset>, number: nat, threw: bool)

  /**
   * The loop's local variables. `fetched` holds every asset pushed so far (its
   * length is `processedCount`); `calls` and `requested` record the callback
   * invocations and the requested offsets, in order.
   */
  datatype Traversal = Traversal(
    offset: int,
    totalCount: Option<int>,
    consecutiveErrors: nat,
    buffer: seq<Asset>,
    fetched: seq<Asset>,
    batchNumber: nat,
    calls: seq<BatchCall>,
    requested: seq<int>,
    running: bool)

  function Init(start: int): (r: Traversal)
    ensures r.running && r.offset == start && r.requested == [] && r.calls == [] && r.fetched == []
  {
    Traversal(start, None, 0, [], [], 0, [], [], true)
  }

  /** The response was delivered and reported success. */
  predicate Accepted(p: PageResult) {
    p.Success? && p.value.success
  }

  /** The items of an accepted response (`response.results || []`). */
  function Items(p: PageResult): seq<RawItem>
    requires Accepted(p)
  {
    if p.value.results.Some? then p.value.results.value else []
  }

  /** Reference: what one requested page contributes to the traversal's output. */
  function PageAssets(p: PageResult): seq<Asset> {
    if p.Success? && p.value.success && p.value.results.Some? then MapAndFilterItems(ICON_BASE_URL, p.value.results.value) else []
  }

  /** Reference: the mapped and filtered assets of every accepted page among the requested offsets, in request order. */
  function Harvest(source: PageSource, requested: seq<int>): seq<Asset> {
    if |requested| == 0 then [] else Harvest(source, requested[..|requested| - 1]) + PageAssets(source(requested[|requested| - 1]))
  }

  /** Reference: the `total_count` of the first accepted page among the requested offsets. */
  function FirstTotal(source: PageSource, requested: seq<int>): Option<int> {
    if |requested| == 0 then None
    else
      var earlier := FirstTotal(source, requested[..|requested| - 1]);
      var p := source(requested[|requested| - 1]);
      if earlier.Some? then earlier else if Accepted(p) then Some(p.value.totalCount) else None
  }

  /** The assets handed to callbacks that did not throw, in call order. */
  function Delivered(calls: seq<BatchCall>): seq<Asset> {
    if |calls| == 0 then [] else Delivered(calls[..|calls| - 1]) + (var c := calls[|calls| - 1]; if c.threw then [] else c.assets)
  }

  /** The `catch` branch: count the error; stop at the limit, else skip to the next offset. */
  function CountError(t: Traversal): (r: Traversal)
    requires t.running
    ensures r.consecutiveErrors == t.consecutiveErrors + 1
    ensures r.running <==> r.consecutiveErrors < MAX_CONSECUTIVE_ERRORS
    ensures r.running ==> r.offset == t.offset + PAGE_SIZE
    ensures r == t.(consecutiveErrors := r.consecutiveErrors, running := r.running, offset := r.offset)
  {
    var e := t.consecutiveErrors + 1;
    if e >= MAX_CONSECUTIVE_ERRORS then t.(consecutiveErrors := e, running := false)
    else t.(consecutiveErrors := e, offset := t.offset + PAGE_SIZE)
  }

  /** The end of a successful iteration: reset the error counter; stop once `processedCount >= totalCount`. */
  function PageDone(t: Traversal, total: int): (r: Traversal)
    requires t.running
    ensures r.consecutiveErrors == 0
    ensures r.running <==> |t.fetched| < total
    ensures r.running ==> r.offset == t.offset + PAGE_SIZE
    ensures r == t.(consecutiveErrors := 0, running := r.running, offset := r.offset)
  {
    if |t.fetched| >= total then t.(consecutiveErrors := 0, running := false)
    else t.(consecutiveErrors := 0, offset := t.offset + PAGE_SIZE)
  }

  /** Whether the buffer, once it holds this page's assets, is emitted to a callback that throws. */
  predicate EmitThrows(buffer: seq<Asset>, batchNumber: nat, batchSize: int, cbThrows: nat -> bool) {
    |buffer| >= batchSize && cbThrows(batchNumber + 1)
  }

  /**
   * The rest of a non-empty page's iteration, once its assets are in the
   * buffer: emit the buffer when it holds at least `batchSize` assets (clearing
   * it only if the callback returns), then finish the iteration.
   */
  function Absorb(t: Traversal, total: int, batchSize: int, cbThrows: nat -> bool): (r: Traversal)
    requires t.running
    ensures r.fetched == t.fetched && r.requested == t.requested && r.totalCount == t.totalCount
    ensures r.running ==> r.offset == t.offset + PAGE_SIZE
    ensures |t.buffer| < batchSize ==> r.calls == t.calls && r.buffer == t.buffer && r.batchNumber == t.batchNumber
    ensures |t.buffer| >= batchSize ==>
      && r.calls == t.calls + [BatchCall(t.buffer, t.batchNumber + 1, cbThrows(t.batchNumber + 1))]
      && r.batchNumber == t.batchNumber + 1
      && r.buffer == (if cbThrows(t.batchNumber + 1) then t.buffer else [])
    ensures EmitThrows(t.buffer, t.batchNumber, batchSize, cbThrows) ==>
      r.consecutiveErrors == t.consecutiveErrors + 1 && (r.running <==> r.consecutiveErrors < MAX_CONSECUTIVE_ERRORS)
    ensures !EmitThrows(t.buffer, t.batchNumber, batchSize, cbThrows) ==>
      r.consecutiveErrors == 0 && (r.running <==> |r.fetched| < total)
  {
    if |t.buffer| >= batchSize then
      var n := t.batchNumber + 1;
      if cbThrows(n) then CountError(t.(batchNumber := n, calls := t.calls + [BatchCall(t.buffer, n, true)]))
      else PageDone(t.(batchNumber := n, calls := t.calls + [BatchCall(t.buffer, n, false)], buffer := []), total)
    else PageDone(t, total)
  }

  /** One iteration of the `while (true)` loop, requesting the page at `s.offset`. */
  function Step(s: Traversal, batchSize: int, source: PageSource, cbThrows: nat -> bool): (r: Traversal)
    requires s.running
    ensures r.requested == s.requested + [s.offset]
    ensures r.fetched == s.fetched + PageAssets(source(s.offset))
    ensures r.totalCount == if s.totalCount.Some? || !Accepted(source(s.offset)) then s.totalCount else Some(source(s.offset).value.totalCount)
    ensures r.running ==> r.offset == s.offset + PAGE_SIZE
  {
    var t := s.(requested := s.requested + [s.offset]);
    var p := source(s.offset);
    if !Accepted(p) then CountError(t)
    else
      var total := if s.totalCount.Some? then s.totalCount.value else p.value.totalCount;
      var t := t.(totalCount := Some(total));
      if |Items(p)| == 0 then t.(running := false)
      else
        var assets := MapAndFilterItems(ICON_BASE_URL, Items(p));
        Absorb(t.(buffer := t.buffer + assets, fetched := t.fetched + assets), total, batchSize, cbThrows)
  }

  /** A failed fetch or a success=false response is caught and counted; it never aborts the loop by itself. */
  lemma StepOnError(s: Traversal, batchSize: int, source: PageSource, cbThrows: nat -> bool)
    requires s.running && !Accepted(source(s.offset))
    ensures var r := Step(s, batchSize, source, cbThrows);
      && r.consecutiveErrors == s.consecutiveErrors + 1
      && (r.running <==> r.consecutiveErrors < MAX_CONSECUTIVE_ERRORS)
      && r.calls == s.calls && r.buffer == s.buffer
  {
  }

  /** An accepted page with no results ends the loop without touching the error counter or the batches. */
  lemma StepOnEmptyPage(s: Traversal, batchSize: int, source: PageSource, cbThrows: nat -> bool)
    requires s.running && Accepted(source(s.offset)) && |Items(source(s.offset))| == 0
    ensures var r := Step(s, batchSize, source, cbThrows);
      !r.running && r.consecutiveErrors == s.consecutiveErrors && r.calls == s.calls && r.buffer == s.buffer
  {
  }

  /**
   * A non-empty accepted page: if its batch is emitted and the callback throws,
   * the error is counted like a failed fetch; otherwise the counter is reset
   * and the loop stops exactly when processedCount reaches totalCount.
   */
  lemma StepOnPage(s: Traversal, batchSize: int, source: PageSource, cbThrows: nat -> bool)
    requires s.running && Accepted(source(s.offset)) && |Items(source(s.offset))| > 0
    ensures var r := Step(s, batchSize, source, cbThrows);
      var thrown := EmitThrows(s.buffer + PageAssets(source(s.offset)), s.batchNumber, batchSize, cbThrows);
      && (thrown ==> r.consecutiveErrors == s.consecutiveErrors + 1 && (r.running <==> r.consecutiveErrors < MAX_CONSECUTIVE_ERRORS))
      && (!thrown ==> r.consecutiveErrors == 0 && r.totalCount.Some? && (r.running <==> |r.fetched| < r.totalCount.value))
  {
  }

  /** The invariant on requested offsets and the error counter. */
  predicate RequestsWf(s: Traversal, start: int) {
    && (forall k :: 0 <= k < |s.requested| ==> s.requested[k] == start + PAGE_SIZE * k)
    && (s.running ==> s.offset == start + PAGE_SIZE * |s.requested|)
    && (s.running ==> s.consecutiveErrors < MAX_CONSECUTIVE_ERRORS)
  }

  /** The invariant relating what was fetched to the page source. */
  predicate OutputWf(s: Traversal, source: PageSource) {
    && s.fetched == Harvest(source, s.requested)
    && s.totalCount == FirstTotal(source, s.requested)
  }

  /** Batch k (from 0) carries number k + 1, and threw exactly when the callback throws for that number. */
  predicate Numbered(calls: seq<BatchCall>, cbThrows: nat -> bool) {
    forall k :: 0 <= k < |calls| ==> calls[k].number == k + 1 && calls[k].threw == cbThrows(k + 1)
  }

  predicate Sized(calls: seq<BatchCall>, batchSize: int) {
    forall k :: 0 <= k < |calls| ==> |calls[k].assets| >= batchSize
  }

  /** A batch whose callback threw is a prefix of the batch after it. */
  predicate Resends(calls: seq<BatchCall>) {
    forall k :: 0 <= k < |calls| - 1 && calls[k].threw ==> calls[k].assets <= calls[k + 1].assets
  }

  /** If the latest batch's callback threw, its assets are still at the front of `pending`. */
  predicate LastKept(calls: seq<BatchCall>, pending: seq<Asset>) {
    |calls| > 0 && calls[|calls| - 1].threw ==> calls[|calls| - 1].assets <= pending
  }

  /** The invariant on the callback invocations and the buffer, over the fields it concerns. */
  predicate CallsOk(calls: seq<BatchCall>, buffer: seq<Asset>, fetched: seq<Asset>, batchSize: int, cbThrows: nat -> bool) {
    && Numbered(calls, cbThrows)
    && Sized(calls, batchSize)
    && Delivered(calls) + buffer == fetched
    && Resends(calls)
    && LastKept(calls, buffer)
  }

  predicate CallsWf(s: Traversal, batchSize: int, cbThrows: nat -> bool) {
    s.batchNumber == |s.calls| && CallsOk(s.calls, s.buffer, s.fetched, batchSize, cbThrows)
  }

  /** Emitting the buffer (extended by a page's assets) as the next batch keeps the invariant. */
  lemma EmitKeepsCallsOk(calls: seq<BatchCall>, buffer: seq<Asset>, fetched: seq<Asset>, assets: seq<Asset>, batchSize: int, cbThrows: nat -> bool)
    requires CallsOk(calls, buffer, fetched, batchSize, cbThrows)
    requires |buffer + assets| >= batchSize
    ensures var n := |calls| + 1;
      CallsOk(calls + [BatchCall(buffer + assets, n, cbThrows(n))], if cbThrows(n) then buffer + assets else [], fetched + assets, batchSize, cbThrows)
  {
    var n := |calls| + 1;
    var c := BatchCall(buffer + assets, n, cbThrows(n));
    if |calls| > 0 && calls[|calls| - 1].threw {
      PrefixExtends(calls[|calls| - 1].assets, buffer, assets);
    }
    DeliveredSnoc(calls, c);
    NumberedSnoc(calls, cbThrows, c);
    SizedSnoc(calls, batchSize, c);
    ResendsSnoc(calls, c);
  }

  lemma NumberedSnoc(calls: seq<BatchCall>, cbThrows: nat -> bool, c: BatchCall)
    requires Numbered(calls, cbThrows) && c.number == |calls| + 1 && c.threw == cbThrows(c.number)
    ensures Numbered(calls + [c], cbThrows)
  {
  }

  lemma SizedSnoc(calls: seq<BatchCall>, batchSize: int, c: BatchCall)
    requires Sized(calls, batchSize) && |c.assets| >= batchSize
    ensures Sized(calls + [c], batchSize)
  {
  }

  lemma ResendsSnoc(calls: seq<BatchCall>, c: BatchCall)
    requires Resends(calls) && LastKept(calls, c.assets)
    ensures Resends(calls + [c])
  {
    var cs := calls + [c];
    forall k | 0 <= k < |cs| - 1 && cs[k].threw
      ensures cs[k].assets <= cs[k + 1].assets
    {
      if k < |calls| - 1 {
        assert cs[k] == calls[k] && cs[k + 1] == calls[k + 1];
      } else {
        assert cs[k] == calls[|calls| - 1] && cs[k + 1] == c;
      }
    }
  }

  /** The invariant of the page loop started at offset `start`. */
  predicate Wf(s: Traversal, start: int, batchSize: int, source: PageSource, cbThrows: nat -> bool) {
    RequestsWf(s, start) && OutputWf(s, source) && CallsWf(s, batchSize, cbThrows)
  }

  lemma InitWf(start: int, batchSize: int, source: PageSource, cbThrows: nat -> bool)
    ensures Wf(Init(start), start, batchSize, source, cbThrows)
  {
  }

  lemma EmptyPageAssets(p: PageResult)
    requires Accepted(p) && |Items(p)| == 0
    ensures PageAssets(p) == []
  {
    if p.value.results.Some? {
      MapAndFilterCharacterised(ICON_BASE_URL, p.value.results.value);
    }
  }

  lemma PrefixExtends(a: seq<Asset>, b: seq<Asset>, c: seq<Asset>)
    requires a <= b
    ensures a <= b + c
  {
    assert (b + c)[..|b|] == b;
  }

  lemma StepRequestsWf(s: Traversal, start: int, batchSize: int, source: PageSource, cbThrows: nat -> bool)
    requires RequestsWf(s, start) && s.running
    ensures RequestsWf(Step(s, batchSize, source, cbThrows), start)
  {
    var p := source(s.offset);
    if !Accepted(p) {
      StepOnError(s, batchSize, source, cbThrows);
    } else if |Items(p)| > 0 {
      StepOnPage(s, batchSize, source, cbThrows);
    }
  }

  lemma StepOutputWf(s: Traversal, batchSize: int, source: PageSource, cbThrows: nat -> bool)
    requires OutputWf(s, source) && s.running
    ensures OutputWf(Step(s, batchSize, source, cbThrows), source)
  {
    var r := Step(s, batchSize, source, cbThrows);
    assert r.requested[..|r.requested| - 1] == s.requested;
  }

  lemma AbsorbKeepsCallsWf(t: Traversal, assets: seq<Asset>, total: int, batchSize: int, cbThrows: nat -> bool)
    requires CallsWf(t, batchSize, cbThrows) && t.running
    requires |t.buffer + assets| < batchSize
    ensures CallsWf(Absorb(t.(buffer := t.buffer + assets, fetched := t.fetched + assets), total, batchSize, cbThrows), batchSize, cbThrows)
  {
  }

  lemma DeliveredSnoc(calls: seq<BatchCall>, c: BatchCall)
    ensures Delivered(calls + [c]) == Delivered(calls) + (if c.threw then [] else c.assets)
  {
    assert (calls + [c])[..|calls|] == calls;
  }

  lemma AbsorbEmitsCallsWf(t: Traversal, assets: seq<Asset>, total: int, batchSize: int, cbThrows: nat -> bool)
    requires CallsWf(t, batchSize, cbThrows) && t.running
    requires |t.buffer + assets| >= batchSize
    ensures CallsWf(Absorb(t.(buffer := t.buffer + assets, fetched := t.fetched + assets), total, batchSize, cbThrows), batchSize, cbThrows)
  {
    EmitKeepsCallsOk(t.calls, t.buffer, t.fetched, assets, batchSize, cbThrows);
  }

  /** Absorbing a page's assets keeps the callback invariant. */
  lemma AbsorbCallsWf(t: Traversal, assets: seq<Asset>, total: int, batchSize: int, cbThrows: nat -> bool)
    requires CallsWf(t, batchSize, cbThrows) && t.running
    ensures CallsWf(Absorb(t.(buffer := t.buffer + assets, fetched := t.fetched + assets), total, batchSize, cbThrows), batchSize, cbThrows)
  {
    if |t.buffer + assets| < batchSize {
      AbsorbKeepsCallsWf(t, assets, total, batchSize, cbThrows);
    } else {
      AbsorbEmitsCallsWf(t, assets, total, batchSize, cbThrows);
    }
  }

  lemma StepCallsWfOnError(s: Traversal, batchSize: int, source: PageSource, cbThrows: nat -> bool)
    requires CallsWf(s, batchSize, cbThrows) && s.running && !Accepted(source(s.offset))
    ensures CallsWf(Step(s, batchSize, source, cbThrows), batchSize, cbThrows)
  {
    assert Step(s, batchSize, source, cbThrows) == CountError(s.(requested := s.requested + [s.offset]));
  }

  lemma StepCallsWfOnEmptyPage(s: Traversal, batchSize: int, source: PageSource, cbThrows: nat -> bool)
    requires CallsWf(s, batchSize, cbThrows) && s.running && Accepted(source(s.offset)) && |Items(source(s.offset))| == 0
    ensures CallsWf(Step(s, batchSize, source, cbThrows), batchSize, cbThrows)
  {
    EmptyPageAssets(source(s.offset));
  }

  lemma StepCallsWfOnPage(s: Traversal, batchSize: int, source: PageSource, cbThrows: nat -> bool)
    requires CallsWf(s, batchSize, cbThrows) && s.running && Accepted(source(s.offset)) && |Items(source(s.offset))| > 0
    ensures CallsWf(Step(s, batchSize, source, cbThrows), batchSize, cbThrows)
  {
    var p := source(s.offset);
    var total := if s.totalCount.Some? then s.totalCount.value else p.value.totalCount;
    var t := s.(requested := s.requested + [s.offset], totalCount := Some(total));
    var assets := MapAndFilterItems(ICON_BASE_URL, Items(p));
    assert Step(s, batchSize, source, cbThrows) == Absorb(t.(buffer := t.buffer + assets, fetched := t.fetched + assets), total, batchSize, cbThrows);
    assert CallsWf(t, batchSize, cbThrows);
    AbsorbCallsWf(t, assets, total, batchSize, cbThrows);
  }

  lemma StepCallsWf(s: Traversal, batchSize: int, source: PageSource, cbThrows: nat -> bool)
    requires CallsWf(s, batchSize, cbThrows) && s.running
    ensures CallsWf(Step(s, batchSize, source, cbThrows), batchSize, cbThrows)
  {
    if !Accepted(source(s.offset)) {
      StepCallsWfOnError(s, batchSize, source, cbThrows);
    } else if |Items(source(s.offset))| == 0 {
      StepCallsWfOnEmptyPage(s, batchSize, source, cbThrows);
    } else {
      StepCallsWfOnPage(s, batchSize, source, cbThrows);
    }
  }

  /** Every iteration preserves the loop invariant. */
  lemma StepPreservesWf(s: Traversal, start: int, batchSize: int, source: PageSource, cbThrows: nat -> bool)
    requires Wf(s, start, batchSize, source, cbThrows) && s.running
    ensures Wf(Step(s, batchSize, source, cbThrows), start, batchSize, source, cbThrows)
  {
    StepRequestsWf(s, start, batchSize, source, cbThrows);
    StepOutputWf(s, batchSize, source, cbThrows);
    StepCallsWf(s, batchSize, source, cbThrows);
  }

  /** What a whole traversal did: its callback invocations, whether the final flush threw, and what it requested and fetched. */
  datatype BatchRun = BatchRun(calls: seq<BatchCall>, threw: bool, requested: seq<int>, fetched: seq<Asset>, totalCount: Option<int>)

  /** After the loop: a non-empty remainder is emitted once more; if that callback throws, the traversal throws. */
  function Finish(s: Traversal, cbThrows: nat -> bool): (r: BatchRun)
    ensures |s.buffer| > 0 ==> r.calls == s.calls + [BatchCall(s.buffer, s.batchNumber + 1, cbThrows(s.batchNumber + 1))] && r.threw == cbThrows(s.batchNumber + 1)
    ensures |s.buffer| == 0 ==> r.calls == s.calls && !r.threw
    ensures r.requested == s.requested && r.fetched == s.fetched && r.totalCount == s.totalCount
  {
    if |s.buffer| > 0 then
      var n := s.batchNumber + 1;
      BatchRun(s.calls + [BatchCall(s.buffer, n, cbThrows(n))], cbThrows(n), s.requested, s.fetched, s.totalCount)
    else BatchRun(s.calls, false, s.requested, s.fetched, s.totalCount)
  }

  /** The first offset requested: `startOffset`, defaulting to 0 when undefined. */
  function StartOf(startOffset: Option<int>): int {
    if startOffset.Some? then startOffset.value else 0
  }

  /**
   * What a completed traversal started at `start` guarantees: the k-th request
   * is at start + k·PAGE_SIZE; batches are numbered 1, 2, 3, …; every batch
   * but the last has at least `batchSize` assets and, for a positive batch
   * size, every batch is non-empty; the traversal throws exactly when its
   * final batch's callback throws; `totalCount` is the first accepted page's;
   * the assets handed to callbacks that returned normally, followed by the
   * final batch when the traversal threw, are exactly the mapped and filtered
   * assets of every accepted page, in page order; and a callback that threw is
   * handed the same assets again at the front of the next batch.
   */
  predicate Completed(run: BatchRun, start: int, batchSize: int, source: PageSource, cbThrows: nat -> bool) {
    && (forall k :: 0 <= k < |run.requested| ==> run.requested[k] == start + PAGE_SIZE * k)
    && Numbered(run.calls, cbThrows)
    && (forall k :: 0 <= k < |run.calls| - 1 ==> |run.calls[k].assets| >= batchSize)
    && (batchSize >= 1 ==> forall k :: 0 <= k < |run.calls| ==> |run.calls[k].assets| > 0)
    && (run.threw ==> |run.calls| > 0 && run.calls[|run.calls| - 1].threw)
    && (batchSize >= 1 && |run.calls| > 0 && run.calls[|run.calls| - 1].threw ==> run.threw)
    && Delivered(run.calls) + (if run.threw && |run.calls| > 0 then run.calls[|run.calls| - 1].assets else []) == Harvest(source, run.requested)
    && run.fetched == Harvest(source, run.requested)
    && run.totalCount == FirstTotal(source, run.requested)
    && Resends(run.calls)
  }

  /** The final flush, over the fields it concerns. */
  lemma FlushKeepsCallsOk(calls: seq<BatchCall>, buffer: seq<Asset>, fetched: seq<Asset>, batchSize: int, cbThrows: nat -> bool)
    requires CallsOk(calls, buffer, fetched, batchSize, cbThrows) && |buffer| > 0
    ensures var n := |calls| + 1;
      var cs := calls + [BatchCall(buffer, n, cbThrows(n))];
      && Numbered(cs, cbThrows)
      && Resends(cs)
      && (forall k :: 0 <= k < |cs| - 1 ==> |cs[k].assets| >= batchSize)
      && (batchSize >= 1 ==> forall k :: 0 <= k < |cs| ==> |cs[k].assets| > 0)
      && Delivered(cs) + (if cbThrows(n) then buffer else []) == fetched
  {
    var n := |calls| + 1;
    var c := BatchCall(buffer, n, cbThrows(n));
    DeliveredSnoc(calls, c);
    NumberedSnoc(calls, cbThrows, c);
    ResendsSnoc(calls, c);
  }

  lemma FinishFlushes(s: Traversal, start: int, batchSize: int, source: PageSource, cbThrows: nat -> bool)
    requires Wf(s, start, batchSize, source, cbThrows) && |s.buffer| > 0
    ensures Completed(Finish(s, cbThrows), start, batchSize, source, cbThrows)
  {
    FlushKeepsCallsOk(s.calls, s.buffer, s.fetched, batchSize, cbThrows);
  }

  lemma FinishEmpty(s: Traversal, start: int, batchSize: int, source: PageSource, cbThrows: nat -> bool)
    requires Wf(s, start, batchSize, source, cbThrows) && |s.buffer| == 0
    ensures Completed(Finish(s, cbThrows), start, batchSize, source, cbThrows)
  {
    assert Delivered(s.calls) + s.buffer == Delivered(s.calls);
  }

  /** The loop's invariant and the final flush together give a completed traversal. */
  lemma FinishCompleted(s: Traversal, start: int, batchSize: int, source: PageSource, cbThrows: nat -> bool)
    requires Wf(s, start, batchSize, source, cbThrows)
    ensures Completed(Finish(s, cbThrows), start, batchSize, source, cbThrows)
  {
    if |s.buffer| > 0 {
      FinishFlushes(s, start, batchSize, source, cbThrows);
    } else {
      FinishEmpty(s, start, batchSize, source, cbThrows);
    }
  }

  /**
   * The three ways an iteration ends the loop: the error limit is reached (a
   * failed fetch, a success=false response, or a throwing callback counted as
   * one more consecutive error), an accepted page has no results, or a page
   * whose callback (if any) returned brings processedCount to totalCount.
   */
  predicate StopRule(s: Traversal, batchSize: int, source: PageSource, cbThrows: nat -> bool) {
    var p := source(s.offset);
    if !Accepted(p) then s.consecutiveErrors + 1 >= MAX_CONSECUTIVE_ERRORS
    else if |Items(p)| == 0 then true
    else if EmitThrows(s.buffer + PageAssets(p), s.batchNumber, batchSize, cbThrows) then s.consecutiveErrors + 1 >= MAX_CONSECUTIVE_ERRORS
    else |s.fetched + PageAssets(p)| >= (if s.totalCount.Some? then s.totalCount.value else p.value.totalCount)
  }

  /** An iteration ends the loop exactly when one of the three stop rules applies. */
  lemma StepStopsIff(s: Traversal, batchSize: int, source: PageSource, cbThrows: nat -> bool)
    requires s.running
    ensures !Step(s, batchSize, source, cbThrows).running <==> StopRule(s, batchSize, source, cbThrows)
  {
    var p := source(s.offset);
    if !Accepted(p) {
      StepOnError(s, batchSize, source, cbThrows);
    } else if |Items(p)| == 0 {
      StepOnEmptyPage(s, batchSize, source, cbThrows);
    } else {
      StepOnPage(s, batchSize, source, cbThrows);
    }
  }

  /** One iteration as a total function of the loop state: a stopped loop stays as it is. */
  function Next(batchSize: int, source: PageSource, cbThrows: nat -> bool): Traversal -> Traversal {
    (s: Traversal) => if s.running then Step(s, batchSize, source, cbThrows) else s
  }

  /** The `while (true)` loop run from `s` for at most `fuel` iterations. */
  function Run(s: Traversal, next: Traversal -> Traversal, fuel: nat): Traversal
    decreases fuel
  {
    if !s.running || fuel == 0 then s else Run(next(s), next, fuel - 1)
  }

  /**
   * The loop carries on exactly until an iteration meets a stop rule: that
   * iteration is the last one, and any other is followed by the rest of the run.
   */
  lemma RunUnfold(s: Traversal, batchSize: int, source: PageSource, cbThrows: nat -> bool, fuel: nat)
    requires s.running && fuel > 0
    ensures var next := Next(batchSize, source, cbThrows);
      && (StopRule(s, batchSize, source, cbThrows) ==> Run(s, next, fuel) == Step(s, batchSize, source, cbThrows))
      && (!StopRule(s, batchSize, source, cbThrows) ==>
            Step(s, batchSize, source, cbThrows).running && Run(s, next, fuel) == Run(Step(s, batchSize, source, cbThrows), next, fuel - 1))
  {
    StepStopsIff(s, batchSize, source, cbThrows);
    var next := Next(batchSize, source, cbThrows);
    assert next(s) == Step(s, batchSize, source, cbThrows);
  }

  lemma {:induction false} RunPreservesWf(s: Traversal, start: int, batchSize: int, source: PageSource, cbThrows: nat -> bool, fuel: nat)
    requires Wf(s, start, batchSize, source, cbThrows)
    ensures Wf(Run(s, Next(batchSize, source, cbThrows), fuel), start, batchSize, source, cbThrows)
    decreases fuel
  {
    if s.running && fuel > 0 {
      var next := Next(batchSize, source, cbThrows);
      assert next(s) == Step(s, batchSize, source, cbThrows);
      StepPreservesWf(s, start, batchSize, source, cbThrows);
      RunPreservesWf(next(s), start, batchSize, source, cbThrows, fuel - 1);
    }
  }

  /** Every iteration of a running loop requests exactly one page. */
  ghost predicate RequestsOnePage(next: Traversal -> Traversal) {
    forall x: Traversal :: x.running ==> |next(x).requested| == |x.requested| + 1
  }

  lemma NextRequestsOnePage(batchSize: int, source: PageSource, cbThrows: nat -> bool)
    ensures RequestsOnePage(Next(batchSize, source, cbThrows))
  {
  }

  /** A stopped run made at least one request, and a run still going made exactly `fuel`. */
  lemma {:induction false} RunRequests(s: Traversal, next: Traversal -> Traversal, fuel: nat)
    requires RequestsOnePage(next)
    ensures var r := Run(s, next, fuel);
      && |s.requested| <= |r.requested| <= |s.requested| + fuel
      && (r.running ==> |r.requested| == |s.requested| + fuel)
      && (s.running && fuel > 0 ==> |r.requested| > |s.requested|)
    decreases fuel
  {
    if s.running && fuel > 0 {
      RunRequests(next(s), next, fuel - 1);
    }
  }

  /** Once the loop has stopped within `fuel` iterations, more fuel changes nothing. */
  lemma {:induction false} RunFuelMonotone(s: Traversal, next: Traversal -> Traversal, fuel: nat, more: nat)
    requires !Run(s, next, fuel).running && fuel <= more
    ensures Run(s, next, more) == Run(s, next, fuel)
    decreases fuel
  {
    if s.running && fuel > 0 {
      RunFuelMonotone(next(s), next, fuel - 1, more - 1);
    }
  }

  /**
   * The whole traversal from `startOffset`: the loop, then the final flush.
   * `None` when the loop was still running after `fuel` page requests.
   */
  function Traverse(batchSize: int, startOffset: Option<int>, source: PageSource, cbThrows: nat -> bool, fuel: nat): Option<BatchRun> {
    var t := Run(Init(StartOf(startOffset)), Next(batchSize, source, cbThrows), fuel);
    if t.running then None else Some(Finish(t, cbThrows))
  }

  /** A finished traversal requested at least one page and at most `fuel`, and is a completed traversal. */
  lemma TraverseCompleted(batchSize: int, startOffset: Option<int>, source: PageSource, cbThrows: nat -> bool, fuel: nat)
    ensures fuel == 0 ==> Traverse(batchSize, startOffset, source, cbThrows, fuel).None?
    ensures var r := Traverse(batchSize, startOffset, source, cbThrows, fuel);
      r.Some? ==> 1 <= |r.value.requested| <= fuel && Completed(r.value, StartOf(startOffset), batchSize, source, cbThrows)
  {
    var start := StartOf(startOffset);
    InitWf(start, batchSize, source, cbThrows);
    var t := Run(Init(start), Next(batchSize, source, cbThrows), fuel);
    RunPreservesWf(Init(start), start, batchSize, source, cbThrows, fuel);
    NextRequestsOnePage(batchSize, source, cbThrows);
    RunRequests(Init(start), Next(batchSize, source, cbThrows), fuel);
    if !t.running {
      FinishCompleted(t, start, batchSize, source, cbThrows);
    }
  }

  /** A traversal that finishes within `fuel` requests finishes identically with any larger budget. */
  lemma TraverseFuelMonotone(batchSize: int, startOffset: Option<int>, source: PageSource, cbThrows: nat -> bool, fuel: nat, more: nat)
    requires Traverse(batchSize, startOffset, source, cbThrows, fuel).Some? && fuel <= more
    ensures Traverse(batchSize, startOffset, source, cbThrows, more) == Traverse(batchSize, startOffset, source, cbThrows, fuel)
  {
    RunFuelMonotone(Init(StartOf(startOffset)), Next(batchSize, source, cbThrows), fuel, more);
  }

  /**
   * `fetchAssetsBatchInternal`. The source loop has no bound of its own (a
   * page whose items are all filtered out adds nothing to processedCount), so
   * the model stops after `fuel` page requests and answers `None` if the loop
   * was still running then.
   */
  method FetchAssetsBatch(batchSize: int, startOffset: Option<int>, source: PageSource, cbThrows: nat -> bool, fuel: nat)
    returns (r: Option<BatchRun>)
    ensures r == Traverse(batchSize, startOffset, source, cbThrows, fuel)
    ensures fuel == 0 ==> r.None?
    ensures r.Some? ==> 1 <= |r.value.requested| <= fuel && Completed(r.value, StartOf(startOffset), batchSize, source, cbThrows)
  {
    var s := Loop(Init(StartOf(startOffset)), Next(batchSize, source, cbThrows), fuel);
    TraverseCompleted(batchSize, startOffset, source, cbThrows, fuel);
    r := if s.running then None else Some(Finish(s, cbThrows));
  }

  /** A `while (running)` loop over traversal states, cut off after `fuel` iterations. */
  method Loop(s0: Traversal, next: Traversal -> Traversal, fuel: nat) returns (s: Traversal)
    ensures s == Run(s0, next, fuel)
  {
    s := s0;
    var i := 0;
    while s.running && i < fuel
      invariant i <= fuel
      invariant Run(s, next, fuel - i) == Run(s0, next, fuel)
    {
      s := next(s);
      i := i + 1;
    }
  }

  /** When no callback ever throws, the traversal does not throw and its batches concatenate to exactly the harvested assets. */
  lemma NoThrowDeliversAll(run: BatchRun, start: int, batchSize: int, source: PageSource, cbThrows: nat -> bool)
    requires forall n :: !cbThrows(n)
    requires Completed(run, start, batchSize, source, cbThrows)
    ensures !run.threw && Flatten(run.calls) == Harvest(source, run.requested)
  {
    DeliveredAllWhenNoneThrew(run.calls);
  }

  /** All the assets handed over, in call order. */
  function Flatten(calls: seq<BatchCall>): seq<Asset> {
    if |calls| == 0 then [] else Flatten(calls[..|calls| - 1]) + calls[|calls| - 1].assets
  }

  lemma {:induction false} DeliveredAllWhenNoneThrew(calls: seq<BatchCall>)
    requires forall k :: 0 <= k < |calls| ==> !calls[k].threw
    ensures Delivered(calls) == Flatten(calls)
  {
    if |calls| > 0 {
      DeliveredAllWhenNoneThrew(calls[..|calls| - 1]);
    }
  }

  /** A page source backed by `fetchWithRetry` with the default budget, one attempt sequence per offset. */
  function ViaRetry(network: int -> nat -> FetchRetry.Attempt): (source: PageSource)
    ensures forall o :: source(o) == FetchRetry.FetchWithRetry(network(o), MAX_RETRIES).outcome
  {
    o => FetchRetry.FetchWithRetry(network(o), MAX_RETRIES).outcome
  }

  /**
   * A critical HTTP status aborts only the retries for that page: the page loop
   * catches the error, counts it, and carries on at the next offset unless the
   * error limit is reached.
   */
  lemma CriticalStatusIsCaught(s: Traversal, batchSize: int, network: int -> nat -> FetchRetry.Attempt, cbThrows: nat -> bool)
    requires s.running && FetchRetry.IsCritical(network(s.offset)(0))
    ensures var r := Step(s, batchSize, ViaRetry(network), cbThrows);
      && r.consecutiveErrors == s.consecutiveErrors + 1
      && (r.running <==> s.consecutiveErrors + 1 < MAX_CONSECUTIVE_ERRORS)
      && (r.running ==> r.offset == s.offset + PAGE_SIZE)
  {
    FetchRetry.FetchWithRetryDecided(network(s.offset), MAX_RETRIES, 0);
  }
}

=== FILE: portfolio.dfy ===
/**
 * `PortfolioTransactionService`: the access check, the stored total price of
 * a transaction, and the average-cost holdings fold with the portfolio
 * summary on top of it.
 *
 * Amounts are exact `real`s. Quantities obey the request validation
 * (`@Min(1)`), prices are `@Min(0)`.
 */
module Portfolio {
  import opened Wrappers

  datatype TxType = Buy | Sell | TransferIn | TransferOut

  datatype Transaction = Transaction(
    id: string, portfolioId: string, assetId: string, kind: TxType,
    quantity: real, price: real, totalPrice: real, date: int, notes: Option<string>)

  /** The two tables the service reads: portfolio owners by portfolio id, and transactions by id. */
  datatype Db = Db(owners: map<string, string>, txs: map<string, Transaction>)

  datatype ServiceError = PortfolioNotFound | AccessDenied | TransactionNotFound

  /** Every stored quantity passed `@Min(1)`. */
  predicate ValidQuantities(txs: seq<Transaction>) {
    forall i :: 0 <= i < |txs| ==> txs[i].quantity >= 1.0
  }

  // ---------------------------------------------------------------------------
  // Access and the single-transaction operations
  // ---------------------------------------------------------------------------

  /** `verifyPortfolioAccess`: existence is checked before ownership. */
  function VerifyAccess(db: Db, portfolioId: string, userId: string): (r: Result<(), ServiceError>)
    ensures r == Failure(PortfolioNotFound) <==> portfolioId !in db.owners
    ensures r == Failure(AccessDenied) <==> portfolioId in db.owners && db.owners[portfolioId] != userId
    ensures r.Success? <==> portfolioId in db.owners && db.owners[portfolioId] == userId
  {
    if portfolioId !in db.owners then Failure(PortfolioNotFound)
    else if db.owners[portfolioId] != userId then Failure(AccessDenied)
    else Success(())
  }

  /** The access check, then a transaction that exists and belongs to this portfolio. */
  function FindOwned(db: Db, portfolioId: string, txId: string, userId: string): (r: Result<Transaction, ServiceError>)
    ensures VerifyAccess(db, portfolioId, userId).Failure? ==> r == Failure(VerifyAccess(db, portfolioId, userId).error)
    ensures VerifyAccess(db, portfolioId, userId).Success? ==>
      (r == Failure(TransactionNotFound) <==> txId !in db.txs || db.txs[txId].portfolioId != portfolioId)
    ensures r.Success? ==> txId in db.txs && r.value == db.txs[txId] && r.value.portfolioId == portfolioId
  {
    match VerifyAccess(db, portfolioId, userId)
    case Failure(e) => Failure(e)
    case Success(_) =>
      if txId !in db.txs || db.txs[txId].portfolioId != portfolioId then Failure(TransactionNotFound)
      else Success(db.txs[txId])
  }

  /** `getTransaction`. */
  function GetTransaction(db: Db, portfolioId: string, txId: string, userId: string): (r: Result<Transaction, ServiceError>)
    ensures r.Success? <==> VerifyAccess(db, portfolioId, userId).Success? && txId in db.txs && db.txs[txId].portfolioId == portfolioId
    ensures r.Success? ==> r.value == db.txs[txId]
  {
    FindOwned(db, portfolioId, txId, userId)
  }

  /** `getPortfolioTransactions`, as the set of rows it returns. */
  function PortfolioTransactions(db: Db, portfolioId: string, userId: string): (r: Result<set<Transaction>, ServiceError>)
    ensures r.Success? <==> VerifyAccess(db, portfolioId, userId).Success?
    ensures r.Success? ==> forall t :: t in r.value <==> t in db.txs.Values && t.portfolioId == portfolioId
  {
    match VerifyAccess(db, portfolioId, userId)
    case Failure(e) => Failure(e)
    case Success(_) => Success(set t | t in db.txs.Values && t.portfolioId == portfolioId)
  }

  datatype CreateRequest = CreateRequest(kind: TxType, assetId: string, quantity: real, price: real, date: Option<int>, notes: Option<string>)

  /** `createTransaction`: the new row gets id `newId`, and the date defaults to `now`. */
  function CreateTransaction(db: Db, portfolioId: string, userId: string, dto: CreateRequest, newId: string, now: int)
    : (r: Result<(Db, Transaction), ServiceError>)
    ensures r.Failure? <==> VerifyAccess(db, portfolioId, userId).Failure?
    ensures r.Success? ==> var (db', tx) := r.value;
      && tx.totalPrice == dto.price * dto.quantity
      && tx.portfolioId == portfolioId && tx.id == newId
      && tx.date == (if dto.date.Some? then dto.date.value else now)
      && db' == db.(txs := db.txs[newId := tx])
  {
    match VerifyAccess(db, portfolioId, userId)
    case Failure(e) => Failure(e)
    case Success(_) =>
      var tx := Transaction(newId, portfolioId, dto.assetId, dto.kind, dto.quantity, dto.price,
                            dto.price * dto.quantity, dto.date.GetOr(now), dto.notes);
      Success((db.(txs := db.txs[newId := tx]), tx))
  }

  datatype UpdateRequest = UpdateRequest(
    kind: Option<TxType>, assetId: Option<string>, quantity: Option<real>, price: Option<real>,
    date: Option<int>, notes: Option<string>)

  /** The row after an update: supplied fields replace, and the total is recomputed iff quantity or price was supplied. */
  function Patch(tx: Transaction, dto: UpdateRequest): (r: Transaction)
    ensures r.id == tx.id && r.portfolioId == tx.portfolioId
    ensures r.kind == dto.kind.GetOr(tx.kind) && r.assetId == dto.assetId.GetOr(tx.assetId)
    ensures r.quantity == dto.quantity.GetOr(tx.quantity) && r.price == dto.price.GetOr(tx.price)
    ensures r.date == dto.date.GetOr(tx.date) && r.notes == (if dto.notes.Some? then dto.notes else tx.notes)
    ensures dto.quantity.Some? || dto.price.Some? ==> r.totalPrice == r.quantity * r.price
    ensures dto.quantity.None? && dto.price.None? ==> r.totalPrice == tx.totalPrice
  {
    var quantity := dto.quantity.GetOr(tx.quantity);
    var price := dto.price.GetOr(tx.price);
    Transaction(
      tx.id, tx.portfolioId, dto.assetId.GetOr(tx.assetId), dto.kind.GetOr(tx.kind), quantity, price,
      if dto.quantity.Some? || dto.price.Some? then quantity * price else tx.totalPrice,
      dto.date.GetOr(tx.date), if dto.notes.Some? then dto.notes else tx.notes)
  }

  /** `updateTransaction`. */
  function UpdateTransaction(db: Db, portfolioId: string, txId: string, userId: string, dto: UpdateRequest)
    : (r: Result<(Db, Transaction), ServiceError>)
    ensures r.Success? <==> FindOwned(db, portfolioId, txId, userId).Success?
    ensures r.Failure? ==> r == Failure(FindOwned(db, portfolioId, txId, userId).error)
    ensures r.Success? ==> var (db', tx) := r.value;
      && tx == Patch(db.txs[txId], dto)
      && db'.owners == db.owners && db'.txs.Keys == db.txs.Keys
      && (forall id :: id in db.txs && id != txId ==> db'.txs[id] == db.txs[id])
      && db'.txs[txId] == tx
  {
    match FindOwned(db, portfolioId, txId, userId)
    case Failure(e) => Failure(e)
    case Success(prior) =>
      var tx := Patch(prior, dto);
      Success((db.(txs := db.txs[txId := tx]), tx))
  }

  /** `deleteTransaction`. */
  function DeleteTransaction(db: Db, portfolioId: string, txId: string, userId: string)
    : (r: Result<(Db, Transaction), ServiceError>)
    ensures r.Success? <==> FindOwned(db, portfolioId, txId, userId).Success?
    ensures r.Success? ==> var (db', tx) := r.value;
      && tx == db.txs[txId] && db'.owners == db.owners && db'.txs == db.txs - {txId}
  {
    match FindOwned(db, portfolioId, txId, userId)
    case Failure(e) => Failure(e)
    case Success(tx) => Success((db.(txs := db.txs - {txId}), tx))
  }

  /** Another user's portfolio is refused before its transactions are looked at. */
  lemma ForeignPortfolioRefused(db: Db, portfolioId: string, txId: string, userId: string, dto: UpdateRequest)
    requires portfolioId in db.owners && db.owners[portfolioId] != userId
    ensures GetTransaction(db, portfolioId, txId, userId) == Failure(AccessDenied)
    ensures UpdateTransaction(db, portfolioId, txId, userId, dto) == Failure(AccessDenied)
    ensures DeleteTransaction(db, portfolioId, txId, userId) == Failure(AccessDenied)
  {
  }

  /** Changing only the notes keeps the stored total, even when it no longer equals quantity × price. */
  lemma NotesOnlyUpdateKeepsTotal(tx: Transaction, notes: string)
    ensures Patch(tx, UpdateRequest(None, None, None, None, None, Some(notes))).totalPrice == tx.totalPrice
  {
  }

  // ---------------------------------------------------------------------------
  // Holdings: the average-cost fold over transactions in ascending date order
  // ---------------------------------------------------------------------------

  datatype Holding = Holding(
    assetId: string, currentPrice: Option<real>, quantity: real, totalInvested: real,
    averagePrice: real, transactions: seq<Transaction>)

  predicate IsInflow(kind: TxType) {
    kind == Buy || kind == TransferIn
  }

  /** One transaction applied to its asset's holding. */
  function Apply(h: Holding, tx: Transaction): (r: Holding)
    requires tx.quantity >= 1.0
    ensures r.assetId == h.assetId && r.currentPrice == h.currentPrice && r.transactions == h.transactions + [tx]
    ensures r.quantity == if IsInflow(tx.kind) then h.quantity + tx.quantity else h.quantity - tx.quantity
    ensures r.averagePrice == if r.quantity > 0.0 then r.totalInvested / r.quantity else 0.0
    ensures IsInflow(tx.kind) ==> r.totalInvested == h.totalInvested + tx.totalPrice
    ensures !IsInflow(tx.kind) && r.quantity <= 0.0 ==> r.totalInvested == 0.0
  {
    var quantity := if IsInflow(tx.kind) then h.quantity + tx.quantity else h.quantity - tx.quantity;
    var invested :=
      if IsInflow(tx.kind) then h.totalInvested + tx.totalPrice
      else if quantity > 0.0 then h.totalInvested - h.totalInvested * (tx.quantity / (quantity + tx.quantity))
      else 0.0;
    Holding(h.assetId, h.currentPrice, quantity, invested,
            if quantity > 0.0 then invested / quantity else 0.0, h.transactions + [tx])
  }

  /** A sell that leaves a positive quantity scales the invested total by remaining / previous quantity. */
  lemma PartialSellScalesInvestment(h: Holding, tx: Transaction)
    requires tx.quantity >= 1.0 && !IsInflow(tx.kind) && h.quantity - tx.quantity > 0.0
    ensures Apply(h, tx).totalInvested * h.quantity == h.totalInvested * Apply(h, tx).quantity
  {
    var a, p, inv := tx.quantity, h.quantity, h.totalInvested;
    var q := p - a;
    var f := a / (q + a);
    assert q + a == p;
    assert f * p == a;
    calc {
      Apply(h, tx).totalInvested * p;
      (inv - inv * f) * p;
      inv * p - inv * (f * p);
      inv * p - inv * a;
      inv * q;
    }
  }

  /** Hence a partial sell leaves the average price where it was. */
  lemma PartialSellKeepsAverage(h: Holding, tx: Transaction)
    requires tx.quantity >= 1.0 && !IsInflow(tx.kind) && h.quantity - tx.quantity > 0.0
    requires h.averagePrice == h.totalInvested / h.quantity
    ensures Apply(h, tx).averagePrice == h.averagePrice
  {
    PartialSellScalesInvestment(h, tx);
    var q, p, inv, inv' := Apply(h, tx).quantity, h.quantity, h.totalInvested, Apply(h, tx).totalInvested;
    assert inv' * p == inv * q;
    assert inv' / q == inv / p by {
      assert inv' == inv * q / p;
    }
  }

  /** A sell that empties (or overdraws) the holding resets the invested total and the average to 0. */
  lemma FullSellResets(h: Holding, tx: Transaction)
    requires tx.quantity >= 1.0 && !IsInflow(tx.kind) && h.quantity - tx.quantity <= 0.0
    ensures Apply(h, tx).totalInvested == 0.0 && Apply(h, tx).averagePrice == 0.0
  {
  }

  /** The position of `assetId` among the holdings, if present. */
  function IndexOf(hs: seq<Holding>, assetId: string): (r: Option<nat>)
    ensures r.None? <==> forall i :: 0 <= i < |hs| ==> hs[i].assetId != assetId
    ensures r.Some? ==> r.value < |hs| && hs[r.value].assetId == assetId
  {
    if |hs| == 0 then None
    else if hs[|hs| - 1].assetId == assetId then Some(|hs| - 1)
    else IndexOf(hs[..|hs| - 1], assetId)
  }

  /** The ids of a holding list. */
  function Ids(hs: seq<Holding>): (r: seq<string>)
    ensures |r| == |hs| && forall i :: 0 <= i < |hs| ==> r[i] == hs[i].assetId
  {
    if |hs| == 0 then [] else Ids(hs[..|hs| - 1]) + [hs[|hs| - 1].assetId]
  }

  /** Reference: the distinct asset ids in order of their first transaction. */
  function FirstAppearance(txs: seq<Transaction>): (r: seq<string>)
    ensures forall i, j :: 0 <= i < j < |r| ==> r[i] != r[j]
    ensures forall a :: a in r <==> exists k :: 0 <= k < |txs| && txs[k].assetId == a
  {
    if |txs| == 0 then []
    else
      var front := FirstAppearance(txs[..|txs| - 1]);
      var a := txs[|txs| - 1].assetId;
      assert forall k :: 0 <= k < |txs| - 1 ==> txs[..|txs| - 1][k] == txs[k];
      if a in front then front else front + [a]
  }

  /** Reference: the net quantity of one asset (inflows minus outflows). */
  function Net(txs: seq<Transaction>, assetId: string): real {
    if |txs| == 0 then 0.0
    else
      var tx := txs[|txs| - 1];
      Net(txs[..|txs| - 1], assetId)
        + (if tx.assetId != assetId then 0.0 else if IsInflow(tx.kind) then tx.quantity else -tx.quantity)
  }

  /** Reference: one asset's transactions, in order. */
  function Of(txs: seq<Transaction>, assetId: string): seq<Transaction> {
    if |txs| == 0 then []
    else
      var tx := txs[|txs| - 1];
      Of(txs[..|txs| - 1], assetId) + (if tx.assetId == assetId then [tx] else [])
  }

  /** The holding a first transaction starts from; the asset row is looked up by `prices`. */
  function Fresh(assetId: string, prices: string -> Option<real>): Holding {
    Holding(assetId, prices(assetId), 0.0, 0.0, 0.0, [])
  }

  /** The loop over transactions, keeping the `Map` of holdings in insertion order. */
  function Fold(txs: seq<Transaction>, prices: string -> Option<real>): seq<Holding>
    requires ValidQuantities(txs)
  {
    if |txs| == 0 then []
    else
      var front := txs[..|txs| - 1];
      var tx := txs[|txs| - 1];
      var hs := Fold(front, prices);
      match IndexOf(hs, tx.assetId)
      case Some(i) => hs[i := Apply(hs[i], tx)]
      case None => hs + [Apply(Fresh(tx.assetId, prices), tx)]
  }

  /** The holdings appear once per asset, in order of each asset's first transaction. */
  lemma {:induction false} FoldIds(txs: seq<Transaction>, prices: string -> Option<real>)
    requires ValidQuantities(txs)
    ensures Ids(Fold(txs, prices)) == FirstAppearance(txs)
    decreases |txs|
  {
    if |txs| > 0 {
      var front := txs[..|txs| - 1];
      var tx := txs[|txs| - 1];
      FoldIds(front, prices);
      var hs := Fold(front, prices);
      match IndexOf(hs, tx.assetId)
      case Some(i) =>
        assert Ids(hs[i := Apply(hs[i], tx)]) == Ids(hs);
      case None =>
        assert tx.assetId !in FirstAppearance(front) by {
          assert forall k :: 0 <= k < |hs| ==> Ids(hs)[k] != tx.assetId;
        }
    }
  }

  /** A holding tracks exactly the net quantity and the transactions of its asset, and the current price of that asset. */
  predicate Tracks(h: Holding, txs: seq<Transaction>, prices: string -> Option<real>) {
    && h.quantity == Net(txs, h.assetId)
    && h.transactions == Of(txs, h.assetId)
    && h.currentPrice == prices(h.assetId)
    && h.averagePrice == (if h.quantity > 0.0 then h.totalInvested / h.quantity else 0.0)
  }

  lemma {:induction false} FoldTracks(txs: seq<Transaction>, prices: string -> Option<real>)
    requires ValidQuantities(txs)
    ensures forall i :: 0 <= i < |Fold(txs, prices)| ==> Tracks(Fold(txs, prices)[i], txs, prices)
    decreases |txs|
  {
    if |txs| > 0 {
      var front := txs[..|txs| - 1];
      FoldTracks(front, prices);
      FoldIds(front, prices);
      forall i | 0 <= i < |Fold(txs, prices)| ensures Tracks(Fold(txs, prices)[i], txs, prices) {
        TracksAfterStep(txs, prices, Fold(front, prices), i);
      }
    }
  }

  /** One step of the fold: if every holding tracked the earlier transactions, holding `i` tracks them all. */
  lemma TracksAfterStep(txs: seq<Transaction>, prices: string -> Option<real>, hs: seq<Holding>, i: nat)
    requires ValidQuantities(txs) && |txs| > 0
    requires hs == Fold(txs[..|txs| - 1], prices)
    requires forall j :: 0 <= j < |hs| ==> Tracks(hs[j], txs[..|txs| - 1], prices)
    requires Ids(hs) == FirstAppearance(txs[..|txs| - 1])
    requires i < |Fold(txs, prices)|
    ensures Tracks(Fold(txs, prices)[i], txs, prices)
  {
    var front := txs[..|txs| - 1];
    var tx := txs[|txs| - 1];
    match IndexOf(hs, tx.assetId)
    case Some(k) =>
      if i == k {
        TracksApply(hs[i], txs, prices);
      } else {
        assert Ids(hs)[k] != Ids(hs)[i];
        TracksOther(hs[i], txs, prices);
      }
    case None =>
      if i < |hs| {
        TracksOther(hs[i], txs, prices);
      } else {
        assert tx.assetId !in FirstAppearance(front) by {
          assert forall k :: 0 <= k < |hs| ==> Ids(hs)[k] != tx.assetId;
        }
        NotPresentNothingOf(front, tx.assetId);
        TracksApply(Fresh(tx.assetId, prices), txs, prices);
      }
  }

  /** A transaction of another asset leaves a tracking holding tracking. */
  lemma TracksOther(h: Holding, txs: seq<Transaction>, prices: string -> Option<real>)
    requires |txs| > 0 && Tracks(h, txs[..|txs| - 1], prices) && h.assetId != txs[|txs| - 1].assetId
    ensures Tracks(h, txs, prices)
  {
  }

  /** Applying a transaction of the holding's own asset keeps it tracking. */
  lemma TracksApply(h: Holding, txs: seq<Transaction>, prices: string -> Option<real>)
    requires |txs| > 0 && txs[|txs| - 1].quantity >= 1.0
    requires Tracks(h, txs[..|txs| - 1], prices) && h.assetId == txs[|txs| - 1].assetId
    ensures Tracks(Apply(h, txs[|txs| - 1]), txs, prices)
  {
  }

  /** An asset without transactions has no quantity and no transaction list. */
  lemma {:induction false} NotPresentNothingOf(txs: seq<Transaction>, assetId: string)
    requires assetId !in FirstAppearance(txs)
    ensures Of(txs, assetId) == [] && Net(txs, assetId) == 0.0
    decreases |txs|
  {
    if |txs| > 0 {
      NotPresentNothingOf(txs[..|txs| - 1], assetId);
    }
  }

  /** With non-negative totals the invested amount of every holding stays non-negative. */
  lemma {:induction false} InvestedNonNegative(txs: seq<Transaction>, prices: string -> Option<real>)
    requires ValidQuantities(txs)
    requires forall k :: 0 <= k < |txs| ==> txs[k].totalPrice >= 0.0
    ensures forall i :: 0 <= i < |Fold(txs, prices)| ==> Fold(txs, prices)[i].totalInvested >= 0.0
    decreases |txs|
  {
    if |txs| > 0 {
      var front := txs[..|txs| - 1];
      var tx := txs[|txs| - 1];
      InvestedNonNegative(front, prices);
      var hs := Fold(front, prices);
      match IndexOf(hs, tx.assetId)
      case Some(i) => ApplyKeepsNonNegative(hs[i], tx);
      case None => ApplyKeepsNonNegative(Fresh(tx.assetId, prices), tx);
    }
  }

  lemma ApplyKeepsNonNegative(h: Holding, tx: Transaction)
    requires tx.quantity >= 1.0 && tx.totalPrice >= 0.0 && h.totalInvested >= 0.0
    ensures Apply(h, tx).totalInvested >= 0.0
  {
    var q := Apply(h, tx).quantity;
    if !IsInflow(tx.kind) && q > 0.0 {
      PartialSellScalesInvestment(h, tx);
      assert q / h.quantity > 0.0;
    }
  }

  /** Only assets with a positive final quantity are reported. */
  function Positive(hs: seq<Holding>): (r: seq<Holding>)
    ensures forall i :: 0 <= i < |r| ==> r[i].quantity > 0.0
    ensures forall h :: h in r <==> h in hs && h.quantity > 0.0
  {
    if |hs| == 0 then []
    else
      var h := hs[|hs| - 1];
      Positive(hs[..|hs| - 1]) + if h.quantity > 0.0 then [h] else []
  }

  /** `Positive` is a filter: it distributes over concatenation, so the kept holdings keep their order. */
  lemma {:induction false} PositiveAppend(a: seq<Holding>, b: seq<Holding>)
    ensures Positive(a + b) == Positive(a) + Positive(b)
    decreases |b|
  {
    if |b| == 0 {
      assert a + b == a;
    } else {
      var n := |b| - 1;
      assert (a + b)[..|a + b| - 1] == a + b[..n];
      PositiveAppend(a, b[..n]);
    }
  }

  /** Reference: the ids of `ids` whose net quantity over `txs` is positive, in their order. */
  function HeldIds(ids: seq<string>, txs: seq<Transaction>): (r: seq<string>)
    ensures forall a :: a in r <==> a in ids && Net(txs, a) > 0.0
    ensures (forall i, j :: 0 <= i < j < |ids| ==> ids[i] != ids[j]) ==> forall i, j :: 0 <= i < j < |r| ==> r[i] != r[j]
    decreases |ids|
  {
    if |ids| == 0 then []
    else
      var a := ids[|ids| - 1];
      HeldIds(ids[..|ids| - 1], txs) + if Net(txs, a) > 0.0 then [a] else []
  }

  lemma IdsAppend(a: seq<Holding>, b: seq<Holding>)
    ensures Ids(a + b) == Ids(a) + Ids(b)
  {
    assert forall i :: 0 <= i < |a + b| ==> Ids(a + b)[i] == (Ids(a) + Ids(b))[i];
  }

  lemma PositiveSnocIds(front: seq<Holding>, h: Holding)
    ensures Ids(Positive(front + [h])) == Ids(Positive(front)) + if h.quantity > 0.0 then [h.assetId] else []
  {
    assert (front + [h])[..|front|] == front;
    IdsAppend(Positive(front), if h.quantity > 0.0 then [h] else []);
  }

  lemma HeldIdsSnoc(ids: seq<string>, a: string, txs: seq<Transaction>)
    ensures HeldIds(ids + [a], txs) == HeldIds(ids, txs) + if Net(txs, a) > 0.0 then [a] else []
  {
    assert (ids + [a])[..|ids|] == ids;
  }

  /** Filtering holdings that carry their net quantities filters their ids the same way. */
  lemma {:induction false} PositiveIds(hs: seq<Holding>, txs: seq<Transaction>)
    requires forall i :: 0 <= i < |hs| ==> hs[i].quantity == Net(txs, hs[i].assetId)
    ensures Ids(Positive(hs)) == HeldIds(Ids(hs), txs)
    decreases |hs|
  {
    if |hs| > 0 {
      var n := |hs| - 1;
      var front, h := hs[..n], hs[n];
      assert hs == front + [h];
      assert forall i :: 0 <= i < |front| ==> front[i] == hs[i];
      PositiveIds(front, txs);
      PositiveSnocIds(front, h);
      assert Ids(hs) == Ids(front) + [h.assetId];
      HeldIdsSnoc(Ids(front), h.assetId, txs);
    }
  }

  /**
   * The reported holdings are one per asset, in order of the asset's first
   * transaction, keeping exactly the assets with a positive net quantity.
   */
  lemma HoldingsInFirstTransactionOrder(txs: seq<Transaction>, prices: string -> Option<real>)
    requires ValidQuantities(txs)
    ensures Ids(Positive(Fold(txs, prices))) == HeldIds(FirstAppearance(txs), txs)
    ensures var ids := Ids(Positive(Fold(txs, prices)));
      forall i, j :: 0 <= i < j < |ids| ==> ids[i] != ids[j]
  {
    FoldIds(txs, prices);
    FoldTracks(txs, prices);
    PositiveIds(Fold(txs, prices), txs);
  }

  /**
   * What the holdings query returns for `portfolioId`: each of the portfolio's
   * stored transactions exactly once, in ascending date order.
   */
  predicate RowsOf(db: Db, portfolioId: string, txs: seq<Transaction>) {
    && (forall t :: t in txs ==> t in db.txs.Values && t.portfolioId == portfolioId)
    && (forall t :: t in db.txs.Values && t.portfolioId == portfolioId ==> t in txs)
    && (forall i, j :: 0 <= i < j < |txs| ==> txs[i] != txs[j])
    && (forall i, j :: 0 <= i < j < |txs| ==> txs[i].date <= txs[j].date)
  }

  /** `getPortfolioHoldings`; `txs` is the result of its transaction query. */
  function GetHoldings(db: Db, portfolioId: string, userId: string, txs: seq<Transaction>, prices: string -> Option<real>)
    : (r: Result<seq<Holding>, ServiceError>)
    requires ValidQuantities(txs) && RowsOf(db, portfolioId, txs)
    ensures r.Failure? <==> VerifyAccess(db, portfolioId, userId).Failure?
    ensures r.Failure? ==> r.error == VerifyAccess(db, portfolioId, userId).error
    ensures r.Success? ==> forall i :: 0 <= i < |r.value| ==> r.value[i].quantity > 0.0
    ensures r.Success? ==> r.value == Positive(Fold(txs, prices))
  {
    match VerifyAccess(db, portfolioId, userId)
    case Failure(e) => Failure(e)
    case Success(_) => Success(Positive(Fold(txs, prices)))
  }

  /** One entry per asset with a positive net quantity, nothing else, each tracking its asset. */
  lemma HoldingsCharacterised(txs: seq<Transaction>, prices: string -> Option<real>, h: Holding)
    requires ValidQuantities(txs)
    ensures h in Positive(Fold(txs, prices)) ==> h.quantity > 0.0 && Tracks(h, txs, prices) && h.assetId in FirstAppearance(txs)
    ensures forall a :: a in FirstAppearance(txs) && Net(txs, a) > 0.0 ==>
      exists g :: g in Positive(Fold(txs, prices)) && g.assetId == a
  {
    var hs := Fold(txs, prices);
    FoldTracks(txs, prices);
    FoldIds(txs, prices);
    if h in Positive(hs) {
      var i :| 0 <= i < |hs| && hs[i] == h;
      assert Ids(hs)[i] == h.assetId;
    }
    forall a | a in FirstAppearance(txs) && Net(txs, a) > 0.0
      ensures exists g :: g in Positive(hs) && g.assetId == a
    {
      var i :| 0 <= i < |Ids(hs)| && Ids(hs)[i] == a;
      assert hs[i] in Positive(hs);
    }
  }

  /**
   * The holdings of an accessible portfolio: each reported holding tracks the
   * net quantity, the transactions and the price of an asset the portfolio has
   * a stored transaction for, and every such asset with a positive net
   * quantity is reported.
   */
  lemma GetHoldingsCharacterised(db: Db, portfolioId: string, userId: string, txs: seq<Transaction>, prices: string -> Option<real>)
    requires ValidQuantities(txs) && RowsOf(db, portfolioId, txs)
    requires VerifyAccess(db, portfolioId, userId).Success?
    ensures var r := GetHoldings(db, portfolioId, userId, txs, prices);
      && r.Success?
      && (forall h :: h in r.value ==>
            && h.quantity > 0.0 && Tracks(h, txs, prices)
            && exists t :: t in db.txs.Values && t.portfolioId == portfolioId && t.assetId == h.assetId)
      && (forall t :: t in db.txs.Values && t.portfolioId == portfolioId && Net(txs, t.assetId) > 0.0 ==>
            exists g :: g in r.value && g.assetId == t.assetId)
      && Ids(r.value) == HeldIds(FirstAppearance(txs), txs)
      && (forall i, j :: 0 <= i < j < |r.value| ==> r.value[i].assetId != r.value[j].assetId)
  {
    HoldingsInFirstTransactionOrder(txs, prices);
    var hs := Positive(Fold(txs, prices));
    forall h | h in hs
      ensures h.quantity > 0.0 && Tracks(h, txs, prices)
      ensures exists t :: t in db.txs.Values && t.portfolioId == portfolioId && t.assetId == h.assetId
    {
      HoldingsCharacterised(txs, prices, h);
      var k :| 0 <= k < |txs| && txs[k].assetId == h.assetId;
      assert txs[k] in txs;
    }
    forall t | t in db.txs.Values && t.portfolioId == portfolioId && Net(txs, t.assetId) > 0.0
      ensures exists g :: g in hs && g.assetId == t.assetId
    {
      HoldingsCharacterised(txs, prices, Fresh(t.assetId, prices));
      assert t in txs;
      var k :| 0 <= k < |txs| && txs[k] == t;
      assert t.assetId in FirstAppearance(txs);
    }
  }

  /** Two transactions of one asset fold into a single holding. */
  lemma FoldOneAsset(t1: Transaction, t2: Transaction, prices: string -> Option<real>)
    requires t1.quantity >= 1.0 && t2.quantity >= 1.0 && t1.assetId == t2.assetId
    ensures Fold([t1, t2], prices) == [Apply(Apply(Fresh(t1.assetId, prices), t1), t2)]
  {
    assert [t1, t2][..1] == [t1];
    assert [t1][..0] == [];
    var h1 := Apply(Fresh(t1.assetId, prices), t1);
    assert Fold([t1], prices) == [h1];
    assert IndexOf([h1], t2.assetId) == Some(0);
    var txs := [t1, t2];
    assert txs[..|txs| - 1] == [t1] && txs[|txs| - 1] == t2;
    assert [h1][0 := Apply(h1, t2)] == [Apply(h1, t2)];
  }

  /** A buy followed by a partial sell: 10 at 2.0, then 4 sold, leaves 6 with 12.0 invested at 2.0 each. */
  lemma HoldingsExample(prices: string -> Option<real>)
    ensures var buy := Transaction("t1", "p", "a", Buy, 10.0, 2.0, 20.0, 1, None);
      var sell := Transaction("t2", "p", "a", Sell, 4.0, 5.0, 20.0, 2, None);
      var hs := Fold([buy, sell], prices);
      |hs| == 1 && hs[0].quantity == 6.0 && hs[0].totalInvested == 12.0 && hs[0].averagePrice == 2.0
  {
    var buy := Transaction("t1", "p", "a", Buy, 10.0, 2.0, 20.0, 1, None);
    var sell := Transaction("t2", "p", "a", Sell, 4.0, 5.0, 20.0, 2, None);
    FoldOneAsset(buy, sell, prices);
    var h1 := Apply(Fresh("a", prices), buy);
    assert h1.quantity == 10.0 && h1.totalInvested == 20.0;
    SellExample(h1, sell);
  }

  lemma SellExample(h: Holding, sell: Transaction)
    requires h.quantity == 10.0 && h.totalInvested == 20.0
    requires sell.kind == Sell && sell.quantity == 4.0
    ensures Apply(h, sell).quantity == 6.0 && Apply(h, sell).totalInvested == 12.0 && Apply(h, sell).averagePrice == 2.0
  {
    assert 4.0 / (6.0 + 4.0) == 0.4;
    assert 20.0 - 20.0 * 0.4 == 12.0;
  }



  // ---------------------------------------------------------------------------
  // Summary
  // ---------------------------------------------------------------------------

  datatype Summary = Summary(totalValue: real, totalInvested: real, profitLoss: real, profitLossPercentage: real, holdingsCount: nat)

  /** Σ (current price or 0) × quantity. */
  function TotalValue(hs: seq<Holding>): real {
    if |hs| == 0 then 0.0
    else TotalValue(hs[..|hs| - 1]) + hs[|hs| - 1].currentPrice.GetOr(0.0) * hs[|hs| - 1].quantity
  }

  /** Σ invested. */
  function TotalInvested(hs: seq<Holding>): real {
    if |hs| == 0 then 0.0 else TotalInvested(hs[..|hs| - 1]) + hs[|hs| - 1].totalInvested
  }

  function Summarize(hs: seq<Holding>): (r: Summary)
    ensures r.holdingsCount == |hs|
    ensures r.profitLoss == r.totalValue - r.totalInvested
    ensures r.totalInvested <= 0.0 ==> r.profitLossPercentage == 0.0
    ensures r.totalInvested > 0.0 ==> r.profitLossPercentage * r.totalInvested == r.profitLoss * 100.0
  {
    var value := TotalValue(hs);
    var invested := TotalInvested(hs);
    var pl := value - invested;
    Summary(value, invested, pl, if invested > 0.0 then (pl / invested) * 100.0 else 0.0, |hs|)
  }

  /** `getPortfolioSummary`. */
  function GetSummary(db: Db, portfolioId: string, userId: string, txs: seq<Transaction>, prices: string -> Option<real>)
    : (r: Result<Summary, ServiceError>)
    requires ValidQuantities(txs) && RowsOf(db, portfolioId, txs)
    ensures r.Failure? <==> VerifyAccess(db, portfolioId, userId).Failure?
    ensures r.Success? ==> r.value == Summarize(GetHoldings(db, portfolioId, userId, txs, prices).value)
  {
    match GetHoldings(db, portfolioId, userId, txs, prices)
    case Failure(e) => Failure(e)
    case Success(hs) => Success(Summarize(hs))
  }

  /** With non-negative prices the reported value and investment are non-negative. */
  lemma {:induction false} SummaryNonNegative(hs: seq<Holding>)
    requires forall i :: 0 <= i < |hs| ==> hs[i].quantity > 0.0 && hs[i].totalInvested >= 0.0
    requires forall i :: 0 <= i < |hs| ==> hs[i].currentPrice.GetOr(0.0) >= 0.0
    ensures TotalValue(hs) >= 0.0 && TotalInvested(hs) >= 0.0
    decreases |hs|
  {
    if |hs| > 0 {
      SummaryNonNegative(hs[..|hs| - 1]);
      var h := hs[|hs| - 1];
      assert h.currentPrice.GetOr(0.0) * h.quantity >= 0.0;
    }
  }

  /** A portfolio without transactions summarises to zeros. */
  lemma EmptyPortfolioSummary(prices: string -> Option<real>)
    ensures Summarize(Positive(Fold([], prices))) == Summary(0.0, 0.0, 0.0, 0.0, 0)
  {
  }
}

=== FILE: provider_registry.dfy ===
/**
 * `AssetProviderStrategy`: an insertion-ordered map from provider type to
 * provider, plus the current provider.
 *
 * Providers are objects compared by identity (`===`); `Provider.id` stands
 * for that identity, so two `Provider` values are the same object iff equal.
 */
module ProviderRegistry {
  import opened Wrappers

  /** The part of an `AssetProvider` the strategy and the scheduler look at. */
  datatype Provider = Provider(id: nat, name: string, supportsPriority: bool)

  /** `providers` in `Map` iteration order (first insertion order), and `currentProvider`. */
  datatype Registry = Registry(entries: seq<(string, Provider)>, current: Option<Provider>)

  datatype RegistryError = NotRegistered(requested: string, available: seq<string>) | NoProviderConfigured

  const EMPTY: Registry := Registry([], None)

  function Types(entries: seq<(string, Provider)>): (r: seq<string>)
    ensures |r| == |entries| && forall i :: 0 <= i < |r| ==> r[i] == entries[i].0
  {
    if |entries| == 0 then [] else [entries[0].0] + Types(entries[1..])
  }

  /** A `Map` never holds one key twice. */
  predicate Valid(reg: Registry) {
    UniqueKeys(reg.entries)
  }

  predicate UniqueKeys(entries: seq<(string, Provider)>) {
    forall i, j :: 0 <= i < j < |entries| ==> entries[i].0 != entries[j].0
  }

  /** `providers.get(type)`. */
  function Get(entries: seq<(string, Provider)>, kind: string): (r: Option<Provider>)
    ensures r.None? <==> forall i :: 0 <= i < |entries| ==> entries[i].0 != kind
    ensures r.Some? ==> exists i :: 0 <= i < |entries| && entries[i] == (kind, r.value)
  {
    if |entries| == 0 then None
    else if entries[0].0 == kind then Some(entries[0].1)
    else
      var r := Get(entries[1..], kind);
      assert forall i :: 1 <= i < |entries| ==> entries[i] == entries[1..][i - 1];
      r
  }

  /** `providers.set(type, provider)`: an existing key keeps its position, a new key goes last. */
  function Put(entries: seq<(string, Provider)>, kind: string, p: Provider): (r: seq<(string, Provider)>)
    requires UniqueKeys(entries)
    ensures UniqueKeys(r)
    ensures Get(entries, kind).Some? ==> |r| == |entries| && forall i :: 0 <= i < |r| ==> r[i].0 == entries[i].0
    ensures Get(entries, kind).None? ==> r == entries + [(kind, p)]
    ensures forall i :: 0 <= i < |entries| && entries[i].0 != kind ==> r[i] == entries[i]
    ensures forall i :: 0 <= i < |entries| && entries[i].0 == kind ==> r[i] == (kind, p)
  {
    if |entries| == 0 then [(kind, p)]
    else if entries[0].0 == kind then [(kind, p)] + entries[1..]
    else
      var rest := Put(entries[1..], kind, p);
      assert forall i :: 1 <= i < |entries| ==> entries[i] == entries[1..][i - 1];
      [entries[0]] + rest
  }

  /** `registerProvider(type, provider)`. */
  function Register(reg: Registry, kind: string, p: Provider): (r: Registry)
    requires Valid(reg)
    ensures Valid(r)
    ensures Get(r.entries, kind) == Some(p)
    ensures forall k :: k != kind ==> Get(r.entries, k) == Get(reg.entries, k)
    ensures Types(r.entries) == if Get(reg.entries, kind).Some? then Types(reg.entries) else Types(reg.entries) + [kind]
    ensures r.current == if reg.current.None? then Some(p) else reg.current
  {
    PutFinds(reg.entries, kind, p);
    PutKeepsOthers(reg.entries, kind, p);
    PutTypes(reg.entries, kind, p);
    Registry(Put(reg.entries, kind, p), if reg.current.None? then Some(p) else reg.current)
  }

  lemma PutFinds(entries: seq<(string, Provider)>, kind: string, p: Provider)
    requires UniqueKeys(entries)
    ensures Get(Put(entries, kind, p), kind) == Some(p)
  {
    var r := Put(entries, kind, p);
    if Get(entries, kind).Some? {
      var i :| 0 <= i < |entries| && entries[i].0 == kind;
      GetFirst(r, kind, i);
    } else {
      GetFirst(r, kind, |entries|);
    }
  }

  lemma PutKeepsOthers(entries: seq<(string, Provider)>, kind: string, p: Provider)
    requires UniqueKeys(entries)
    ensures forall k :: k != kind ==> Get(Put(entries, kind, p), k) == Get(entries, k)
  {
    forall k | k != kind ensures Get(Put(entries, kind, p), k) == Get(entries, k) {
      GetAgree(entries, Put(entries, kind, p), k);
    }
  }

  lemma PutTypes(entries: seq<(string, Provider)>, kind: string, p: Provider)
    requires UniqueKeys(entries)
    ensures Types(Put(entries, kind, p)) == if Get(entries, kind).Some? then Types(entries) else Types(entries) + [kind]
  {
  }

  /** In a list without repeated keys, `get` finds the entry at the key's one position. */
  lemma {:induction false} GetFirst(entries: seq<(string, Provider)>, kind: string, i: nat)
    requires i < |entries| && entries[i].0 == kind
    requires forall j :: 0 <= j < i ==> entries[j].0 != kind
    ensures Get(entries, kind) == Some(entries[i].1)
    decreases i
  {
    if i > 0 {
      GetFirst(entries[1..], kind, i - 1);
    }
  }

  /** Two entry lists with the same keys in the same order, agreeing on the entries for `k`, agree on `get(k)`. */
  lemma {:induction false} GetAgree(a: seq<(string, Provider)>, b: seq<(string, Provider)>, k: string)
    requires |a| <= |b|
    requires forall i :: 0 <= i < |a| ==> a[i].0 == b[i].0
    requires forall i :: 0 <= i < |a| && a[i].0 == k ==> a[i] == b[i]
    requires forall i :: |a| <= i < |b| ==> b[i].0 != k
    ensures Get(a, k) == Get(b, k)
    decreases |a|
  {
    if |a| > 0 && a[0].0 != k {
      GetAgree(a[1..], b[1..], k);
    }
  }

  /** `setProvider(type)`: an unknown type throws and changes nothing. */
  function SetProvider(reg: Registry, kind: string): (r: Result<Registry, RegistryError>)
    ensures r.Failure? <==> Get(reg.entries, kind).None?
    ensures r.Failure? ==> r.error == NotRegistered(kind, Types(reg.entries))
    ensures r.Success? ==> r.value.entries == reg.entries && r.value.current == Get(reg.entries, kind)
  {
    match Get(reg.entries, kind)
    case None => Failure(NotRegistered(kind, Types(reg.entries)))
    case Some(p) => Success(reg.(current := Some(p)))
  }

  /** `getProvider()`. */
  function GetProvider(reg: Registry): (r: Result<Provider, RegistryError>)
    ensures r.Failure? <==> reg.current.None?
    ensures r.Success? ==> Some(r.value) == reg.current
  {
    match reg.current
    case None => Failure(NoProviderConfigured)
    case Some(p) => Success(p)
  }

  /** `getCurrentProviderType()`: the first type, in map order, whose provider is the current one. */
  function CurrentType(reg: Registry): (r: Option<string>)
    ensures r.None? <==> (reg.current.None? || forall i :: 0 <= i < |reg.entries| ==> reg.entries[i].1 != reg.current.value)
    ensures r.Some? ==> exists i :: 0 <= i < |reg.entries| && reg.entries[i] == (r.value, reg.current.value)
                          && forall j :: 0 <= j < i ==> reg.entries[j].1 != reg.current.value
  {
    if reg.current.None? then None else FirstTypeOf(reg.entries, reg.current.value)
  }

  function FirstTypeOf(entries: seq<(string, Provider)>, p: Provider): (r: Option<string>)
    ensures r.None? <==> forall i :: 0 <= i < |entries| ==> entries[i].1 != p
    ensures r.Some? ==> exists i :: 0 <= i < |entries| && entries[i] == (r.value, p)
                          && forall j :: 0 <= j < i ==> entries[j].1 != p
  {
    if |entries| == 0 then None
    else if entries[0].1 == p then Some(entries[0].0)
    else
      var r := FirstTypeOf(entries[1..], p);
      assert forall i :: 1 <= i < |entries| ==> entries[i] == entries[1..][i - 1];
      if r.Some? then
        var i :| 0 <= i < |entries[1..]| && entries[1..][i] == (r.value, p) && forall j :: 0 <= j < i ==> entries[1..][j].1 != p;
        assert entries[i + 1] == (r.value, p);
        r
      else r
  }

  /** `getAvailableProviders()`: every (type, name) pair in map order. */
  function Available(reg: Registry): (r: seq<(string, string)>)
    ensures |r| == |reg.entries|
    ensures forall i :: 0 <= i < |r| ==> r[i] == (reg.entries[i].0, reg.entries[i].1.name)
  {
    seq(|reg.entries|, i requires 0 <= i < |reg.entries| => (reg.entries[i].0, reg.entries[i].1.name))
  }

  /** A run of registrations, in order. */
  function RegisterAll(reg: Registry, regs: seq<(string, Provider)>): (r: Registry)
    requires Valid(reg)
    ensures Valid(r)
    decreases |regs|
  {
    if |regs| == 0 then reg else RegisterAll(Register(reg, regs[0].0, regs[0].1), regs[1..])
  }

  /** Once a provider is current, registrations never change it. */
  lemma {:induction false} RegistrationKeepsCurrent(reg: Registry, regs: seq<(string, Provider)>)
    requires Valid(reg) && reg.current.Some?
    ensures RegisterAll(reg, regs).current == reg.current
    decreases |regs|
  {
    if |regs| > 0 {
      RegistrationKeepsCurrent(Register(reg, regs[0].0, regs[0].1), regs[1..]);
    }
  }

  /** Starting from no providers, the first one registered becomes and stays current. */
  lemma FirstRegisteredIsCurrent(regs: seq<(string, Provider)>)
    requires |regs| > 0
    ensures RegisterAll(EMPTY, regs).current == Some(regs[0].1)
    ensures GetProvider(RegisterAll(EMPTY, regs)) == Success(regs[0].1)
  {
    RegistrationKeepsCurrent(Register(EMPTY, regs[0].0, regs[0].1), regs[1..]);
  }

  /** After a successful `setProvider(t)` on a registry where each provider is registered once, the current type is `t`. */
  lemma SetThenCurrentType(reg: Registry, kind: string)
    requires Valid(reg) && SetProvider(reg, kind).Success?
    requires forall i, j :: 0 <= i < j < |reg.entries| ==> reg.entries[i].1 != reg.entries[j].1
    ensures CurrentType(SetProvider(reg, kind).value) == Some(kind)
  {
    var r := SetProvider(reg, kind).value;
    var p := r.current.value;
    var k :| 0 <= k < |reg.entries| && reg.entries[k] == (kind, p);
    var t := CurrentType(r).value;
    var i :| 0 <= i < |r.entries| && r.entries[i] == (t, p) && forall j :: 0 <= j < i ==> r.entries[j].1 != p;
    assert i == k;
  }

  /**
   * Re-registering the current provider's type with a new object replaces the
   * map entry but not the current provider, which is then listed under no type.
   */
  lemma ReplacingCurrentOrphansIt(a: Provider, b: Provider)
    requires a != b
    ensures var reg := Register(Register(EMPTY, "steam_market", a), "steam_market", b);
      && GetProvider(reg) == Success(a)
      && CurrentType(reg) == None
      && Available(reg) == [("steam_market", b.name)]
  {
    var reg := Register(Register(EMPTY, "steam_market", a), "steam_market", b);
    assert Types(reg.entries) == ["steam_market"];
    assert reg.entries == [("steam_market", b)] by {
      assert |reg.entries| == 1 && reg.entries[0].0 == "steam_market";
      GetFirst(reg.entries, "steam_market", 0);
    }
  }
}

=== FILE: rate_limiter.dfy ===
/**
 * The provider's sliding-window request throttle. The timestamp list is the
 * limiter's whole state; every clock reading and the random draw behind the
 * jitter are parameters.
 */
module RateLimiter {
  import opened Wrappers

  datatype Config = Config(maxRequestsPerMinute: int, rateWindowMs: int, minJitterMs: Option<int>, maxJitterMs: Option<int>)

  /** The Steam Community Market limiter: 120 requests per 60 000 ms, 0 to 500 ms jitter. */
  const STEAM_LIMITER: Config := Config(120, 60000, Some(0), Some(500))

  /** The request cap is positive. */
  predicate ValidConfig(c: Config) {
    c.maxRequestsPerMinute > 0
  }

  predicate Sorted(s: seq<int>) {
    forall i, j :: 0 <= i < j < |s| ==> s[i] <= s[j]
  }

  /** `cleanOldTimestamps`: keep the timestamps strictly after `now - windowMs`, in order. */
  function Prune(ts: seq<int>, now: int, windowMs: int): (r: seq<int>)
    ensures |r| <= |ts|
    ensures forall t :: multiset(r)[t] == (if t > now - windowMs then multiset(ts)[t] else 0)
  {
    if |ts| == 0 then []
    else
      var rest := Prune(ts[1..], now, windowMs);
      assert ts == [ts[0]] + ts[1..];
      if ts[0] > now - windowMs then [ts[0]] + rest else rest
  }

  /** Pruning distributes over concatenation, so it keeps the survivors' relative order. */
  lemma {:induction false} PruneAppend(a: seq<int>, b: seq<int>, now: int, windowMs: int)
    ensures Prune(a + b, now, windowMs) == Prune(a, now, windowMs) + Prune(b, now, windowMs)
  {
    if |a| == 0 {
      assert a + b == b;
    } else {
      assert (a + b)[1..] == a[1..] + b;
      PruneAppend(a[1..], b, now, windowMs);
    }
  }

  lemma {:induction false} PruneKeepsSorted(ts: seq<int>, now: int, windowMs: int)
    requires Sorted(ts)
    ensures Sorted(Prune(ts, now, windowMs))
  {
    if |ts| > 0 {
      PruneKeepsSorted(ts[1..], now, windowMs);
      var rest := Prune(ts[1..], now, windowMs);
      forall t | t in rest ensures ts[0] <= t {
        assert multiset(rest)[t] > 0;
        assert t in multiset(ts[1..]);
        var k :| 0 <= k < |ts[1..]| && ts[1..][k] == t;
        assert ts[k + 1] == t;
      }
      if ts[0] > now - windowMs {
        var r := [ts[0]] + rest;
        forall i, j | 0 <= i < j < |r| ensures r[i] <= r[j] {
          assert r[j] == rest[j - 1];
          assert rest[j - 1] in rest;
          if i > 0 {
            assert r[i] == rest[i - 1];
          }
        }
      }
    }
  }

  /** A list holding a timestamp at or before the cutoff loses at least one entry. */
  lemma {:induction false} PruneDropsExpired(ts: seq<int>, now: int, windowMs: int, k: nat)
    requires k < |ts| && ts[k] <= now - windowMs
    ensures |Prune(ts, now, windowMs)| < |ts|
  {
    if k > 0 {
      PruneDropsExpired(ts[1..], now, windowMs, k - 1);
    }
  }

  /** `recordRequest` at clock `now`: append the timestamp, then prune. */
  function RecordRequest(c: Config, ts: seq<int>, now: int): (r: seq<int>)
    ensures |r| <= |ts| + 1
    ensures c.rateWindowMs > 0 ==> |r| > 0 && r[|r| - 1] == now
  {
    PruneAppend(ts, [now], now, c.rateWindowMs);
    Prune(ts + [now], now, c.rateWindowMs)
  }

  /** With a clock that never runs backwards, the list stays in ascending order, so its head is the oldest request. */
  lemma RecordRequestKeepsSorted(c: Config, ts: seq<int>, now: int)
    requires Sorted(ts)
    requires forall i :: 0 <= i < |ts| ==> ts[i] <= now
    ensures Sorted(RecordRequest(c, ts, now))
  {
    PruneKeepsSorted(ts + [now], now, c.rateWindowMs);
  }

  /** `Math.ceil(a / b)` for a positive divisor. */
  function CeilDiv(a: int, b: int): (q: int)
    requires b > 0
    ensures q * b >= a && (q - 1) * b < a
  {
    -((-a) / b)
  }

  /**
   * The fixed spacing `Math.max(minDelayMs, ceil(window / max))`. The getter
   * `minDelayMs` is itself that ceiling, so the `Math.max` is redundant; it is
   * kept to mirror the source.
   */
  function MinDelayMs(c: Config): (d: int)
    requires ValidConfig(c)
    ensures d * c.maxRequestsPerMinute >= c.rateWindowMs
    ensures (d - 1) * c.maxRequestsPerMinute < c.rateWindowMs
  {
    var minDelay := CeilDiv(c.rateWindowMs, c.maxRequestsPerMinute);
    Max(minDelay, CeilDiv(c.rateWindowMs, c.maxRequestsPerMinute))
  }

  function Max(a: int, b: int): (m: int)
    ensures m >= a && m >= b && (m == a || m == b)
  {
    if a >= b then a else b
  }

  /** What one `waitForRateLimit` call does: the sleeps it takes and the timestamps it leaves. */
  datatype Wait = Wait(timestamps: seq<int>, cooldownMs: Option<int>, delayMs: int, jitterMs: real)

  /** The window is full and its oldest entry is still inside it. */
  predicate AtCapacity(c: Config, pruned: seq<int>, now: int) {
    |pruned| >= c.maxRequestsPerMinute && |pruned| > 0 && c.rateWindowMs - (now - pruned[0]) > 0
  }

  /**
   * `waitForRateLimit`. `now` is the clock on entry, `resumedAt` the clock after
   * the cooldown sleep (read only if there is one), `random` the value of
   * `Math.random()`.
   */
  function WaitForRateLimit(c: Config, ts: seq<int>, now: int, resumedAt: int, random: real): (w: Wait)
    requires ValidConfig(c)
    requires 0.0 <= random < 1.0
    ensures var pruned := Prune(ts, now, c.rateWindowMs);
      && (w.cooldownMs.Some? <==> AtCapacity(c, pruned, now))
      && (w.cooldownMs.Some? ==>
            w.cooldownMs.value == c.rateWindowMs - (now - pruned[0]) + 1000 &&
            w.timestamps == Prune(pruned, resumedAt, c.rateWindowMs))
      && (w.cooldownMs.None? ==> w.timestamps == pruned)
    ensures w.delayMs * c.maxRequestsPerMinute >= c.rateWindowMs
    ensures (w.delayMs - 1) * c.maxRequestsPerMinute < c.rateWindowMs
    ensures var lo := c.minJitterMs.GetOr(0) as real;
            var hi := c.maxJitterMs.GetOr(0) as real;
      && (lo < hi ==> lo <= w.jitterMs < hi)
      && (lo == hi ==> w.jitterMs == lo)
      && (hi < lo ==> hi < w.jitterMs <= lo)
  {
    var pruned := Prune(ts, now, c.rateWindowMs);
    var cooldown: Option<int> :=
      if AtCapacity(c, pruned, now) then Some(c.rateWindowMs - (now - pruned[0]) + 1000) else None;
    var after := if cooldown.Some? then Prune(pruned, resumedAt, c.rateWindowMs) else pruned;
    Wait(after, cooldown, MinDelayMs(c), Jitter(c.minJitterMs.GetOr(0) as real, c.maxJitterMs.GetOr(0) as real, random))
  }

  lemma PruneSubMultiset(ts: seq<int>, now: int, windowMs: int)
    ensures multiset(Prune(ts, now, windowMs)) <= multiset(ts)
  {
    var r := Prune(ts, now, windowMs);
    forall t ensures multiset(r)[t] <= multiset(ts)[t] {
    }
  }

  /** `waitForRateLimit` only delays: it never adds a timestamp. */
  lemma WaitNeverAdds(c: Config, ts: seq<int>, now: int, resumedAt: int, random: real)
    requires ValidConfig(c) && 0.0 <= random < 1.0
    ensures multiset(WaitForRateLimit(c, ts, now, resumedAt, random).timestamps) <= multiset(ts)
  {
    var pruned := Prune(ts, now, c.rateWindowMs);
    PruneSubMultiset(ts, now, c.rateWindowMs);
    PruneSubMultiset(pruned, resumedAt, c.rateWindowMs);
  }

  /** `Math.random() * span`. */
  function Scale(random: real, span: real): real {
    random * span
  }

  /** A fraction in [0, 1) of a positive span stays below the span. */
  lemma FractionOfSpan(random: real, span: real)
    requires 0.0 <= random < 1.0 && span > 0.0
    ensures 0.0 <= Scale(random, span) < span
  {
  }

  lemma FractionOfNegativeSpan(random: real, span: real)
    requires 0.0 <= random < 1.0 && span < 0.0
    ensures span < Scale(random, span) <= 0.0
  {
    FractionOfSpan(random, -span);
    assert Scale(random, -span) == -Scale(random, span);
  }

  /** `Math.random() * (max - min) + min`, whichever way round the bounds are configured. */
  function Jitter(lo: real, hi: real, random: real): (j: real)
    requires 0.0 <= random < 1.0
    ensures lo < hi ==> lo <= j < hi
    ensures lo == hi ==> j == lo
    ensures hi < lo ==> hi < j <= lo
  {
    JitterBounds(lo, hi, random);
    Scale(random, hi - lo) + lo
  }

  lemma JitterBounds(lo: real, hi: real, random: real)
    requires 0.0 <= random < 1.0
    ensures lo < hi ==> lo <= Scale(random, hi - lo) + lo < hi
    ensures hi < lo ==> hi < Scale(random, hi - lo) + lo <= lo
  {
    if lo < hi {
      FractionOfSpan(random, hi - lo);
    } else if hi < lo {
      FractionOfNegativeSpan(random, hi - lo);
    }
  }

  /** Total time the call suspends its caller. */
  function TotalSleepMs(w: Wait): real {
    (w.cooldownMs.GetOr(0) + w.delayMs) as real + w.jitterMs
  }

  /**
   * If the clock advanced by at least the cooldown, the second prune removes at
   * least the oldest timestamp, so the caller resumes below the cap it hit.
   */
  lemma CooldownFreesASlot(c: Config, ts: seq<int>, now: int, resumedAt: int, random: real)
    requires ValidConfig(c) && 0.0 <= random < 1.0
    requires var w := WaitForRateLimit(c, ts, now, resumedAt, random);
      w.cooldownMs.Some? && resumedAt >= now + w.cooldownMs.value
    ensures var w := WaitForRateLimit(c, ts, now, resumedAt, random);
      |w.timestamps| < |Prune(ts, now, c.rateWindowMs)|
  {
    var pruned := Prune(ts, now, c.rateWindowMs);
    PruneDropsExpired(pruned, resumedAt, c.rateWindowMs, 0);
  }

  /**
   * Rate compliance: when every request is preceded by a wait (and a cooldown,
   * if one is taken, has fully elapsed), recording the request never takes the
   * window past its cap. With `Prune` never growing a list, the bound carries
   * over to the next call's entry.
   */
  lemma WaitThenRecordStaysUnderCap(c: Config, ts: seq<int>, now: int, resumedAt: int, random: real, t: int)
    requires ValidConfig(c) && 0.0 <= random < 1.0
    requires |Prune(ts, now, c.rateWindowMs)| <= c.maxRequestsPerMinute
    requires var w := WaitForRateLimit(c, ts, now, resumedAt, random);
      w.cooldownMs.Some? ==> resumedAt >= now + w.cooldownMs.value
    ensures var w := WaitForRateLimit(c, ts, now, resumedAt, random);
      |RecordRequest(c, w.timestamps, t)| <= c.maxRequestsPerMinute
  {
    var pruned := Prune(ts, now, c.rateWindowMs);
    if |pruned| > 0 {
      // Every survivor of the prune lies inside the window, so a full window always has a cooldown.
      assert pruned[0] > now - c.rateWindowMs by {
        assert multiset(pruned)[pruned[0]] > 0;
      }
    }
    if WaitForRateLimit(c, ts, now, resumedAt, random).cooldownMs.Some? {
      CooldownFreesASlot(c, ts, now, resumedAt, random);
    }
  }

  /** For the Steam limiter every call ends with a 500 ms spacing plus a jitter in [0, 500). */
  lemma SteamSpacing(ts: seq<int>, now: int, resumedAt: int, random: real)
    requires 0.0 <= random < 1.0
    ensures var w := WaitForRateLimit(STEAM_LIMITER, ts, now, resumedAt, random);
      w.delayMs == 500 && 0.0 <= w.jitterMs < 500.0
  {
  }

  datatype Stats = Stats(requestsInWindow: nat, maxRequests: int, windowMs: int)

  /** `getStats`: prunes, then reports the live count with the configured cap and window. */
  function GetStats(c: Config, ts: seq<int>, now: int): (r: (Stats, seq<int>))
    ensures r.1 == Prune(ts, now, c.rateWindowMs)
    ensures r.0.requestsInWindow == |r.1| <= |ts|
    ensures r.0.maxRequests == c.maxRequestsPerMinute && r.0.windowMs == c.rateWindowMs
  {
    var pruned := Prune(ts, now, c.rateWindowMs);
    (Stats(|pruned|, c.maxRequestsPerMinute, c.rateWindowMs), pruned)
  }
}

=== FILE: steam_config.dfy ===
/** Static configuration of the Steam Community Market provider. */
module SteamConfig {

  const PAGE_SIZE: nat := 10
  const MAX_REQUESTS_PER_MINUTE: nat := 120
  const RATE_WINDOW_MS: nat := 60000
  const MIN_JITTER_MS: int := 0
  const MAX_JITTER_MS: int := 500
  const MAX_RETRIES: nat := 3
  const MAX_CONSECUTIVE_ERRORS: nat := 3
  const RETRY_BASE_DELAY_MS: nat := 2000
  const CRITICAL_STATUS_CODES: seq<int> := [403, 429, 500, 502, 503, 504]
  const ICON_BASE_URL: string := "https://community.cloudflare.steamstatic.com/economy/image/"

  /** HTTP statuses that abort the retry loop at once. */
  predicate IsCriticalStatus(status: int) {
    status in CRITICAL_STATUS_CODES
  }

  /** One slice of the catalogue, fetched with its own search query. */
  datatype Category = Category(id: string, name: string, searchQuery: string, priority: int)

  const ASSET_CATEGORIES: seq<Category> := [
    Category("stickers", "Stickers", "Sticker |", 1),
    Category("cases", "Cases", "Case", 2),
    Category("charms", "Charms", "Charm |", 3),
    Category("graffiti", "Graffiti", "Graffiti |", 4),
    Category("patches", "Patches", "Patch |", 5)
  ]

  /** The configured ids are distinct and the list is declared in ascending priority. */
  lemma CategoriesWellFormed()
    ensures forall i, j :: 0 <= i < j < |ASSET_CATEGORIES| ==>
      ASSET_CATEGORIES[i].id != ASSET_CATEGORIES[j].id &&
      ASSET_CATEGORIES[i].priority < ASSET_CATEGORIES[j].priority
  {
  }
}

=== FILE: sync_scheduler.dfy ===
/**
 * `AssetSyncScheduler`: the single-flight sync run and its status.
 *
 * A run is one atomic transition. The provider traversal appears as a `Feed`:
 * the batches it hands to the callback, in order, and whether it finally
 * threw. `dbs(k)` is the database as seen by the k-th `syncAssetsFast` call
 * of the run.
 */
module SyncScheduler {
  import opened Wrappers
  import opened AssetMapper
  import opened AssetService
  import opened ProviderRegistry

  const SCHEDULER_BATCH_SIZE: nat := 500
  const ALREADY_RUNNING: string := "Sync already running"
  const NO_PROVIDER: string := "No asset provider configured"

  /** The fields `getSyncStatus` reports. */
  datatype Scheduler = Scheduler(isRunning: bool, lastSyncAt: Option<int>, lastSyncCount: nat)

  const INITIAL: Scheduler := Scheduler(false, None, 0)

  /** Which provider entry point a run uses, with the arguments passed to it. */
  datatype SyncMode = Priority(categories: seq<string>, startOffset: Option<int>) | Full(startOffset: Option<int>)

  /** One callback invocation: the assets and the batch number. */
  datatype Batch = Batch(assets: seq<Asset>, number: nat)

  /** What the provider call did: the callback invocations, then completion or a thrown message. */
  datatype Feed = Feed(batches: seq<Batch>, failure: Option<string>)

  datatype Response =
    | AlreadyRunning
    | Succeeded(totalCreated: nat, totalUpdated: nat, totalErrors: nat, lastProcessedOffset: int)
    | SyncFailed(message: string)

  /** A run: the response, the scheduler afterwards, the table afterwards, and `lastSyncCount` after each saved batch. */
  datatype Run = Run(response: Response, state: Scheduler, store: Store, progress: seq<nat>)

  /** The mode test: a non-empty category list and a provider that can walk categories. */
  function ChooseMode(categories: Option<seq<string>>, startOffset: Option<int>, p: Provider): (m: SyncMode)
    ensures m.Priority? <==> categories.Some? && |categories.value| > 0 && p.supportsPriority
    ensures m.Priority? ==> m.categories == categories.value
    ensures m.startOffset == startOffset
  {
    if categories.Some? && |categories.value| > 0 && p.supportsPriority then Priority(categories.value, startOffset)
    else Full(startOffset)
  }

  /** The callback's running totals. */
  datatype Totals = Totals(created: nat, updated: nat, errors: nat, offset: int, lastSyncCount: nat, store: Store, progress: seq<nat>)

  /** The callback on one batch: an empty batch is ignored, otherwise it is saved and the totals move. */
  function Absorb(t: Totals, b: Batch, dbs: nat -> Db): (r: Totals)
    ensures |b.assets| == 0 ==> r == t
    ensures |b.assets| > 0 ==> var (res, store) := FastSync(t.store, b.assets, dbs(|t.progress|));
      && r.created == t.created + res.createdCount
      && r.updated == t.updated + res.updatedCount
      && r.errors == t.errors + res.errorCount
      && r.offset == b.number * SCHEDULER_BATCH_SIZE
      && r.store == store
      && r.lastSyncCount == r.created + r.updated
      && r.progress == t.progress + [r.lastSyncCount]
  {
    if |b.assets| == 0 then t
    else
      var (res, store) := FastSync(t.store, b.assets, dbs(|t.progress|));
      var created := t.created + res.createdCount;
      var updated := t.updated + res.updatedCount;
      Totals(created, updated, t.errors + res.errorCount, b.number * SCHEDULER_BATCH_SIZE,
             created + updated, store, t.progress + [created + updated])
  }

  /** The batches that reach the database. */
  function NonEmpty(batches: seq<Batch>): (r: seq<Batch>)
    ensures |r| <= |batches|
    ensures forall i :: 0 <= i < |r| ==> |r[i].assets| > 0
  {
    if |batches| == 0 then []
    else
      var b := batches[|batches| - 1];
      NonEmpty(batches[..|batches| - 1]) + if |b.assets| > 0 then [b] else []
  }

  /** Every callback invocation of the run, in order. */
  function AbsorbAll(t: Totals, batches: seq<Batch>, dbs: nat -> Db): (r: Totals)
    ensures |r.progress| == |t.progress| + |NonEmpty(batches)|
    ensures r.progress[..|t.progress|] == t.progress
    ensures |NonEmpty(batches)| == 0 ==> r == t
    ensures |NonEmpty(batches)| > 0 ==> r.lastSyncCount == r.created + r.updated
    ensures |NonEmpty(batches)| > 0 ==> r.offset == NonEmpty(batches)[|NonEmpty(batches)| - 1].number * SCHEDULER_BATCH_SIZE
    ensures |r.progress| > |t.progress| ==> r.progress[|r.progress| - 1] == r.lastSyncCount
    ensures r.created >= t.created && r.updated >= t.updated && r.errors >= t.errors
  {
    if |batches| == 0 then t
    else Absorb(AbsorbAll(t, batches[..|batches| - 1], dbs), batches[|batches| - 1], dbs)
  }

  /** Empty batches are invisible: the run over the non-empty ones alone ends in the same totals. */
  lemma {:induction false} EmptyBatchesIgnored(t: Totals, batches: seq<Batch>, dbs: nat -> Db)
    ensures AbsorbAll(t, batches, dbs) == AbsorbAll(t, NonEmpty(batches), dbs)
    decreases |batches|
  {
    if |batches| > 0 {
      var front := batches[..|batches| - 1];
      var b := batches[|batches| - 1];
      EmptyBatchesIgnored(t, front, dbs);
      NonEmptyIdempotent(front);
      var ne := NonEmpty(batches);
      if |b.assets| > 0 {
        assert ne == NonEmpty(front) + [b];
        assert ne[..|ne| - 1] == NonEmpty(front);
      } else {
        assert ne == NonEmpty(front);
      }
    }
  }

  lemma {:induction false} NonEmptyIdempotent(batches: seq<Batch>)
    ensures NonEmpty(NonEmpty(batches)) == NonEmpty(batches)
    decreases |batches|
  {
    if |batches| > 0 {
      var front := batches[..|batches| - 1];
      var b := batches[|batches| - 1];
      NonEmptyIdempotent(front);
      var ne := NonEmpty(batches);
      if |b.assets| > 0 {
        assert ne == NonEmpty(front) + [b];
        assert ne[..|ne| - 1] == NonEmpty(front) && ne[|ne| - 1] == b;
        assert NonEmpty(ne) == NonEmpty(ne[..|ne| - 1]) + [b];
      } else {
        assert ne == NonEmpty(front);
      }
    }
  }

  /** `lastSyncCount` as seen between batches never goes down during a run. */
  predicate Monotone(t: Totals) {
    && (forall i, j :: 0 <= i < j < |t.progress| ==> t.progress[i] <= t.progress[j])
    && (|t.progress| > 0 ==> t.progress[|t.progress| - 1] <= t.created + t.updated)
  }

  lemma AbsorbKeepsMonotone(t: Totals, b: Batch, dbs: nat -> Db)
    requires Monotone(t)
    ensures Monotone(Absorb(t, b, dbs))
  {
    var r := Absorb(t, b, dbs);
    if |b.assets| > 0 {
      forall i, j | 0 <= i < j < |r.progress| ensures r.progress[i] <= r.progress[j] {
        if j == |r.progress| - 1 && i < |t.progress| {
          assert r.progress[i] == t.progress[i] <= t.progress[|t.progress| - 1];
        }
      }
    }
  }

  lemma {:induction false} ProgressNeverDecreases(t: Totals, batches: seq<Batch>, dbs: nat -> Db)
    requires Monotone(t)
    ensures Monotone(AbsorbAll(t, batches, dbs))
    decreases |batches|
  {
    if |batches| > 0 {
      ProgressNeverDecreases(t, batches[..|batches| - 1], dbs);
      AbsorbKeepsMonotone(AbsorbAll(t, batches[..|batches| - 1], dbs), batches[|batches| - 1], dbs);
    }
  }

  function StartTotals(startOffset: Option<int>, s: Scheduler, store: Store): Totals {
    Totals(0, 0, 0, startOffset.GetOr(0), s.lastSyncCount, store, [])
  }

  /** `syncAssets(categories, startOffset)` at time `now`, with the registry `reg`. */
  function SyncAssets(s: Scheduler, reg: Registry, categories: Option<seq<string>>, startOffset: Option<int>,
                      feed: SyncMode -> Feed, store: Store, dbs: nat -> Db, now: int): (r: Run)
    ensures r.response.AlreadyRunning? <==> s.isRunning
    ensures s.isRunning ==> r.state == s && r.store == store && r.progress == []
    ensures !s.isRunning ==> !r.state.isRunning
    ensures r.response.SyncFailed? ==> r.state.lastSyncAt == s.lastSyncAt
    ensures r.response.Succeeded? ==> r.state.lastSyncAt == Some(now)
    ensures !s.isRunning && reg.current.None? ==> r.response == SyncFailed(NO_PROVIDER) && r.store == store
    ensures |r.progress| > 0 ==> r.state.lastSyncCount == r.progress[|r.progress| - 1]
    ensures |r.progress| == 0 ==> r.state.lastSyncCount == s.lastSyncCount
  {
    if s.isRunning then Run(AlreadyRunning, s, store, [])
    else match GetProvider(reg)
      case Failure(_) => Run(SyncFailed(NO_PROVIDER), s, store, [])
      case Success(p) =>
        var f := feed(ChooseMode(categories, startOffset, p));
        var t := AbsorbAll(StartTotals(startOffset, s, store), f.batches, dbs);
        var after := Scheduler(false, s.lastSyncAt, t.lastSyncCount);
        match f.failure
        case Some(msg) => Run(SyncFailed(msg), after, t.store, t.progress)
        case None => Run(Succeeded(t.created, t.updated, t.errors, t.offset), after.(lastSyncAt := Some(now)), t.store, t.progress)
  }

  /** `getSyncStatus()`: a read of the three fields. */
  datatype Status = Status(isRunning: bool, lastSyncAt: Option<int>, lastSyncCount: nat)

  function GetSyncStatus(s: Scheduler): (r: Status)
    ensures r.isRunning == s.isRunning && r.lastSyncAt == s.lastSyncAt && r.lastSyncCount == s.lastSyncCount
  {
    Status(s.isRunning, s.lastSyncAt, s.lastSyncCount)
  }

  /**
   * A successful run reports totals that add up over the saved batches, and
   * its status afterwards shows the run finished at `now` with
   * created + updated items.
   */
  lemma SuccessfulRun(s: Scheduler, reg: Registry, categories: Option<seq<string>>, startOffset: Option<int>,
                      feed: SyncMode -> Feed, store: Store, dbs: nat -> Db, now: int)
    requires !s.isRunning && reg.current.Some?
    requires feed(ChooseMode(categories, startOffset, reg.current.value)).failure.None?
    ensures var r := SyncAssets(s, reg, categories, startOffset, feed, store, dbs, now);
      var f := feed(ChooseMode(categories, startOffset, reg.current.value));
      && r.response.Succeeded?
      && (|NonEmpty(f.batches)| > 0 ==> GetSyncStatus(r.state) == Status(false, Some(now), r.response.totalCreated + r.response.totalUpdated))
      && (|NonEmpty(f.batches)| == 0 ==> r.response == Succeeded(0, 0, 0, startOffset.GetOr(0)) && r.store == store)
  {
  }

  /** A failing provider call keeps whatever batches were saved before it threw. */
  lemma FailedRunKeepsSavedBatches(s: Scheduler, reg: Registry, categories: Option<seq<string>>, startOffset: Option<int>,
                                   feed: SyncMode -> Feed, store: Store, dbs: nat -> Db, now: int)
    requires !s.isRunning && reg.current.Some?
    requires feed(ChooseMode(categories, startOffset, reg.current.value)).failure.Some?
    ensures var r := SyncAssets(s, reg, categories, startOffset, feed, store, dbs, now);
      var f := feed(ChooseMode(categories, startOffset, reg.current.value));
      && r.response == SyncFailed(f.failure.value)
      && r.store == AbsorbAll(StartTotals(startOffset, s, store), f.batches, dbs).store
      && r.state == Scheduler(false, s.lastSyncAt, AbsorbAll(StartTotals(startOffset, s, store), f.batches, dbs).lastSyncCount)
  {
  }

  /**
   * Batch numbers restart at 1 for each category, so in priority mode the
   * reported offset can go down: after batch 3 of one category and batch 1
   * of the next it is 500, not 2000.
   */
  lemma OffsetCanDecrease(a: Asset, dbs: nat -> Db, store: Store)
    ensures var t := StartTotals(None, INITIAL, store);
      && AbsorbAll(t, [Batch([a], 3)], dbs).offset == 1500
      && AbsorbAll(t, [Batch([a], 3), Batch([a], 1)], dbs).offset == 500
  {
    var t := StartTotals(None, INITIAL, store);
    assert [Batch([a], 3)][..0] == [];
    assert [Batch([a], 3), Batch([a], 1)][..1] == [Batch([a], 3)];
    assert NonEmpty([Batch([a], 3)]) == [Batch([a], 3)];
  }
}

=== FILE: wrappers.dfy ===
/** Option and Result values standing in for the source's `undefined` and thrown errors. */
module Wrappers {

  /** `None` stands for a JavaScript `undefined`. */
  datatype Option<+T> = None | Some(value: T) {

    /** The carried value, or `default` when absent. */
    function GetOr(default: T): T {
      match this
      case Some(v) => v
      case None => default
    }
  }

  /** `Failure` stands for an exception the source throws. */
  datatype Result<+R, +E> = Success(value: R) | Failure(error: E)
}
